=== FILE: README.md ===
# NTUtils core in Dafny

NTUtils holds two Windows console tools:

- `ntsuspend` suspends, resumes or tests processes.
- `ntpriority` sets or tests their priority class.

Each tool runs on the local computer. It can also run on a remote one by copying its own executable there, starting it as a service, and sending it one request over a named pipe. The repository holds two generations of each tool:

- **Newer** (`src/`): XML or plain output collected by a results aggregator. Length-prefixed strings on the wire.
- **Older** (top level and `include/`): plain output written directly. A one-byte name length on the wire.

This project models the logic shared by those tools and proves properties of it:

- the command-line option parser;
- the process selector and its wire encoding;
- the wire codec for integers and strings;
- error records and their text and XML forms;
- the results aggregator and its own messages;
- the remote session helpers (log on, copy, install, stop);
- the older client/service framework;
- the message parsers, client messages and command lines of all four tools;
- the Tool Help fallback that walks a snapshot of processes and threads.

Conventions:

- The ANSI build is modelled. A `char` is one byte and a string is `seq<char>`.
- A `DWORD` is `Wrappers.U32`. It goes on the wire as four little-endian bytes.
- Every answer of the operating system is an input of the model. This covers the message catalogue, WNet calls, service-manager replies, pipe reads and snapshots.
- Where the C++ behaviour is undefined, the model returns an explicit `Undefined` value.

Modules and files:

| module | file | models |
|---|---|---|
| `Wrappers` | wrappers.dfy | Option, Result, Outcome, Handling, U32 |
| `Text` | text.dfy | C strings, `trim`, `make_xml_attribute_value`, `to_string`, `_tcsicmp`/`_tcsnicmp` |
| `StrToUL` | strtoul.dfy | `_tcstoul(s, &end, 0)` |
| `Message` | message.dfy | src/include/ntutils/message.h |
| `Errors` | errors.dfy | src/include/basic/error.h, src/include/ntutils/WNet_error.h |
| `LegacyErrors` | legacy_errors.dfy | include/basic/error.h, include/ntutils/WNet_error.h |
| `Options` | options.dfy | include/ntutils/console.h |
| `Processes` | processes.dfy | src/include/ntutils/processes.h, src/include/ntutils/shlwapi_dll.h |
| `LegacyProcesses` | legacy_processes.dfy | include/ntutils/processes.h |
| `Results` | results.dfy | src/include/ntutils/results.h |
| `ServiceControl` | service_control.dfy | the stop-and-wait loop of both remote_ops.h |
| `RemoteOps` | remote_ops.dfy | src/include/ntutils/remote_ops.h |
| `LegacyRemoteOps` | legacy_remote_ops.dfy | include/ntutils/remote_ops.h |
| `RemoteFramework` | remote_framework.dfy | include/ntutils/remote_framework.h |
| `Tools` | tools.dfy | what src/ntsuspend.cpp and src/ntpriority.cpp share |
| `Suspend`, `Priority` | suspend.dfy, priority.dfy | src/ntsuspend.cpp, src/ntpriority.cpp |
| `LegacySuspend`, `LegacyPriority` | legacy_suspend.dfy, legacy_priority.dfy | ntsuspend.cpp, ntpriority.cpp |
| `Toolhelp` | toolhelp.dfy | include/ntutils/tlhelp32_dll.h |

Where the code and its description disagree, the model follows the code:

- The older client framework always stops and deletes the remote service when it finishes, even one that existed before it started.
- The older `ntpriority.cpp` uses the framework's `handle_option` as if it returned whether it took the option. The framework's member returns nothing. The model gives the client the options `c`, `u` and `p`, which is what both older tools do in effect.

## Model

| member | source | states |
|---|---|---|
| Text.CStr | src/include/basic/string_def.h:41-42 | A C string is the longest NUL-free prefix; it stops exactly at the first NUL |
| Text.CStrOfNulFree | src/include/basic/string_def.h:41-42 | A string without NUL is its own C string |
| Text.CStrIs | src/include/basic/string_def.h:41-42 | A NUL-free string is what a C-string scan of a buffer sees exactly when it starts the buffer and is followed by the end or by a NUL |
| Text.FirstNonSpace | src/include/basic/string_def.h:139 | The first position from `from` that is not one of " \r\n\t", everything before it being such a character |
| Text.LastNonSpace | src/include/basic/string_def.h:142 | The last position below `upto` that is not white space, or -1; everything after it is white space |
| Text.Trim | src/include/basic/string_def.h:136-143 | The trimmed text is a contiguous piece of the input that starts and ends with a non-space character |
| Text.TrimUnique | src/include/basic/string_def.h:136-143 | Reference definition: trimming white space + trimmed core + white space gives back exactly the core |
| Text.TrimIdempotent | src/include/basic/string_def.h:136-143 | Trimming twice is trimming once |
| Text.Escape | src/include/basic/string_def.h:151-159 | The escaped value contains no '<', no '\'' and no bare '&', so it is valid content of a single-quoted XML attribute value |
| Text.EscapeStep | src/include/basic/string_def.h:151-159 | Escaping one more character keeps the text valid attribute content and unescapes to that character in front |
| Text.UnescapeEscape | src/include/basic/string_def.h:145-162 | Reading the references back recovers the original value exactly (escaping loses nothing) |
| Text.XmlAttributeValue | src/include/basic/string_def.h:145-162 | The value in single quotes, markup-free inside, and its content unescapes to the given value |
| Text.Decimal | src/include/basic/string.h:37 | `to_string` gives at least one digit, all digits, and a leading zero only for 0 |
| Text.DecimalHasNoMarkup | src/include/basic/string.h:37 | A rendered number needs no escaping and has no NUL |
| Text.NIcmpIsPrefix | src/include/ntutils/processes.h:45 | `_tcsnicmp(a, b, len(b)) == 0` holds exactly when `b` is a case-insensitive prefix of `a` |
| Text.NIcmpSymmetric | include/ntutils/console.h:220 | The bounded case-insensitive comparison does not depend on the order of its operands |
| StrToUL.SkipSpace | src/include/ntutils/processes.h:104 | The conversion skips exactly the leading white space |
| StrToUL.DigitsEnd | src/ntpriority.cpp:117 | The digit run is maximal: every character in it is a digit of the base and the one after it is not |
| StrToUL.BaseAndStart | src/ntpriority.cpp:117 | Base 0 picks base 8, 10 or 16 from the prefix and the digits start at or after it |
| StrToUL.SignEnd | src/ntpriority.cpp:117 | The optional sign is skipped without leaving the text |
| StrToUL.Convert | src/ntpriority.cpp:117-118 | The end pointer stays in the text, and an end at the start means the value 0 |
| StrToUL.Parse | src/include/ntutils/processes.h:104-105 | The end pointer stays inside the text, and a conversion that read no digits gives 0 |
| StrToUL.HornerDecimal | src/include/basic/string.h:37 | The digits of `to_string(n)` denote `n` |
| StrToUL.DecimalRoundTrip | src/include/ntutils/processes.h:104-105 | Converting `to_string(n)` gives back `n` and consumes the whole text, so `*end == 0` |
| StrToUL.LeadingSpace | src/include/ntutils/processes.h:104 | A space in front changes the value of a successful conversion not at all and the end by one |
| StrToUL.NegatedDecimal | src/ntpriority.cpp:117 | "-n" converts to 2^32 - n modulo 2^32, as an unsigned long conversion does |
| StrToUL.NoDigits | src/ntpriority.cpp:117-118 | Text without a decimal digit converts to 0 with the end pointer at the start |
| Message.Encode32 | src/include/ntutils/message.h:11-16 | An unsigned is written as four byte-valued characters |
| Message.Decode32Encode32 | src/include/ntutils/message.h:11-27 | The four bytes written for `x` are read back as `x`, whatever surrounds them |
| Message.Encode32Decode32 | src/include/ntutils/message.h:18-27 | Any four bytes read as a value are written back as the same four bytes |
| Message.EncodeBinary | src/include/ntutils/message.h:11-16 | Encoding appends exactly four bytes and keeps the message before them |
| Message.DecodeBinary | src/include/ntutils/message.h:18-27 | Decoding fails exactly when fewer than four bytes remain, with the "incomplete" error for the field; otherwise it yields the little-endian value at the position and moves past its four bytes |
| Message.DecodeBinaryEncodeBinary | src/include/ntutils/message.h:11-27 | Round trip of `encode_binary_data` and `decode_binary_data` |
| Message.EncodeString | src/include/ntutils/message.h:29-34 | A string goes out as its length modulo 2^32 and its characters up to the first NUL |
| Message.StringFitsAsWrittenOverruns | src/include/ntutils/message.h:39-40 | The 32-bit bound check lets a length of 2^32-1 through on a 5-byte buffer, although the data does not fit |
| Message.StringFitsAgree | src/include/ntutils/message.h:39-40 | Where `i + length` does not wrap, the check as written and the intended check agree |
| Message.DecodeString | src/include/ntutils/message.h:36-43 | Decoding succeeds exactly when the four-byte length field and that many characters after it fit in the buffer, with no 32-bit wrap-around; a failure is the "incomplete" error for the field |
| Message.DecodeStringEncodeString | src/include/ntutils/message.h:29-43 | Round trip of `encode_string` and `decode_string` for NUL-free strings shorter than 2^32 |
| Message.DecodeStringTruncated | src/include/ntutils/message.h:36-43 | Every truncation of an encoded string before its last byte is rejected as incomplete |
| Errors.FormatMessage | src/include/basic/error.h:33-41 | The message is "<type> error: '<description>'", followed by " from <function>" exactly when a function is named |
| Errors.FormatMessageInjective | src/include/basic/error.h:33-41 | The message text determines the description |
| Errors.FormatMessageAmbiguous | src/include/basic/error.h:33-51 | Example: description "a' from b" with no function and description "a" from function "b'" give the same message, but different XML forms |
| Errors.FormatXml | src/include/basic/error.h:43-51 | The XML form is one `error` element with no nested markup |
| Errors.FormatXmlInjective | src/include/basic/error.h:43-51 | The XML form determines the type, the description and the function |
| Errors.FormatXmlShape | src/include/basic/error.h:43-51 | The XML form is "<error type=", the quoted type, " message=", the quoted description, the function attribute and " />", in that order |
| Errors.FunctionAttributeShape | src/include/basic/error.h:46-49 | The function attribute is empty without a function, otherwise " function=" and the quoted name |
| Errors.ShapeInjective | src/include/basic/error.h:43-51 | Each quoted value ends at its closing quote, so two equal documents have equal type and description values and equal function attributes |
| Errors.QuotedSplit | src/include/basic/string_def.h:145-162 | A quoted value with no quote inside, followed by more text, is determined by the whole |
| Errors.General | src/include/basic/error.h:69 | `error(description)` is a General error without a function: its message and XML are exactly `format_message` and `format_xml` of "General" and the description, so Errors.FormatXmlShape and Errors.FormatXmlInjective apply to it |
| Errors.GeneralInjective | src/include/basic/error.h:69 | Two General errors are equal exactly when their descriptions are |
| Errors.SystemDescription | src/include/basic/error.h:102-131 | The catalogue text cut at its NUL and trimmed, or "Unknown error <code>" when there is none; always trimmed |
| Errors.CodeAttribute | src/include/basic/error.h:144-145 | The code attribute holds the code's decimal digits and needs no escaping |
| Errors.CodeAttributeReadsBack | src/include/basic/error.h:144-145 | The digits in the code attribute convert back to the code |
| Errors.Win32Xml | src/include/basic/error.h:144-145 | A Win32 error's XML form is one `error` element whose last attribute is the code |
| Errors.Win32XmlShape | src/include/basic/error.h:144-145 | The XML form is exactly `<error type='Win32' message=` and the quoted description, ` function=` and the quoted function, ` code='`, the code's decimal digits and `' />` |
| Errors.Win32XmlInjective | src/include/basic/error.h:144-145 | The XML form of a Win32 error determines its description, its function and its code |
| Errors.PlainKinds | src/include/basic/error.h:144 | The type names Win32 and WNet are quoted without escaping, as the literal `type='Win32'` and `type='WNet'` |
| Errors.Win32 | src/include/basic/error.h:140-146 | A Win32 error's message is the Win32 format of the system description; its XML form is exactly the Win32 element of that description, the function and the code |
| Errors.ExtendedLoop | src/include/ntutils/WNet_error.h:26-48 | The intended loop gives the provider's message and name cut at the NUL, or "Unknown error" when the provider fails |
| Errors.ExtendedLoopAsWritten | src/include/ntutils/WNet_error.h:26-48 | The loop as written can only ever return "Unknown error" |
| Errors.ExtendedLoopAsWrittenDiverges | src/include/ntutils/WNet_error.h:43-47 | Whenever the provider reports its error, the loop as written runs out of every fuel bound |
| Errors.ExtendedLoopCounterexample | src/include/ntutils/WNet_error.h:43-47 | A concrete provider report that the intended loop returns and the loop as written never does |
| Errors.LastMessage | src/include/ntutils/WNet_error.h:15-49 | An ordinary code is described from the system catalogue with no provider; the extended code asks the provider |
| Errors.WNetXml | src/include/ntutils/WNet_error.h:59-64 | A network error's XML form is one element ending in the provider, or in the code when there is no provider |
| Errors.WNetXmlShape | src/include/ntutils/WNet_error.h:59-64 | The XML form is exactly `<error type='WNet' message=` and the quoted description, ` function=` and the quoted function, then ` code='<digits>'` when there is no provider or ` provider=` and the quoted provider when there is, then ` />` |
| Errors.WNetXmlInjective | src/include/ntutils/WNet_error.h:59-64 | The XML form of a network error determines its description, function and provider, and its code when there is no provider |
| Errors.WNetLast | src/include/ntutils/WNet_error.h:61-64 | The closing attributes of a network error never contain markup |
| Errors.WNet | src/include/ntutils/WNet_error.h:51-65 | The network error's message names the provider only when there is one; its XML form is exactly the WNet element of the description, the function, and the code or the provider |
| LegacyErrors.Typed | include/basic/error.h:58-59 | The older message format always names the function |
| LegacyErrors.Plain | include/basic/error.h:62 | A plain older error carries its message as given and no code |
| LegacyErrors.Win32 | include/basic/error.h:122-123 | The older Win32 error has the same message as the newer one and carries the code |
| LegacyErrors.LastMessage | include/ntutils/WNet_error.h:15-40 | The older description: the system text, or the provider's message followed by the provider in parentheses |
| LegacyErrors.WNet | include/ntutils/WNet_error.h:42-43 | The older network error has no code and the typed WNet message |
| LegacyErrors.WNetVersionsAgree | include/ntutils/WNet_error.h:38 | Both generations word a network error the same, except exactly when the provider's name is empty |
| Options.CacheLengths | include/ntutils/console.h:176-183 | Each definition's cached length is the length of its long name, 0 without one |
| Options.FindShort | include/ntutils/console.h:92-97 | The first definition whose non-NUL letter matches, and none before it matches; None exactly when none matches |
| Options.FindShortAt | include/ntutils/console.h:92-95 | A definition with the letter and none before it with that letter is the one found |
| Options.FindLong | include/ntutils/console.h:218-225 | The first definition whose cached-length name matches the word's start, none before it matching |
| Options.LongMatchesIsPrefix | include/ntutils/console.h:219-221 | A long name matches exactly when it is a case-insensitive prefix of the text after "--" |
| Options.DoGetopt | include/ntutils/console.h:90-164 | An undefined letter is the "Unknown option -<c>" failure; a letter without arguments keeps the index and moves the cursor on, or moves to the next word after the last letter of the run; an argument is the rest of the word, else the next word unless it is missing or dashed, where a required argument is the "Option -<c> requires an argument" failure; reading beyond the vector is undefined; an optional option at the end of its run always succeeds when the next read is within the vector; as written an optional option without argument leaves the run cursor as it was |
| Options.LongOption | include/ntutils/console.h:206-273 | An unknown long option and an argument given to a no-argument option are failures with their exact messages; with "=" the text after it is the argument; a required argument missing at the end or before a dashed word is the "requires an argument" failure; otherwise the next word is the argument, and reading beyond the vector is undefined; an accepted option moves past its words |
| Options.Getopt | include/ntutils/console.h:186-283 | Done exactly at the terminator outside a run; bare words, "-" and "--" come back as arguments without an option |
| Options.GetoptProgress | include/ntutils/console.h:186-283 | The corrected parser never reads past the terminator and always moves on, so every parse ends |
| Options.DoGetoptProgress | include/ntutils/console.h:90-164 | A corrected short-option step moves to a later word or one character further |
| Options.LongOptionProgress | include/ntutils/console.h:206-273 | A corrected long-option step moves to a later word |
| Options.GetoptDecreases | include/ntutils/console.h:186-283 | For either variant, a step that returns an option keeps the cursor inside the vector and moves to a later word or further along the current run, so every parse ends |
| Options.DoGetoptDecreases | include/ntutils/console.h:90-164 | A short-option step of either variant keeps the cursor inside the vector and moves to a later word or one character along the run |
| Options.GetoptProgressWhen | include/ntutils/console.h:186-283 | From a valid state the corrected parser never reads beyond the vector and stays in a valid state |
| Options.ParseFrom | include/ntutils/console.h:186-283 | Calling `getopt` until it returns false: a parse error and a read beyond the vector never come together, and from a valid state the corrected parser never reads beyond the vector |
| Options.Parse | include/ntutils/console.h:186-283 | An empty vector gives no events; a parse error and a read beyond the vector exclude each other; the corrected parser is always defined |
| Options.ParseBareWords | include/ntutils/console.h:197-204 | Words without a leading '-' come back one by one, in order, with no error |
| Options.NoArgumentRun | include/ntutils/console.h:150-163 | A run "-abc" of options without arguments reports each letter in order, with no argument, and then the parse goes on with the next word, in either variant |
| Options.NoArgumentStep | include/ntutils/console.h:150-163 | One call inside such a run reports the letter under the cursor; the index stays unless it was the last letter |
| Options.ParseFromNext | include/ntutils/console.h:186-283 | A call that returns an option puts its event in front of what the following calls give |
| Options.RunEndingInOptionalRepeats | include/ntutils/console.h:145-147 | As written, "-xp" gives -x, then -p, then reads the vector past its terminator |
| Options.RunEndingInOptionalUndefined | include/ntutils/console.h:145-147 | As written, every run "-ab" ending in an optional-argument option gives both options and then reads beyond the vector |
| Options.RunEndingInOptionalCorrected | include/ntutils/console.h:145-147 | Corrected, "-xp" parses to -x and -p without argument and nothing else |
| Options.UnknownLongDoubled | include/ntutils/console.h:225 | As written "--bogus" is reported as "----bogus"; corrected, as "--bogus" |
| Options.UnknownLongEchoes | include/ntutils/console.h:224-225 | For every unknown long option, the message as written doubles the dashes and the corrected one quotes the word |
| Processes.ExtensionDot | src/include/ntutils/shlwapi_dll.h:11-20 | The backward scan finds a dot with no separator after it, or only dots that a separator follows |
| Processes.RemoveExtension | src/include/ntutils/shlwapi_dll.h:9-21 | The result is a prefix of the C string, cut at the last dot of the last path component |
| Processes.ExtensionDotAt | src/include/ntutils/shlwapi_dll.h:12-19 | The dot found is the last one before any separator |
| Processes.RemoveExtensionOfExtended | src/include/ntutils/shlwapi_dll.h:9-21 | Removing the extension from "base.ext" gives back "base" |
| Processes.RemoveExtensionWithoutDot | src/include/ntutils/shlwapi_dll.h:9-21 | A name without a dot is unchanged |
| Processes.PrefixMatch | src/include/ntutils/processes.h:43-46 | The substring mode is a case-insensitive prefix test of the name against the executable |
| Processes.ExactMatchIgnoresExtension | src/include/ntutils/processes.h:27-39 | The exact mode accepts the executable's base name in any case |
| Processes.Collect | src/include/ntutils/processes.h:17-50 | A pid is in the map exactly when some kept record has it, and it maps to the last such record's name |
| Processes.CollectStep | src/include/ntutils/processes.h:22-48 | One more record adds its pid if kept and otherwise keeps the earlier choices |
| Processes.FindById | src/include/ntutils/processes.h:53-67 | The map holds only the pid, exactly when a record has it, with the first such record's name |
| Processes.FirstWithPid | src/include/ntutils/processes.h:58-65 | The loop stops at the first record with the pid |
| Processes.HandleOption | src/include/ntutils/processes.h:97-118 | Only -i, -n, -s are taken; -i rejects 0 and trailing text; -n sets the name; -s turns off exact matching |
| Processes.PidOptionAcceptsDecimal | src/include/ntutils/processes.h:101-108 | Any non-zero pid written in decimal is accepted as that pid |
| Processes.PidOptionRejectsZero | src/include/ntutils/processes.h:104-106 | An argument that converts to 0 is rejected with the --pid message |
| Processes.ValidateOptions | src/include/ntutils/processes.h:120-126 | Accepts exactly: a pid or a name (or neither when allowed), not both; each failure has its own message |
| Processes.SelectProcesses | src/include/ntutils/processes.h:128-136 | A pid is selected exactly when some record has it and the selector wants that record |
| Processes.SelectCollected | src/include/ntutils/processes.h:128-136 | The name search and the full listing select exactly the wanted records |
| Processes.LastIndex | src/include/ntutils/processes.h:22-31 | Every chosen pid has a last kept record, the one whose name the map holds |
| Processes.EncodeTarget | src/include/ntutils/processes.h:138-153 | A pid wins over a name; 'i' and four bytes, or 'n'/'s' and a string; nothing for no target |
| Processes.DecodeTarget | src/include/ntutils/processes.h:155-178 | No target and unknown tags are errors; a pid tag yields the little-endian value of the next four bytes, or the "incomplete pid target" error; a name tag fails exactly when its string does not fit, with the "incomplete name target" error; 's' clears exact matching |
| Processes.DecodeName | src/include/ntutils/processes.h:167-174 | A decoded name comes from after the length field and ends inside the message |
| Processes.DecodeTargetEncodeTarget | src/include/ntutils/processes.h:138-178 | Round trip: the service rebuilds the selector the client encoded |
| Processes.XmlAttribute | src/include/ntutils/processes.h:180-188 | "all" exactly for the empty selector, otherwise the name or pid attribute; never markup |
| Processes.NameAttribute | src/include/ntutils/processes.h:185 | "target_process_name=", the quoted escaped name and " exact_match='1'" or " exact_match='0'" (`to_string` of the flag as an unsigned number); the quoted value reads back to the name and there is no markup |
| Processes.PidAttribute | src/include/ntutils/processes.h:187 | "target_process_id='", the pid in decimal and a quote; `strtoul` reads the digits back to the pid, and there is no markup |
| Processes.XmlAttributeInjective | src/include/ntutils/processes.h:180-188 | The target attribute determines the name, its matching mode when there is a name, and the pid when there is none |
| Processes.NameAttributeInjective | src/include/ntutils/processes.h:185 | The name attribute determines the name and the matching mode |
| Processes.ValidateProcessList | src/include/ntutils/processes.h:190-198 | Fails exactly on an empty selection, naming the pid or the quoted name |
| LegacyProcesses.AddTarget | include/ntutils/processes.h:139-159 | The older target: 'i' and four bytes, or the tag, the length modulo 256 in one byte, and the name |
| LegacyProcesses.NameLength | include/ntutils/processes.h:183 | Through signed `char` a length byte of 128 or more becomes 2^32 - 256 + byte; corrected, the byte itself |
| LegacyProcesses.ReadName | include/ntutils/processes.h:181-188 | The corrected read is never undefined; below 128 and without wrap it succeeds exactly when the name fits |
| LegacyProcesses.GetTarget | include/ntutils/processes.h:161-191 | End of message and unknown tags leave the index alone; short pid and length fields are refused |
| LegacyProcesses.GetTargetAddTarget | include/ntutils/processes.h:139-191 | Round trip for names below 256 characters corrected, and below 128 as written |
| LegacyProcesses.LongNameRefused | include/ntutils/processes.h:183-185 | As written, a 128-character name is refused as incomplete |
| LegacyProcesses.LongestNameUndefined | include/ntutils/processes.h:183-186 | As written, a 255-character name passes the wrapped check and is copied from past the end |
| LegacyProcesses.LongNamesCorrected | include/ntutils/processes.h:183-187 | Corrected, every name of 128 to 255 characters is read back |
| LegacyProcesses.ValidateProcessList | include/ntutils/processes.h:193-201 | Fails exactly on an empty selection, naming the pid or the unquoted name |
| LegacyProcesses.ValidateProcessListGenerations | include/ntutils/processes.h:193-201 | Both generations fail alike; they differ only by the quotes around a name |
| Results.HandleOption | src/include/ntutils/results.h:32-39 | Only -x is taken, and it turns on XML output |
| Results.ContextStringConcat | src/include/ntutils/results.h:41-47 | The context string of a stack is the concatenation of the strings of its parts |
| Results.ContextStringTwo | src/include/ntutils/results.h:41-47 | Example: two labels give "A: B: " |
| Results.ReportError | src/include/ntutils/results.h:49-57 | An error raises the flag and appends its XML, or a line with the context prefix |
| Results.ReportWarning | src/include/ntutils/results.h:59-65 | A text warning leaves the flag alone and appends an escaped element or a "Warning: " line |
| Results.ReportWarningError | src/include/ntutils/results.h:67-73 | An error warning leaves the flag alone and wraps the error's XML or message |
| Results.ReportResult | src/include/ntutils/results.h:75-86 | A result appends an element in XML or a prefixed line in plain mode, and nothing else changes |
| Results.ResultElement | src/include/ntutils/results.h:79-82 | Without attributes the message becomes an escaped value attribute; otherwise the attributes are used as given |
| Results.ReportInfo | src/include/ntutils/results.h:88-92 | Only XML output carries info records |
| Results.ReturnCode | src/include/ntutils/results.h:95-99 | -1 exactly when an error was seen, 0 otherwise |
| Results.RegisterContext | src/include/ntutils/results.h:101-107 | XML opens an element; plain mode pushes the label |
| Results.UnregisterContext | src/include/ntutils/results.h:109-115 | XML closes the element; plain mode pops exactly the last label |
| Results.ComputerContext | src/include/ntutils/results.h:191-195 | The label is the computer's name; the attributes are exactly `computer=` and the quoted name, with no markup |
| Results.ComputerContextInjective | src/include/ntutils/results.h:191-195 | The computer attribute determines the computer |
| Results.ProcessContext | src/include/ntutils/results.h:197-202 | The label is "name (pid)"; the attributes are exactly `process_name=` and the quoted name, then ` process_id='`, the pid's decimal digits and a quote, with no markup |
| Results.ProcessContextInjective | src/include/ntutils/results.h:197-202 | The process attributes determine the name and the pid |
| Results.EncodeLabels | src/include/ntutils/results.h:124-125 | The labels are appended after the message |
| Results.EncodeMessage | src/include/ntutils/results.h:117-126 | The mode tag, then a count and labels, appended after the message |
| Results.DecodeLabels | src/include/ntutils/results.h:140-142 | Reads exactly `count` labels or fails with the context error |
| Results.DecodeMessage | src/include/ntutils/results.h:128-143 | No mode and unknown modes are errors; a success moves past what it read |
| Results.PushedLabels | src/include/ntutils/results.h:141-142 | The labels pushed when the loop stops: all of them on success, fewer than the count when a label fails |
| Results.DecodeMessageEffect | src/include/ntutils/results.h:128-143 | The aggregator after decoding, thrown or not: 'x' turns XML on even when a later read fails, labels read before a failure stay pushed, nothing else changes, and on success it is the decoded aggregator |
| Results.DecodeLabelsEncodeLabels | src/include/ntutils/results.h:117-143 | Round trip of the labels |
| Results.MessageFields | src/include/ntutils/results.h:117-143 | The tag, count and labels are read back in turn |
| Results.DecodeMessageEncodeMessage | src/include/ntutils/results.h:117-143 | The service, from a fresh aggregator, recovers the client's mode and labels |
| Results.EncodeResponse | src/include/ntutils/results.h:145-152 | The response tag is '1' exactly when an error was seen |
| Results.ParseResponse | src/include/ntutils/results.h:154-169 | A response parses exactly when it has a valid tag and a complete string; the flag is the tag |
| Results.DecodeResponse | src/include/ntutils/results.h:154-174 | The client's output only grows and its flag stays set; a bad response becomes a reported error |
| Results.DecodeResponseEncodeResponse | src/include/ntutils/results.h:145-174 | The client takes over the service's flag and appends its output |
| Results.ApplyErrorSeen | src/include/ntutils/results.h:49-174 | No report clears the flag; only an error report, or a service response (reading '1', or failing and so reporting an error), can raise it; none changes the mode |
| Results.RunErrorSeen | src/include/ntutils/results.h:49-174 | Over a run the flag is sticky, and when it turns on some step was an error report or a service response |
| Results.RunAppendsOnly | src/include/ntutils/results.h:49-115 | Output is only appended over a run |
| Results.NestedContexts | src/include/ntutils/results.h:41-115 | A plain result inside two contexts prints as "A: B: message" and the stack empties again |
| Results.PlainResultInTwo | src/include/ntutils/results.h:75-86 | Example: a plain result under two labels gets both as prefix |
| Results.XmlContext | src/include/ntutils/results.h:88-115 | In XML a context is an element around what is reported inside it |
| ServiceControl.Wait | src/include/ntutils/remote_ops.h:148-156 | The wait ends at the first non-pending answer or the first failed query, all earlier answers pending |
| ServiceControl.StillPendingAllPending | src/include/ntutils/remote_ops.h:148-156 | A wait that never ends saw only the pending state |
| ServiceControl.PollWhile | src/include/ntutils/remote_ops.h:148-156 | The polling loop computes the wait |
| ServiceControl.WaitStep | src/include/ntutils/remote_ops.h:148-156 | One poll either fails the wait or keeps its invariant |
| ServiceControl.StopService | src/include/ntutils/remote_ops.h:118-161 | The stop control is sent exactly when the first query reports neither STOPPED nor STOP_PENDING; already stopped and a failed first query end early; after the control the wait starts from the control's answer, or, when the control fails, from a second query whose failure ends the stop; the end is "stopped" only when the wait settles on STOPPED |
| ServiceControl.WaitThroughStopping | src/include/ntutils/remote_ops.h:148-156 | A wait that sees n pending answers and then another state settles on it after n + 1 queries |
| ServiceControl.StopAfterControl | src/include/ntutils/remote_ops.h:132-160 | For every running state, pending count and final state: the stop control is sent, and the stop ends stopped exactly when the final state is STOPPED, otherwise "would not stop" |
| ServiceControl.StopAfterFailedControl | src/include/ntutils/remote_ops.h:137-160 | The same when the stop control fails and the status is queried again |
| ServiceControl.StopRunningService | src/include/ntutils/remote_ops.h:131-160 | Example: a running service that stops when told ends with no warning |
| RemoteOps.BufferSizes | src/include/ntutils/remote_ops.h:18-24 | The buffer starts at 64 and each retry offers twice the size asked for, modulo 2^32 |
| RemoteOps.GetUser | src/include/ntutils/remote_ops.h:15-38 | A user is found exactly on success; no session exactly on the two "not connected" codes |
| RemoteOps.LookupReports | src/include/ntutils/remote_ops.h:30-36 | Only an unexpected lookup error gives a warning |
| RemoteOps.RemoteLogin | src/include/ntutils/remote_ops.h:46-69 | An existing session is reused with no error, with a warning exactly when a different user was asked for; otherwise the connection is added, and the result is the AddConnection error exactly when the WNet call fails; the lookup's warnings are reported either way |
| RemoteOps.LoginReports | src/include/ntutils/remote_ops.h:46-69 | With a session found, one warning exactly when it belongs to a different user than the one asked for; otherwise the reports of the user lookup |
| RemoteOps.LookupWarningBeforeThrow | src/include/ntutils/remote_ops.h:46-69 | An unexpected lookup failure is reported as a warning even when adding the connection then fails |
| RemoteOps.Logout | src/include/ntutils/remote_ops.h:71-79 | Only a connection this session added is cancelled, with a warning on failure |
| RemoteOps.LoginLogout | src/include/ntutils/remote_ops.h:46-79 | A reused connection stays open; an added one is cancelled |
| RemoteOps.RemoteFileName | src/include/ntutils/remote_ops.h:88-89 | The path is "\\host\ADMIN$\" and the base name |
| RemoteOps.DeleteRemoteFile | src/include/ntutils/remote_ops.h:94-104 | Delete, retry once, warn only when both attempts fail |
| RemoteOps.Uninstall | src/include/ntutils/remote_ops.h:109-113 | A failed delete of the service is a warning |
| RemoteOps.StopReports | src/include/ntutils/remote_ops.h:118-161 | The stop warns exactly on a failed query or a service that would not stop |
| RemoteOps.StopAlreadyStopped | src/include/ntutils/remote_ops.h:123-129 | A stopped service gets no control and no warning |
| RemoteOps.ReleaseKeepsErrorFlag | src/include/ntutils/results.h:59-73 | Releasing the session only warns, so it never changes the error flag |
| LegacyRemoteOps.RemoteLogin | include/ntutils/remote_ops.h:21-33 | The older logon always adds the connection or throws the WNet error |
| LegacyRemoteOps.Warning | include/ntutils/remote_ops.h:39 | A warning line is "Warning: ", the text and a newline |
| LegacyRemoteOps.Logout | include/ntutils/remote_ops.h:35-40 | The older logout always cancels, with a line on failure |
| LegacyRemoteOps.DeleteRemoteFile | include/ntutils/remote_ops.h:55-59 | One delete attempt, a line on failure |
| LegacyRemoteOps.Uninstall | include/ntutils/remote_ops.h:64-68 | A failed service delete writes one line |
| LegacyRemoteOps.StopLines | include/ntutils/remote_ops.h:73-116 | The same stop as the newer one, written as lines: nothing unless it warns |
| RemoteFramework.HandleOption | include/ntutils/remote_framework.h:199-217 | -c and -u set their field; -p marks a password given and prompts when it has no argument |
| RemoteFramework.ClientOption | include/ntutils/remote_framework.h:199-217 | The client takes exactly -c, -u and -p and never rejects |
| RemoteFramework.ApplyOptionsPassword | include/ntutils/remote_framework.h:209-215 | A password is given once any -p appears, and prompted for exactly when one had no argument |
| RemoteFramework.Render | include/ntutils/remote_framework.h:120-135 | Only Win32 faults carry a code |
| RemoteFramework.Request | include/ntutils/remote_framework.h:225-231 | The logon uses IPC$, no user when empty, and a password only when one was given (typed when prompted) |
| RemoteFramework.Acquire | include/ntutils/remote_framework.h:221-271 | A failed logon takes nothing and throws the WNet error; a failed OpenSCManager throws after two steps and a failed CreateService of a new service after four, each with its Win32 code; otherwise all five are taken and the readiness wait decides; a response needs every step; a copy failure is only a warning; an existing service is exactly what adds the "already exists" notice |
| RemoteFramework.Ready | include/ntutils/remote_framework.h:262-281 | The response comes exactly when the service settles Running and the pipe answers |
| RemoteFramework.Start | include/ntutils/remote_framework.h:221-282 | Steps are taken in order and undone in reverse, unless the start hangs |
| RemoteFramework.CopyFailureOnlyWarns | include/ntutils/remote_framework.h:235-237 | A failed copy changes nothing but the warnings |
| RemoteFramework.ExistingServiceOnlyWarns | include/ntutils/remote_framework.h:245-253 | An existing service is reused with a warning |
| RemoteFramework.Response | ntsuspend.cpp:79-93 | A handled request answers with the tool's text, or an "Error: " line |
| RemoteFramework.ExitCodeOfException | include/ntutils/remote_framework.h:120-143 | The service's exit code is the exception's Win32 code, or 0 |
| RemoteFramework.Serve | include/ntutils/remote_framework.h:33-119 | A failure registering reports nothing; a failure before RUNNING reports only START_PENDING; a failure connecting or in the first read reports START_PENDING then RUNNING; the service serves without fault exactly when no such failure occurs, a non-empty message is read whole, impersonation succeeds at SecurityImpersonation or above, the handler accepts the message and the response is written; the response is then its last step |
| RemoteFramework.ExitCode | include/ntutils/remote_framework.h:120-143 | A Win32 error gives its code as the exit code; every other exception gives 0 |
| RemoteFramework.ServiceMain | include/ntutils/remote_framework.h:29-144 | The service always ends by reporting itself stopped with no wait hint |
| RemoteFramework.HandledOnlyWhenVetted | include/ntutils/remote_framework.h:88-105 | A request is handled only when it is the whole non-empty message, impersonation succeeded at a sufficient level, and right after impersonating |
| RemoteFramework.RevertBeforeRespond | include/ntutils/remote_framework.h:105-111 | The response goes out only after impersonation is reverted |
| RemoteFramework.ServeRespond | include/ntutils/remote_framework.h:105-111 | Within the served steps the response follows the revert that follows the handling |
| RemoteFramework.ServedFirst | include/ntutils/remote_framework.h:29-144 | The service does the served steps first and afterwards only reports status or the failure |
| RemoteFramework.FailureExitCode | include/ntutils/remote_framework.h:120-143 | After an exception the service stops with the exception's exit code |
| Tools.Header | src/ntsuspend.cpp:131-141 | The XML document opens the root element and the action and target info records |
| Tools.Configure | src/ntsuspend.cpp:96-129 | A command line is configured exactly when the option loop, the parser and the tool's check all let it through, with the settings the loop gathered; a handler's usage request and the parser's error come first |
| Tools.OutputShape | src/ntsuspend.cpp:131-166 | The XML document starts with the header and ends with the closing tag; plain output is the reports alone |
| Tools.Output | src/ntsuspend.cpp:131-166 | Plain output is what the work reported; XML output is defined exactly when the work is, and is the header, the reports and the closing tag |
| Tools.IsServiceMode | src/ntsuspend.cpp:189-192 | Service mode exactly when there is one argument whose C string is "service": it starts with those seven characters, followed by its end or a NUL |
| Tools.ExitCode | src/ntsuspend.cpp:163-178 | 1 for usage or an escaping exception; otherwise -1 exactly when an error was reported |
| Tools.ServiceModeExamples | src/ntsuspend.cpp:189-192 | Example: only exactly one argument "service" starts the service |
| Suspend.HandleMessage | src/ntsuspend.cpp:20-56 | The request: an action byte, then a target that only a test may omit, then nothing |
| Suspend.ActionChar | src/ntsuspend.cpp:150-155 | A test wins over a resume; the byte tells them apart |
| Suspend.ClientMessage | src/ntsuspend.cpp:148-157 | The client's message starts with the action byte |
| Suspend.HandleMessageClientMessage | src/ntsuspend.cpp:20-157 | The service decodes the request the client sent, for every accepted selector |
| Suspend.HandleEvent | src/ntsuspend.cpp:104-127 | --help and bare words end with the usage; options never touch the output or flag |
| Suspend.Configure | src/ntsuspend.cpp:96-129 | A configured run passed the selector check and the parser had no error |
| Suspend.NoTargetRefused | src/ntsuspend.cpp:129 | Example: with no options the run is refused with the "Neither" message |
| Suspend.NoTargetTest | src/ntsuspend.cpp:129 | Example: "-t" alone is accepted as a test of all processes |
| Suspend.TestDefFound | src/ntsuspend.cpp:83-94 | Example: -t finds the --test definition |
| Suspend.ParseTestFlag | src/ntsuspend.cpp:83-104 | Example: "-t" parses to one --test event, in either parser variant |
| Suspend.CommandLine | src/ntsuspend.cpp:81-129 | Read with the parser as written: a configured run names its target or tests, and the run is undefined only where the parser read beyond the vector |
| Suspend.CorrectedCommandLineDefined | src/ntsuspend.cpp:81-129 | Read with the corrected parser, no command line is undefined |
| Suspend.TestThenPasswordUndefined | src/ntsuspend.cpp:83-104 | Example: "-tp" is undefined: --test, then --password without a value, then a read beyond the vector |
| Suspend.ParseTestThenPassword | src/ntsuspend.cpp:83-104 | Example: as written, "-tp" parses to -t and -p without argument and then reads beyond the vector |
| Suspend.PasswordDefFound | src/ntsuspend.cpp:83-94 | Example: -p finds the --password definition, which takes an optional argument |
| Suspend.ActionInfo | src/ntsuspend.cpp:133-138 | The action record is "action='...'" with no markup |
| Suspend.ActionInfoDetermines | src/ntsuspend.cpp:133-138 | The action records of two runs are equal exactly when both test, or neither tests and both resume or both suspend |
| Suspend.Output | src/ntsuspend.cpp:131-166 | Plain output is what the work reported; XML output starts with the header naming the action and the target |
| Priority.InitialsOfNames | src/ntpriority.cpp:120-131 | The level names have distinct initials and no NUL |
| Priority.MatchUnique | src/ntpriority.cpp:120-131 | An argument equals at most one level name up to case |
| Priority.NamedLevel | src/ntpriority.cpp:120-133 | A name is found exactly when the argument equals one up to case |
| Priority.LevelOption | src/ntpriority.cpp:114-136 | A whole number is the level; otherwise a level name; otherwise the --level error |
| Priority.LetterIsNotNumber | src/ntpriority.cpp:117-118 | Text starting with a letter is never taken as a number |
| Priority.LevelNameAnyCase | src/ntpriority.cpp:120-131 | A level name in any case gives its priority class |
| Priority.LevelDecimal | src/ntpriority.cpp:117 | A level in decimal is that number |
| Priority.ActionBytes | src/ntpriority.cpp:168-175 | 't', or 'l' and the level's four bytes |
| Priority.HandleMessage | src/ntpriority.cpp:20-53 | The request: the action, a target only a test may omit, nothing more; each error has its message |
| Priority.WithTarget | src/ntpriority.cpp:43-53 | A missing target fails unless testing; a target must use the rest of the message |
| Priority.DecodeAction | src/ntpriority.cpp:36-41 | The action tag and, for 'l', the four level bytes |
| Priority.DecodeActionBytes | src/ntpriority.cpp:36-41 | The action's bytes read back as the action |
| Priority.ClientMessage | src/ntpriority.cpp:168-177 | The client's message starts with the action's bytes |
| Priority.HandleMessageClientMessage | src/ntpriority.cpp:20-177 | The service decodes the request the client sent, for every accepted selector |
| Priority.HandleEvent | src/ntpriority.cpp:105-148 | --level sets the level or is rejected; nothing but --level changes the level |
| Priority.LevelOnlyFromOption | src/ntpriority.cpp:101-148 | Without a --level event the level stays unset |
| Priority.Configure | src/ntpriority.cpp:97-150 | A configured run passed the selector check and the parser had no error |
| Priority.RunAction | src/ntpriority.cpp:163-175 | A test, or a level set exactly when one was given |
| Priority.ConfigureChecked | src/ntpriority.cpp:150 | The corrected check: a configured run always has an action, and otherwise agrees with the original |
| Priority.PidAloneHasNoLevel | src/ntpriority.cpp:101-164 | As written, "--pid 5" alone is accepted with no level to set |
| Priority.PidAloneRefused | src/ntpriority.cpp:150 | With the check, the same run is refused |
| Priority.CommandLine | src/ntpriority.cpp:82-150 | Read with the parser as written: a configured run names its target or tests, and the run is undefined only where the parser read beyond the vector |
| Priority.CommandLineChecked | src/ntpriority.cpp:82-150 | With the corrected parser and the corrected check, no command line is undefined and a configured run always has an action |
| Priority.ActionInfo | src/ntpriority.cpp:154-157 | The action record is "action='...'" with no markup |
| Priority.ActionInfoDetermines | src/ntpriority.cpp:154-157 | The action records of two runs are equal exactly when both or neither test |
| Priority.Output | src/ntpriority.cpp:152-186 | Plain output is what the work reported; XML output starts with the header naming the action and the target |
| LegacySuspend.HandleMessage | ntsuspend.cpp:18-77 | The older request: the action byte, the inline target, nothing more; never undefined when corrected |
| LegacySuspend.ClientMessage | ntsuspend.cpp:188-211 | The message starts with the action byte |
| LegacySuspend.ClientMessageAddsTarget | ntsuspend.cpp:196-211 | The inline construction equals `add_target_to_message` after the action |
| LegacySuspend.HandleMessageClientMessage | ntsuspend.cpp:18-211 | Round trip for names below 256 characters corrected, below 128 as written |
| LegacySuspend.HandleEvent | ntsuspend.cpp:142-174 | --pid takes any leading number and refuses only 0 |
| LegacySuspend.Check | ntsuspend.cpp:176-179 | The inline target check accepts and refuses exactly as the selector's own check, with the same messages |
| LegacySuspend.PidLaxerThanSelector | ntsuspend.cpp:151-155 | Every pid the selector accepts is accepted here with the same value |
| LegacySuspend.LaxPidExample | ntsuspend.cpp:152-154 | "5x" is process 5 here and refused by the selector |
| LegacySuspend.Configure | ntsuspend.cpp:132-179 | A configured run has a valid selector and no parse error |
| LegacySuspend.CommandLine | ntsuspend.cpp:118-179 | Read with the parser as written: a configured run has a valid selector, and the run is undefined only where the parser read beyond the vector |
| LegacySuspend.Diagnostic | ntsuspend.cpp:216-219 | An option error writes its "Error: " line before the usage |
| LegacySuspend.ExitCode | ntsuspend.cpp:216-232 | 1 for usage, -1 for an exception, 0 otherwise |
| LegacyPriority.HandleMessage | ntpriority.cpp:18-55 | The older request with its incomplete-level, no-target and extra-data errors |
| LegacyPriority.DecodeAction | ntpriority.cpp:32-46 | The action tag and, for 'l', four level bytes |
| LegacyPriority.DecodeActionBytes | ntpriority.cpp:32-46 | The action's bytes read back |
| LegacyPriority.ClientMessage | ntpriority.cpp:172-183 | The message starts with the action's bytes |
| LegacyPriority.HandleMessageClientMessage | ntpriority.cpp:18-183 | Round trip for names below 256 characters corrected, below 128 as written |
| LegacyPriority.HandleEvent | ntpriority.cpp:120-161 | --level as in the newer tool; nothing but --level changes the level |
| LegacyPriority.Configure | ntpriority.cpp:112-163 | A configured run has a valid selector and no parse error |
| LegacyPriority.CommandLine | ntpriority.cpp:98-163 | Read with the parser as written: a configured run has a valid selector, and the run is undefined only where the parser read beyond the vector |
| Toolhelp.Grow | include/ntutils/tlhelp32_dll.h:52-78 | The snapshot follows only "too small" answers; any other failure is reported with its status |
| Toolhelp.CreateSnapshot | include/ntutils/tlhelp32_dll.h:39-78 | Unsupported flags or no query function fail with ERROR_CALL_NOT_IMPLEMENTED; otherwise start at 64 records |
| Toolhelp.QueryLoop | include/ntutils/tlhelp32_dll.h:52-78 | The loop computes the growth |
| Toolhelp.ExeFile | include/ntutils/tlhelp32_dll.h:99-108 | Unicode copies at most MAX_PATH - 1 characters of the name; ANSI names the idle process "Idle", fails exactly when the conversion fails, and otherwise gives the converted name (the name up to its NUL) |
| Toolhelp.CopyProcess | include/ntutils/tlhelp32_dll.h:93-110 | The entry copies pid, thread count and name, and fails exactly when the name cannot be copied |
| Toolhelp.FindPid | include/ntutils/tlhelp32_dll.h:134-137 | The first record with the pid, or none has it |
| Toolhelp.FindThread | include/ntutils/tlhelp32_dll.h:184-186 | The first thread with the id, or none has it |
| Toolhelp.Process32First | include/ntutils/tlhelp32_dll.h:119-125 | The first record, copied |
| Toolhelp.Process32Next | include/ntutils/tlhelp32_dll.h:127-154 | Unknown pid is ERROR_INVALID_DATA; the last record is ERROR_NO_MORE_FILES; otherwise the next record |
| Toolhelp.Thread32First | include/ntutils/tlhelp32_dll.h:156-163 | Thread 0 of the first record, defined only when there is one |
| Toolhelp.Thread32Next | include/ntutils/tlhelp32_dll.h:165-213 | Unknown owner or thread is ERROR_INVALID_DATA; the next thread, then the next record's first |
| Toolhelp.Process32NextInOrder | include/ntutils/tlhelp32_dll.h:127-154 | With distinct pids the walk visits the records in order |
| Toolhelp.Thread32NextInOrder | include/ntutils/tlhelp32_dll.h:165-213 | With distinct ids the thread walk visits threads in order |
| Toolhelp.WalkProcesses | include/ntutils/tlhelp32_dll.h:119-154 | The walk returns every record in order and ends with ERROR_NO_MORE_FILES |
| Toolhelp.Listing | src/include/ntutils/processes.h:22-31 | What `find_process` reads from each entry |

## Left out

- I/O: console writes, console reads and the password prompt. The prompt's answer is an input.
- `Sleep` and all timing. Polling loops take their answers as a finite sequence, and a wait that runs out of answers is reported as still pending.
- The actual work of the tools: suspending, resuming and testing threads, and setting or reading priority classes. This needs OS calls whose results are not modelled. The work appears only as a sequence of reports.
- The security descriptor built by the service: the SID, the ACL sizes and the ACEs. It is OS state; only whether setup failed is an input.
- The named pipe transport: creating, connecting and reading. Its results are inputs.
- The forwarding path of the Tool Help functions when the system provides them. Only the fallback is modelled.
- `PortableRtlNtStatusToDosError` and the NTSTATUS to DOS error conversion. The NTSTATUS itself is kept.
- `PortableCloseToolhelp32Snapshot`, which only frees memory.
- `CopyThread` fields other than the ids. These are priorities, which are opaque values here.
- The UNICODE build: `what()` conversion with `WideCharToMultiByte`, and the console code page. Only the Unicode copy of the image name in Toolhelp.ExeFile is modelled.
- The newer tools' client and server framework. It is not part of this model; the newer tools' messages and command lines are modelled.
- The start of the newer `Win32_error`. As written it never assigns its `code` member. No modelled code reads that member.
- The race between the status query and the stop control noted in the source. The stop's answers are inputs, so either outcome is covered.
- Results.UnregisterContext: requires a label to pop in plain mode. Popping an empty stack is undefined behaviour in the source.
- Message.DecodeString: applies the intended bounds check, so a length field whose sum with the position wraps past 2^32 is refused as incomplete instead of reading before the start of the buffer (undefined in the source). Every decoder built on it inherits this: Processes.DecodeName, Processes.DecodeTarget, Suspend.HandleMessage, Priority.HandleMessage, Priority.WithTarget, Results.DecodeLabels, Results.DecodeMessage, Results.ParseResponse and Results.DecodeResponse. Message.StringFitsAsWrittenOverruns exhibits the check as written.
- Errors.LastMessage: uses the corrected provider loop Errors.ExtendedLoop; as written the loop never returns once the provider reports an extended error (Errors.ExtendedLoopAsWrittenDiverges). Errors.WNet inherits this.
- Errors.ExtendedLoop: how `WNetGetLastError` fills its two buffers is assumed, not taken from the API: a buffer is too small exactly when the text and its NUL do not fit, and a text that fits comes back cut at its first NUL. The provider's answer itself is an input.
- Errors.ExtendedLoopAsWritten: modelled with a fuel bound, because as written the loop never terminates once the provider answers. The fuel only bounds how many rounds are looked at.
- Results.EncodeMessage: states the tag and prefix; the count and labels are stated by Results.DecodeMessageEncodeMessage.
- Suspend.Configure: does not restate the option loop; Suspend.HandleEvent states what each option does.

## Findings

| source | as written | input that shows it | evidently intended | confidence | as-written member | corrected member |
|---|---|---|---|---|---|---|
| src/include/ntutils/message.h:39-40 | `buf.size() < i + length` is computed in 32-bit unsigned arithmetic | a 5-byte buffer, `i` = 5, length field 0xFFFFFFFF: the sum wraps to 4 and the check passes | reject any length that does not fit in the remaining buffer | high, not executed | Message.StringFitsAsWrittenOverruns | Message.DecodeString |
| src/include/ntutils/WNet_error.h:43-47 | the branch that has read the provider's message falls through to the loop's top | any extended error the provider reports, e.g. message "Denied" from provider "NW" | return the message and the provider | high, not executed | Errors.ExtendedLoopCounterexample | Errors.ExtendedLoop |
| include/ntutils/console.h:145-147 | an optional-argument short option that ends a run without an argument leaves `multi_opt` set | "-xp" with -x taking no argument and -p an optional one: -p is returned twice, then `argv` is read past its terminator | reset `multi_opt` as the other branches do | high, not executed | Options.RunEndingInOptionalRepeats | Options.RunEndingInOptionalCorrected |
| include/ntutils/console.h:225 | "Unknown option --" is prepended to the whole word, which already starts with "--" | "--bogus" is reported as "Unknown option ----bogus" | report "Unknown option --bogus" | medium, not executed | Options.UnknownLongDoubled | Options.UnknownLongEchoes |
| include/ntutils/processes.h:183-184 | the length byte is read through a signed `char`, and the bound check wraps in 32 bits | a name of 128 characters is refused; one of 255 passes the check and is copied from past the message's end | read the byte as unsigned, so every name below 256 characters comes back | high, not executed | LegacyProcesses.LongestNameUndefined | LegacyProcesses.LongNamesCorrected |
| src/ntpriority.cpp:101-164 | `level` is left uninitialised, and a run that neither sets a level nor tests is accepted | "--pid 5" alone: the run sets the process to an indeterminate priority | refuse a run with neither `--level` nor `--test` | medium, not executed | Priority.PidAloneHasNoLevel | Priority.PidAloneRefused |

=== FILE: errors.dfy ===
/** The exception records of the current library (src/include/basic/error.h
    and src/include/ntutils/WNet_error.h): every error carries a one-line
    message and the same information as a single XML element. The system
    message table and the network provider's last error are parameters. */
module Errors {
  import opened Wrappers
  import Text
  import StrToUL

  /** An exception: `twhat()` and `xml()`. */
  datatype Error = Error(message: string, xml: string)

  /** What `FormatMessage(FORMAT_MESSAGE_FROM_SYSTEM, code)` finds, if
      anything, and what `WNetGetLastError` reports. */
  datatype Catalog = Catalog(systemText: U32 -> Option<string>, extended: ExtendedInfo)

  /** The network provider's last error: the call fails, or it yields a
      message and the provider's name (each as the provider stores it). */
  datatype ExtendedInfo = Unavailable | Available(message: string, provider: string)

  /** ERROR_EXTENDED_ERROR */
  const ExtendedErrorCode: U32 := 1208

  // ---------------------------------------------------------------------
  // error_impl
  // ---------------------------------------------------------------------

  function FunctionSuffix(func: Option<string>): string {
    match func case Some(f) => "' from " + f case None => "'"
  }

  /** `error_impl::format_message`: "<type> error: '<description>'", then
      " from <function>" when a function is named. */
  function FormatMessage(kind: string, description: string, func: Option<string>): (r: string)
    ensures |r| > |kind| + 9 + |description|
    ensures r[..|kind| + 9] == kind + " error: '"
    ensures r[|kind| + 9..|kind| + 9 + |description|] == description
    ensures func.None? ==> r == kind + " error: '" + description + "'"
    ensures func.Some? ==> r == kind + " error: '" + description + "' from " + func.value
  {
    var head := kind + " error: '" + description;
    var r := head + FunctionSuffix(func);
    assert r[..|kind| + 9] == head[..|kind| + 9];
    assert r[|kind| + 9..|kind| + 9 + |description|] == head[|kind| + 9..];
    r
  }

  /** Different descriptions give different messages, whatever the type
      and function: the message determines the description. */
  lemma FormatMessageInjective(kind: string, d1: string, d2: string, func: Option<string>)
    requires FormatMessage(kind, d1, func) == FormatMessage(kind, d2, func)
    ensures d1 == d2
  {
    var m1, m2 := FormatMessage(kind, d1, func), FormatMessage(kind, d2, func);
    assert m1 == kind + " error: '" + d1 + FunctionSuffix(func);
    assert m2 == kind + " error: '" + d2 + FunctionSuffix(func);
  }

  /** Example: the message alone does not determine the function, since a
      description may itself end in "' from ..."; the XML form does. */
  lemma FormatMessageAmbiguous()
    ensures FormatMessage("General", "a' from b", None) == FormatMessage("General", "a", Some("b'"))
    ensures FormatXml("General", "a' from b", None) != FormatXml("General", "a", Some("b'"))
  {
    assert FormatMessage("General", "a' from b", None) == "General error: 'a' from b'";
    assert FormatMessage("General", "a", Some("b'")) == "General error: 'a' from b'";
    if FormatXml("General", "a' from b", None) == FormatXml("General", "a", Some("b'")) {
      FormatXmlInjective("General", "a' from b", None, "General", "a", Some("b'"));
    }
  }

  /** One element `<tag ... />` with no other tag inside: every `<` after
      the first is escaped. */
  predicate SingleElement(x: string, tag: string) {
    |x| >= |tag| + 5
    && x[..|tag| + 2] == "<" + tag + " "
    && x[|x| - 3..] == " />"
    && '<' !in x[1..]
  }

  /** An empty element with the given attribute text. */
  function Element(tag: string, attributes: string): (x: string)
    requires '<' !in tag && '<' !in attributes
    ensures SingleElement(x, tag)
    ensures |x| == |tag| + |attributes| + 5 && x[|tag| + 2..|x| - 3] == attributes
  {
    var x := "<" + tag + " " + attributes + " />";
    assert x[..|tag| + 2] == "<" + tag + " ";
    assert x[1..] == tag + " " + attributes + " />";
    assert x[|x| - 3..] == " />";
    assert x[|tag| + 2..|x| - 3] == attributes;
    x
  }

  /** An attribute with its value escaped: `name='value'`. */
  function Attribute(name: string, value: string): (a: string)
    requires '<' !in name
    ensures '<' !in a
  {
    name + "=" + Text.XmlAttributeValue(value)
  }

  function FunctionAttribute(func: Option<string>): (a: string)
    ensures '<' !in a
  {
    match func case Some(f) => " " + Attribute("function", f) case None => ""
  }

  /** `error_impl::format_xml`: an `error` element with the type, the
      description and, when named, the function as escaped attributes. */
  function FormatXml(kind: string, description: string, func: Option<string>): (r: string)
    ensures SingleElement(r, "error")
  {
    Element("error", Attribute("type", kind) + " " + Attribute("message", description) + FunctionAttribute(func))
  }

  /** The `error` element as `format_xml` concatenates it: the quoted
      values `v` and `w` of the type and the description, then the function
      attribute text `f`. */
  function Spelled(v: string, w: string, f: string): string {
    "<error type=" + (v + (" message=" + (w + (f + " />"))))
  }

  /** `FormatXml` is the concatenation of `format_xml`, value by value. */
  lemma FormatXmlShape(kind: string, d: string, func: Option<string>)
    ensures FormatXml(kind, d, func)
            == Spelled(Text.XmlAttributeValue(kind), Text.XmlAttributeValue(d), FunctionAttribute(func))
  {
    FormatXmlLiteral(kind, d, func);
    Reassociate(Attribute("type", kind), Attribute("message", d), FunctionAttribute(func),
                Text.XmlAttributeValue(kind), Text.XmlAttributeValue(d));
  }

  lemma FormatXmlLiteral(kind: string, d: string, func: Option<string>)
    ensures FormatXml(kind, d, func)
            == "<" + "error" + " " + (Attribute("type", kind) + " " + Attribute("message", d) + FunctionAttribute(func)) + " />"
  {
  }

  lemma Reassociate(a: string, b: string, f: string, v: string, w: string)
    requires a == "type" + "=" + v && b == "message" + "=" + w
    ensures "<" + "error" + " " + (a + " " + b + f) + " />" == Spelled(v, w, f)
  {
  }

  /** The function attribute is absent, or ` function=` and the quoted name. */
  lemma FunctionAttributeShape(func: Option<string>)
    ensures func.None? ==> FunctionAttribute(func) == ""
    ensures func.Some? ==> FunctionAttribute(func) == " function=" + Text.XmlAttributeValue(func.value)
  {
    if func.Some? {
      SpaceBefore(Text.XmlAttributeValue(func.value));
    }
  }

  lemma SpaceBefore(v: string)
    ensures " " + ("function" + "=" + v) == " function=" + v
  {
  }

  /** A single-quoted value with no quote inside. */
  predicate Quoted(v: string) {
    |v| >= 2 && v[0] == '\'' && v[|v| - 1] == '\'' && '\'' !in v[1..|v| - 1]
  }

  lemma ValueQuoted(value: string)
    ensures Quoted(Text.XmlAttributeValue(value))
  {
  }

  /** The XML form determines the type, the description and the function. */
  lemma FormatXmlInjective(k1: string, d1: string, f1: Option<string>, k2: string, d2: string, f2: Option<string>)
    requires FormatXml(k1, d1, f1) == FormatXml(k2, d2, f2)
    ensures k1 == k2 && d1 == d2 && f1 == f2
  {
    FormatXmlShape(k1, d1, f1);
    FormatXmlShape(k2, d2, f2);
    var v1, v2 := Text.XmlAttributeValue(k1), Text.XmlAttributeValue(k2);
    var w1, w2 := Text.XmlAttributeValue(d1), Text.XmlAttributeValue(d2);
    ValueQuoted(k1);
    ValueQuoted(k2);
    ValueQuoted(d1);
    ValueQuoted(d2);
    ShapeInjective(v1, w1, FunctionAttribute(f1), v2, w2, FunctionAttribute(f2));
    FunctionAttributeShape(f1);
    FunctionAttributeShape(f2);
    if f1.Some? && f2.Some? {
      DropPrefix(" function=", Text.XmlAttributeValue(f1.value), Text.XmlAttributeValue(f2.value));
    }
  }

  /** Reading the concatenation back: a quoted value ends at its closing
      quote. */
  lemma ShapeInjective(v1: string, w1: string, a1: string, v2: string, w2: string, a2: string)
    requires Quoted(v1) && Quoted(w1) && Quoted(v2) && Quoted(w2)
    requires Spelled(v1, w1, a1) == Spelled(v2, w2, a2)
    ensures v1 == v2 && w1 == w2 && a1 == a2
  {
    var r1, r2 := " message=" + (w1 + (a1 + " />")), " message=" + (w2 + (a2 + " />"));
    DropPrefix("<error type=", v1 + r1, v2 + r2);
    QuotedSplit(v1, r1, v2, r2);
    DropPrefix(" message=", w1 + (a1 + " />"), w2 + (a2 + " />"));
    QuotedSplit(w1, a1 + " />", w2, a2 + " />");
    DropSuffix(a1, a2, " />");
  }

  lemma DropPrefix(p: string, a: string, b: string)
    requires p + a == p + b
    ensures a == b
  {
    assert a == (p + a)[|p|..];
  }

  lemma DropSuffix(a: string, b: string, s: string)
    requires a + s == b + s
    ensures a == b
  {
    assert a == (a + s)[..|a|];
  }

  /** A quoted value followed by more text: the value ends at its closing
      quote. */
  lemma QuotedSplit(v1: string, r1: string, v2: string, r2: string)
    requires Quoted(v1) && Quoted(v2) && v1 + r1 == v2 + r2
    ensures v1 == v2 && r1 == r2
  {
    var b1, b2 := v1[1..|v1| - 1], v2[1..|v2| - 1];
    assert v1 + r1 == "'" + (b1 + ("'" + r1));
    assert v2 + r2 == "'" + (b2 + ("'" + r2));
    DropPrefix("'", b1 + ("'" + r1), b2 + ("'" + r2));
    QuoteSplit(b1, r1, b2, r2);
    assert v1 == "'" + b1 + "'" && v2 == "'" + b2 + "'";
  }

  /** Text without a quote, then a quote: the text ends at the first quote. */
  lemma QuoteSplit(a: string, b: string, c: string, d: string)
    requires '\'' !in a && '\'' !in c && a + ("'" + b) == c + ("'" + d)
    ensures a == c && b == d
  {
    var w := a + ("'" + b);
    FirstQuote(a, b);
    FirstQuote(c, d);
    assert a == w[..|a|] && c == w[..|c|];
    assert b == w[|a| + 1..] && d == w[|c| + 1..];
  }

  lemma FirstQuote(a: string, b: string)
    requires '\'' !in a
    ensures var w := a + ("'" + b);
            w[|a|] == '\'' && forall j :: 0 <= j < |a| ==> w[j] != '\''
  {
    var w := a + ("'" + b);
    assert forall j :: 0 <= j < |a| ==> w[j] == a[j];
  }

  /** `error(description)`: a General error, no function. */
  function General(description: string): (e: Error)
    ensures e.message == FormatMessage("General", description, None)
    ensures e.xml == FormatXml("General", description, None)
    ensures SingleElement(e.xml, "error")
  {
    Error(FormatMessage("General", description, None), FormatXml("General", description, None))
  }

  /** Two General errors are equal exactly when their descriptions are. */
  lemma GeneralInjective(d1: string, d2: string)
    ensures General(d1) == General(d2) <==> d1 == d2
  {
    if General(d1) == General(d2) {
      FormatMessageInjective("General", d1, d2, None);
    }
  }

  // ---------------------------------------------------------------------
  // Win32_error
  // ---------------------------------------------------------------------

  function UnknownError(code: U32): string {
    "Unknown error " + Text.Decimal(code)
  }

  /** `Win32_error::format_message`: the system's text for the code with
      surrounding white space trimmed, or "Unknown error <code>". */
  function SystemDescription(catalog: Catalog, code: U32): (d: string)
    ensures Text.Trimmed(d)
    ensures catalog.systemText(code).None? ==> d == UnknownError(code)
    ensures catalog.systemText(code).Some? ==> d == Text.Trim(Text.CStr(catalog.systemText(code).value))
  {
    match catalog.systemText(code)
    case Some(text) => Text.Trim(Text.CStr(text))
    case None =>
      var d := UnknownError(code);
      assert d[0] == 'U';
      assert Text.IsDigit(Text.Decimal(code)[|Text.Decimal(code)| - 1]);
      d
  }

  /** The code attribute, `code='<decimal>'`. */
  function CodeAttribute(code: U32): (a: string)
    ensures '<' !in a
    ensures |a| == |Text.Decimal(code)| + 7 && a[6..|a| - 1] == Text.Decimal(code)
  {
    Text.DecimalHasNoMarkup(code);
    var a := "code='" + Text.Decimal(code) + "'";
    assert a[6..|a| - 1] == Text.Decimal(code);
    a
  }

  /** `last` is the final attribute of the element `x`, just before " />". */
  predicate EndsWithAttribute(x: string, last: string) {
    |x| >= |last| + 3 && x[|x| - 3 - |last|..|x| - 3] == last
  }

  /** Where the last attribute of an `error` element sits. */
  lemma LastAttribute(before: string, last: string)
    requires '<' !in before && '<' !in last
    ensures '<' !in before + last
    ensures EndsWithAttribute(Element("error", before + last), last)
  {
    assert '<' !in before + last;
    var x := Element("error", before + last);
    assert x[7..|x| - 3] == before + last;
    assert x[|x| - 3 - |last|..|x| - 3] == (before + last)[|before|..];
  }

  /** The XML form of a Win32 error; `Win32XmlShape` spells it out. */
  function Win32Xml(description: string, func: string, code: U32): (x: string)
    ensures SingleElement(x, "error")
    ensures EndsWithAttribute(x, CodeAttribute(code))
  {
    ErrorElement(Leading("Win32", description, func), CodeAttribute(code))
  }

  /** The XML form of a Win32 error as `Win32_error` concatenates it: the
      literal type, the quoted description and function, then the code in
      decimal. */
  lemma Win32XmlShape(description: string, func: string, code: U32)
    ensures Win32Xml(description, func, code)
            == CodedSpelled("'Win32'", Text.XmlAttributeValue(description), Text.XmlAttributeValue(func),
                            "code='" + Text.Decimal(code) + "'")
  {
    ErrorElementShape("Win32", description, func, CodeAttribute(code));
    PlainKinds();
  }

  /** An `error` element: the leading attributes, then `last`. */
  function ErrorElement(before: string, last: string): (x: string)
    requires '<' !in before && '<' !in last
    ensures SingleElement(x, "error")
    ensures EndsWithAttribute(x, last)
  {
    LastAttribute(before, last);
    Element("error", before + last)
  }

  /** The attributes every Win32 and WNet error starts with. */
  function Leading(kind: string, description: string, func: string): (a: string)
    requires '<' !in kind
    ensures '<' !in a
  {
    Attribute("type", kind) + " " + Attribute("message", description) + " " + Attribute("function", func) + " "
  }

  /** The `error` element as `Win32_error` and `WNet_error` concatenate it:
      the quoted values `v`, `w` and `g` of the type, the description and
      the function, then the last attribute text `last`. */
  function CodedSpelled(v: string, w: string, g: string, last: string): string {
    "<error type=" + (v + (" message=" + (w + (" function=" + (g + (" " + (last + " />")))))))
  }

  /** `ErrorElement` is that concatenation, value by value. */
  lemma ErrorElementShape(kind: string, d: string, func: string, last: string)
    requires '<' !in kind && '<' !in last
    ensures ErrorElement(Leading(kind, d, func), last)
            == CodedSpelled(Text.XmlAttributeValue(kind), Text.XmlAttributeValue(d), Text.XmlAttributeValue(func), last)
  {
    CodedReassociate(Leading(kind, d, func), last,
                     Text.XmlAttributeValue(kind), Text.XmlAttributeValue(d), Text.XmlAttributeValue(func));
  }

  lemma CodedReassociate(a: string, last: string, v: string, w: string, g: string)
    requires a == "type" + "=" + v + " " + ("message" + "=" + w) + " " + ("function" + "=" + g) + " "
    ensures "<" + "error" + " " + (a + last) + " />" == CodedSpelled(v, w, g, last)
  {
  }

  /** The two type names need no escaping. */
  lemma PlainKinds()
    ensures Text.XmlAttributeValue("Win32") == "'Win32'"
    ensures Text.XmlAttributeValue("WNet") == "'WNet'"
  {
    PlainWin32();
    PlainWNet();
  }

  lemma PlainWin32()
    ensures Text.XmlAttributeValue("Win32") == "'Win32'"
  {
    PlainQuoted("Win32", "'Win32'");
  }

  lemma PlainWNet()
    ensures Text.XmlAttributeValue("WNet") == "'WNet'"
  {
    PlainQuoted("WNet", "'WNet'");
  }

  /** A value `k` with no `<`, `&` or quote is quoted as it is, as `q`. */
  lemma PlainQuoted(k: string, q: string)
    requires forall i :: 0 <= i < |k| ==> k[i] != '<' && k[i] != '&' && k[i] != '\''
    requires q == "'" + k + "'"
    ensures Text.XmlAttributeValue(k) == q
  {
    EscapePlain(k);
  }

  /** Text with no `<`, `&` or quote escapes to itself. */
  lemma {:induction false} EscapePlain(s: string)
    requires forall i :: 0 <= i < |s| ==> s[i] != '<' && s[i] != '&' && s[i] != '\''
    ensures Text.Escape(s) == s
  {
    if |s| > 0 {
      EscapePlain(s[1..]);
      assert s == [s[0]] + s[1..];
    }
  }

  /** Reading a coded element of one type back: each quoted value ends at
      its closing quote, so the values and the last attribute are
      recovered. */
  lemma CodedShapeInjective(v: string, w1: string, g1: string, l1: string, w2: string, g2: string, l2: string)
    requires Quoted(w1) && Quoted(g1) && Quoted(w2) && Quoted(g2)
    requires CodedSpelled(v, w1, g1, l1) == CodedSpelled(v, w2, g2, l2)
    ensures w1 == w2 && g1 == g2 && l1 == l2
  {
    var t1, t2 := " " + (l1 + " />"), " " + (l2 + " />");
    var s1, s2 := " function=" + (g1 + t1), " function=" + (g2 + t2);
    var r1, r2 := " message=" + (w1 + s1), " message=" + (w2 + s2);
    DropPrefix("<error type=", v + r1, v + r2);
    DropPrefix(v, r1, r2);
    DropPrefix(" message=", w1 + s1, w2 + s2);
    QuotedSplit(w1, s1, w2, s2);
    DropPrefix(" function=", g1 + t1, g2 + t2);
    QuotedSplit(g1, t1, g2, t2);
    DropPrefix(" ", l1 + " />", l2 + " />");
    DropSuffix(l1, l2, " />");
  }

  /** The code attribute determines the code. */
  lemma CodeTextInjective(c1: U32, c2: U32)
    requires "code='" + Text.Decimal(c1) + "'" == "code='" + Text.Decimal(c2) + "'"
    ensures c1 == c2
  {
    var a1, a2 := "code='" + Text.Decimal(c1) + "'", "code='" + Text.Decimal(c2) + "'";
    assert a1[6..|a1| - 1] == Text.Decimal(c1);
    assert a2[6..|a2| - 1] == Text.Decimal(c2);
    StrToUL.DecimalRoundTrip(c1);
    StrToUL.DecimalRoundTrip(c2);
  }

  /** The XML form of a Win32 error determines the description, the
      function and the code. */
  lemma Win32XmlInjective(d1: string, f1: string, c1: U32, d2: string, f2: string, c2: U32)
    requires Win32Xml(d1, f1, c1) == Win32Xml(d2, f2, c2)
    ensures d1 == d2 && f1 == f2 && c1 == c2
  {
    Win32XmlShape(d1, f1, c1);
    Win32XmlShape(d2, f2, c2);
    Win32ReadBack(d1, f1, c1, d2, f2, c2, Win32Xml(d1, f1, c1));
  }

  lemma Win32ReadBack(d1: string, f1: string, c1: U32, d2: string, f2: string, c2: U32, x: string)
    requires x == CodedSpelled("'Win32'", Text.XmlAttributeValue(d1), Text.XmlAttributeValue(f1), "code='" + Text.Decimal(c1) + "'")
    requires x == CodedSpelled("'Win32'", Text.XmlAttributeValue(d2), Text.XmlAttributeValue(f2), "code='" + Text.Decimal(c2) + "'")
    ensures d1 == d2 && f1 == f2 && c1 == c2
  {
    ValuesReadBack(d1, f1, "code='" + Text.Decimal(c1) + "'", d2, f2, "code='" + Text.Decimal(c2) + "'", "'Win32'", x);
    CodeReadBack(d1, f1, c1, d2, f2, c2, x);
  }

  /** Once the description and function agree, the code is read back. */
  lemma CodeReadBack(d1: string, f1: string, c1: U32, d2: string, f2: string, c2: U32, x: string)
    requires x == CodedSpelled("'Win32'", Text.XmlAttributeValue(d1), Text.XmlAttributeValue(f1), "code='" + Text.Decimal(c1) + "'")
    requires x == CodedSpelled("'Win32'", Text.XmlAttributeValue(d2), Text.XmlAttributeValue(f2), "code='" + Text.Decimal(c2) + "'")
    requires d1 == d2 && f1 == f2
    ensures c1 == c2
  {
    SameLast("'Win32'", Text.XmlAttributeValue(d1), Text.XmlAttributeValue(f1),
             "code='" + Text.Decimal(c1) + "'", "code='" + Text.Decimal(c2) + "'");
    CodeTextInjective(c1, c2);
  }

  /** Elements alike up to the last attribute have the same last attribute. */
  lemma SameLast(v: string, w: string, g: string, l1: string, l2: string)
    requires CodedSpelled(v, w, g, l1) == CodedSpelled(v, w, g, l2)
    ensures l1 == l2
  {
    var p := "<error type=" + v + " message=" + w + " function=" + g + " ";
    assert CodedSpelled(v, w, g, l1) == p + (l1 + " />");
    assert CodedSpelled(v, w, g, l2) == p + (l2 + " />");
    DropPrefix(p, l1 + " />", l2 + " />");
    DropSuffix(l1, l2, " />");
  }

  /** Two coded elements of one type that are the same text `x` have the
      same description, function and last attribute. */
  lemma ValuesReadBack(d1: string, f1: string, l1: string, d2: string, f2: string, l2: string, v: string, x: string)
    requires x == CodedSpelled(v, Text.XmlAttributeValue(d1), Text.XmlAttributeValue(f1), l1)
    requires x == CodedSpelled(v, Text.XmlAttributeValue(d2), Text.XmlAttributeValue(f2), l2)
    ensures d1 == d2 && f1 == f2
  {
    var w1, w2, g1, g2 := Text.XmlAttributeValue(d1), Text.XmlAttributeValue(d2), Text.XmlAttributeValue(f1), Text.XmlAttributeValue(f2);
    ValueQuoted(d1);
    ValueQuoted(d2);
    ValueQuoted(f1);
    ValueQuoted(f2);
    CodedShapeInjective(v, w1, g1, l1, w2, g2, l2);
  }

  /** `Win32_error(function, code)`: type Win32, the system's description
      of the code, the function, and the code itself in the XML form. */
  function Win32(catalog: Catalog, func: string, code: U32): (e: Error)
    ensures e.message == FormatMessage("Win32", SystemDescription(catalog, code), Some(func))
    ensures SingleElement(e.xml, "error")
    ensures EndsWithAttribute(e.xml, CodeAttribute(code))
    ensures e.xml == CodedSpelled("'Win32'", Text.XmlAttributeValue(SystemDescription(catalog, code)),
                                  Text.XmlAttributeValue(func), "code='" + Text.Decimal(code) + "'")
  {
    var description := SystemDescription(catalog, code);
    Win32XmlShape(description, func, code);
    var x := Win32Xml(description, func, code);
    Error(FormatMessage("Win32", description, Some(func)), x)
  }

  /** The digits of the code attribute read back as the code. */
  lemma CodeAttributeReadsBack(code: U32)
    ensures var a := CodeAttribute(code);
            StrToUL.Parse(a[6..|a| - 1]) == StrToUL.Conversion(code, |a| - 7)
  {
    StrToUL.DecimalRoundTrip(code);
  }

  // ---------------------------------------------------------------------
  // WNet_error
  // ---------------------------------------------------------------------

  /** How many characters a buffer is short of holding `text` and its NUL. */
  function Shortfall(text: string, size: nat): nat {
    if |text| >= size then |text| - size + 1 else 0
  }

  /** The extended-error loop from the buffer sizes given: a buffer too
      small for its text doubles and the provider is asked again. How WNetGetLastError
      fills its buffers is an assumption of this model, not something the
      API's documentation fixes: a buffer counts as too small exactly when
      the text and its NUL do not fit in it, and a text that fits comes
      back cut at its first NUL. Corrected to return once both texts fit;
      they then come out whole, whatever the starting sizes. */
  function ExtendedLoop(info: ExtendedInfo, messageSize: nat, providerSize: nat): (r: (string, string))
    requires messageSize >= 1 && providerSize >= 1
    ensures info.Unavailable? ==> r == ("Unknown error", "")
    ensures info.Available? ==> r == (Text.CStr(info.message), Text.CStr(info.provider))
    decreases if info.Available? then Shortfall(info.message, messageSize) + Shortfall(info.provider, providerSize) else 0
  {
    match info
    case Unavailable => ("Unknown error", "")
    case Available(m, p) =>
      if |m| >= messageSize then ExtendedLoop(info, 2 * messageSize, providerSize)
      else if |p| >= providerSize then ExtendedLoop(info, messageSize, 2 * providerSize)
      else (Text.CStr(m), Text.CStr(p))
  }

  /** The loop of `format_last_message` as written: the branch that has read
      both texts stores them and goes round again, so the only way out is
      a failing call. `fuel` bounds the rounds modelled; None means the loop
      was still running. */
  function ExtendedLoopAsWritten(info: ExtendedInfo, messageSize: nat, providerSize: nat,
                                 stored: (string, string), fuel: nat): (r: Option<(string, string)>)
    requires messageSize >= 1 && providerSize >= 1
    ensures r.Some? ==> r.value.0 == "Unknown error"
    decreases fuel
  {
    if fuel == 0 then None
    else match info
      case Unavailable => Some(("Unknown error", stored.1))
      case Available(m, p) =>
        if |m| >= messageSize then ExtendedLoopAsWritten(info, 2 * messageSize, providerSize, stored, fuel - 1)
        else if |p| >= providerSize then ExtendedLoopAsWritten(info, messageSize, 2 * providerSize, stored, fuel - 1)
        else ExtendedLoopAsWritten(info, messageSize, providerSize, (Text.CStr(m), Text.CStr(p)), fuel - 1)
  }

  /** Whenever the provider does report its error, the loop as written never
      finishes, however many rounds are allowed. */
  lemma {:induction false} ExtendedLoopAsWrittenDiverges(m: string, p: string, messageSize: nat, providerSize: nat,
                                                         stored: (string, string), fuel: nat)
    requires messageSize >= 1 && providerSize >= 1
    ensures ExtendedLoopAsWritten(Available(m, p), messageSize, providerSize, stored, fuel).None?
    decreases fuel
  {
    if fuel > 0 {
      if |m| >= messageSize {
        ExtendedLoopAsWrittenDiverges(m, p, 2 * messageSize, providerSize, stored, fuel - 1);
      } else if |p| >= providerSize {
        ExtendedLoopAsWrittenDiverges(m, p, messageSize, 2 * providerSize, stored, fuel - 1);
      } else {
        ExtendedLoopAsWrittenDiverges(m, p, messageSize, providerSize, (Text.CStr(m), Text.CStr(p)), fuel - 1);
      }
    }
  }

  /** A concrete provider report that the loop as written never returns
      but the corrected loop does. */
  lemma ExtendedLoopCounterexample()
    ensures ExtendedLoop(Available("Denied", "NW"), 256, 256) == ("Denied", "NW")
    ensures forall fuel: nat :: ExtendedLoopAsWritten(Available("Denied", "NW"), 256, 256, ("", ""), fuel).None?
  {
    Text.CStrOfNulFree("Denied");
    Text.CStrOfNulFree("NW");
    forall fuel: nat
      ensures ExtendedLoopAsWritten(Available("Denied", "NW"), 256, 256, ("", ""), fuel).None?
    {
      ExtendedLoopAsWrittenDiverges("Denied", "NW", 256, 256, ("", ""), fuel);
    }
  }

  /** `format_last_message`: an ordinary code is described from the system
      table with no provider; ERROR_EXTENDED_ERROR asks the provider, with
      the loop corrected to return once both texts have been read. */
  function LastMessage(catalog: Catalog, code: U32): (r: (string, string))
    ensures code != ExtendedErrorCode ==> r == (SystemDescription(catalog, code), "")
    ensures code == ExtendedErrorCode && catalog.extended.Unavailable? ==> r == ("Unknown error", "")
    ensures code == ExtendedErrorCode && catalog.extended.Available? ==>
              r == (Text.CStr(catalog.extended.message), Text.CStr(catalog.extended.provider))
  {
    if code != ExtendedErrorCode then (SystemDescription(catalog, code), "")
    else ExtendedLoop(catalog.extended, 256, 256)
  }

  /** The message part of a network error: the provider, when there is one,
      follows the description in parentheses. */
  function WNetDescription(d: string, p: string): string {
    if p == "" then d else d + " (" + p + ")"
  }

  /** The last attribute of a network error's XML form. */
  function WNetLast(p: string, code: U32): (a: string)
    ensures '<' !in a
  {
    if p == "" then CodeAttribute(code) else Attribute("provider", p)
  }

  /** The XML form of a network error; `WNetXmlShape` spells it out. */
  function WNetXml(d: string, p: string, func: string, code: U32): (x: string)
    ensures SingleElement(x, "error")
    ensures EndsWithAttribute(x, WNetLast(p, code))
  {
    ErrorElement(Leading("WNet", d, func), WNetLast(p, code))
  }

  /** The XML form of a network error as `WNet_error` concatenates it: the
      literal type, the quoted description and function, then the code in
      decimal when there is no provider and the quoted provider when there
      is. */
  lemma WNetXmlShape(d: string, p: string, func: string, code: U32)
    ensures WNetXml(d, p, func, code)
            == CodedSpelled("'WNet'", Text.XmlAttributeValue(d), Text.XmlAttributeValue(func),
                            if p == "" then "code='" + Text.Decimal(code) + "'"
                            else "provider=" + Text.XmlAttributeValue(p))
  {
    WNetXmlLast(d, p, func, code);
    WNetLastText(p, code);
  }

  lemma WNetLastText(p: string, code: U32)
    ensures WNetLast(p, code) == if p == "" then "code='" + Text.Decimal(code) + "'"
                                 else "provider=" + Text.XmlAttributeValue(p)
  {
  }

  /** The XML form of a network error determines the description, the
      function and the provider, and the code when there is no provider. */
  lemma WNetXmlInjective(d1: string, p1: string, f1: string, c1: U32, d2: string, p2: string, f2: string, c2: U32)
    requires WNetXml(d1, p1, f1, c1) == WNetXml(d2, p2, f2, c2)
    ensures d1 == d2 && f1 == f2 && p1 == p2
    ensures p1 == "" ==> c1 == c2
  {
    WNetXmlLast(d1, p1, f1, c1);
    WNetXmlLast(d2, p2, f2, c2);
    WNetReadBack(d1, p1, f1, c1, d2, p2, f2, c2, WNetXml(d1, p1, f1, c1));
  }

  lemma WNetReadBack(d1: string, p1: string, f1: string, c1: U32, d2: string, p2: string, f2: string, c2: U32, x: string)
    requires x == CodedSpelled("'WNet'", Text.XmlAttributeValue(d1), Text.XmlAttributeValue(f1), WNetLast(p1, c1))
    requires x == CodedSpelled("'WNet'", Text.XmlAttributeValue(d2), Text.XmlAttributeValue(f2), WNetLast(p2, c2))
    ensures d1 == d2 && f1 == f2 && p1 == p2
    ensures p1 == "" ==> c1 == c2
  {
    ValuesReadBack(d1, f1, WNetLast(p1, c1), d2, f2, WNetLast(p2, c2), "'WNet'", x);
    WNetLastReadBack(d1, p1, f1, c1, d2, p2, f2, c2, x);
  }

  /** Once the description and function agree, the provider, or the code
      when there is no provider, is read back. */
  lemma WNetLastReadBack(d1: string, p1: string, f1: string, c1: U32, d2: string, p2: string, f2: string, c2: U32, x: string)
    requires x == CodedSpelled("'WNet'", Text.XmlAttributeValue(d1), Text.XmlAttributeValue(f1), WNetLast(p1, c1))
    requires x == CodedSpelled("'WNet'", Text.XmlAttributeValue(d2), Text.XmlAttributeValue(f2), WNetLast(p2, c2))
    requires d1 == d2 && f1 == f2
    ensures p1 == p2 && (p1 == "" ==> c1 == c2)
  {
    SameLast("'WNet'", Text.XmlAttributeValue(d1), Text.XmlAttributeValue(f1), WNetLast(p1, c1), WNetLast(p2, c2));
    WNetLastInjective(p1, c1, p2, c2);
  }

  lemma WNetXmlLast(d: string, p: string, func: string, code: U32)
    ensures WNetXml(d, p, func, code)
            == CodedSpelled("'WNet'", Text.XmlAttributeValue(d), Text.XmlAttributeValue(func), WNetLast(p, code))
  {
    ErrorElementShape("WNet", d, func, WNetLast(p, code));
    PlainKinds();
  }

  /** The last attribute tells a provider from a code, and either back. */
  lemma WNetLastInjective(p1: string, c1: U32, p2: string, c2: U32)
    requires WNetLast(p1, c1) == WNetLast(p2, c2)
    ensures p1 == p2 && (p1 == "" ==> c1 == c2)
  {
    WNetLastText(p1, c1);
    WNetLastText(p2, c2);
    assert WNetLast(p1, c1)[0] == (if p1 == "" then 'c' else 'p');
    assert WNetLast(p2, c2)[0] == (if p2 == "" then 'c' else 'p');
    if p1 == "" && p2 == "" {
      CodeTextInjective(c1, c2);
    } else if p1 != "" && p2 != "" {
      ProviderInjective(p1, p2);
    }
  }

  lemma ProviderInjective(p1: string, p2: string)
    requires "provider=" + Text.XmlAttributeValue(p1) == "provider=" + Text.XmlAttributeValue(p2)
    ensures p1 == p2
  {
    DropPrefix("provider=", Text.XmlAttributeValue(p1), Text.XmlAttributeValue(p2));
  }

  /** `WNet_error(function, code)`: type WNet; the provider, when there is
      one, also replaces the code attribute in the XML form. */
  function WNet(catalog: Catalog, func: string, code: U32): (e: Error)
    ensures var (d, p) := LastMessage(catalog, code);
            e.message == FormatMessage("WNet", WNetDescription(d, p), Some(func))
    ensures SingleElement(e.xml, "error")
    ensures var p := LastMessage(catalog, code).1;
            EndsWithAttribute(e.xml, if p == "" then CodeAttribute(code) else Attribute("provider", p))
    ensures var (d, p) := LastMessage(catalog, code);
            e.xml == CodedSpelled("'WNet'", Text.XmlAttributeValue(d), Text.XmlAttributeValue(func),
                                  if p == "" then "code='" + Text.Decimal(code) + "'"
                                  else "provider=" + Text.XmlAttributeValue(p))
  {
    var (d, p) := LastMessage(catalog, code);
    WNetXmlShape(d, p, func, code);
    Error(FormatMessage("WNet", WNetDescription(d, p), Some(func)), WNetXml(d, p, func, code))
  }
}

=== FILE: legacy_errors.dfy ===
/** The exception records of the older library (include/basic/error.h and
    include/ntutils/WNet_error.h): a message only, plus the code for a
    Win32 error. The typed form always names a function. */
module LegacyErrors {
  import opened Wrappers
  import Text
  import Errors

  datatype LegacyError = LegacyError(message: string, code: Option<U32>)

  /** The protected constructor: "<type> error: '<description>' from <function>". */
  function Typed(kind: string, description: string, func: string): (m: string)
    ensures m == Errors.FormatMessage(kind, description, Some(func))
  {
    kind + " error: '" + description + "' from " + func
  }

  /** The public constructor keeps the message as given. */
  function Plain(message: string): (e: LegacyError)
    ensures e.message == message && e.code.None?
  {
    LegacyError(message, None)
  }

  /** `Win32_error(function, code)`: the system description (trimmed, or
      "Unknown error <code>") and the code. */
  function Win32(catalog: Errors.Catalog, func: string, code: U32): (e: LegacyError)
    ensures e.code == Some(code)
    ensures e.message == Errors.FormatMessage("Win32", Errors.SystemDescription(catalog, code), Some(func))
  {
    LegacyError(Typed("Win32", Errors.SystemDescription(catalog, code), func), Some(code))
  }

  /** `format_last_message`: the description with the provider always
      appended in parentheses, once the loop has read both texts. */
  function LastMessage(catalog: Errors.Catalog, code: U32): (m: string)
    ensures code != Errors.ExtendedErrorCode ==> m == Errors.SystemDescription(catalog, code)
    ensures code == Errors.ExtendedErrorCode && catalog.extended.Unavailable? ==> m == "Unknown error"
    ensures code == Errors.ExtendedErrorCode && catalog.extended.Available? ==>
              m == Text.CStr(catalog.extended.message) + " (" + Text.CStr(catalog.extended.provider) + ")"
  {
    if code != Errors.ExtendedErrorCode then Errors.SystemDescription(catalog, code)
    else match catalog.extended
      case Unavailable => "Unknown error"
      case Available(_, _) =>
        var (m, p) := Errors.ExtendedLoop(catalog.extended, 256, 256);
        m + " (" + p + ")"
  }

  /** `WNet_error(function, code)`. */
  function WNet(catalog: Errors.Catalog, func: string, code: U32): (e: LegacyError)
    ensures e.code.None?
    ensures e.message == Typed("WNet", LastMessage(catalog, code), func)
  {
    LegacyError(Typed("WNet", LastMessage(catalog, code), func), None)
  }

  /** The two versions word a network error the same way except when the
      provider reports an empty provider name: the older one then still
      appends " ()". */
  lemma WNetVersionsAgree(catalog: Errors.Catalog, func: string, code: U32)
    ensures WNet(catalog, func, code).message == Errors.WNet(catalog, func, code).message
            <==> !(code == Errors.ExtendedErrorCode && catalog.extended.Available?
                   && Text.CStr(catalog.extended.provider) == "")
  {
    var older := LastMessage(catalog, code);
    var (d, p) := Errors.LastMessage(catalog, code);
    var newer := Errors.WNetDescription(d, p);
    if code == Errors.ExtendedErrorCode && catalog.extended.Available? && p == "" {
      assert older == d + " ()";
      assert |older| != |newer|;
      if WNet(catalog, func, code).message == Errors.WNet(catalog, func, code).message {
        Errors.FormatMessageInjective("WNet", older, newer, Some(func));
      }
    } else if code == Errors.ExtendedErrorCode && catalog.extended.Available? {
      assert older == newer;
    } else {
      assert older == newer;
    }
  }
}

=== FILE: legacy_priority.dfy ===
/** The older `ntpriority` tool (ntpriority.cpp at the top of the
    repository): the same actions and `--level` names as the newer tool,
    with the older selector's target on the wire and no XML output.
    Modelled: the service's parser, the client's message and the command
    line; changing the priority itself is not part of this model. */
module LegacyPriority {
  import opened Wrappers
  import Message
  import Options
  import Processes
  import LegacyProcesses
  import RemoteFramework
  import Priority
  import Tools

  type Request = Priority.Request

  function IncompleteLevel(): string { "Invalid message received: incomplete level action" }

  // ---------------------------------------------------------------------
  // The request
  // ---------------------------------------------------------------------

  /** `server::handle_message` on a message of at least one byte (the
      framework refuses an empty one): 'l' and the level's four bytes, or
      't'; a target, which only a test may leave out; then nothing. An
      unknown tag byte is not read, so it is left over as extra data. */
  function HandleMessage(v: LegacyProcesses.LengthRead, msg: string): (r: LegacyProcesses.Decoding<Request>)
    requires 0 < |msg| < Message.Modulus
    ensures msg[0] !in {'l', 't'} ==> r == LegacyProcesses.Refused(Priority.UnknownAction())
    ensures msg[0] == 'l' && |msg| < 5 ==> r == LegacyProcesses.Refused(IncompleteLevel())
    ensures msg[0] == 'l' && |msg| == 5 ==> r == LegacyProcesses.Refused(Processes.NoTarget())
    ensures r.Done? ==> (r.value.action.TestLevel? <==> msg[0] == 't')
    ensures r.Done? && r.value.action.SetLevel? ==> |msg| >= 5 && r.value.action.level == Message.Decode32(msg, 1)
    ensures r.Done? ==> var i := |Priority.ActionBytes(r.value.action)|;
                        i <= |msg| && LegacyProcesses.GetTarget(v, Processes.Fresh, msg, i)
                                      == LegacyProcesses.Done((r.value.selector, |msg|))
    ensures v == LegacyProcesses.Corrected ==> !r.Undefined?
  {
    match DecodeAction(msg)
    case Refused(m) => LegacyProcesses.Refused(m)
    case Undefined => LegacyProcesses.Undefined
    case Done((a, i)) =>
      if i == |msg| && !a.TestLevel? then LegacyProcesses.Refused(Processes.NoTarget())
      else match LegacyProcesses.GetTarget(v, Processes.Fresh, msg, i)
        case Refused(m) => LegacyProcesses.Refused(m)
        case Undefined => LegacyProcesses.Undefined
        case Done((selector, j)) =>
          if j != |msg| then LegacyProcesses.Refused(Priority.ExtraData())
          else LegacyProcesses.Done(Priority.Request(a, selector))
  }

  /** The action at the start of the message: 'l' and the level's four
      bytes, or 't'. */
  function DecodeAction(msg: string): (r: LegacyProcesses.Decoding<(Priority.Action, nat)>)
    requires 0 < |msg|
    ensures !r.Undefined?
    ensures msg[0] !in {'l', 't'} ==> r == LegacyProcesses.Refused(Priority.UnknownAction())
    ensures msg[0] == 'l' && |msg| < 5 ==> r == LegacyProcesses.Refused(IncompleteLevel())
    ensures r.Done? ==> r.value.1 == |Priority.ActionBytes(r.value.0)| <= |msg| && (r.value.0.TestLevel? <==> msg[0] == 't')
    ensures r.Done? && r.value.0.SetLevel? ==> r.value.0.level == Message.Decode32(msg, 1)
  {
    match msg[0]
    case 'l' =>
      if |msg| < 5 then LegacyProcesses.Refused(IncompleteLevel())
      else LegacyProcesses.Done((Priority.SetLevel(Message.Decode32(msg, 1)), 5))
    case 't' => LegacyProcesses.Done((Priority.TestLevel, 1))
    case _ => LegacyProcesses.Refused(Priority.UnknownAction())
  }

  /** The action's bytes read back, whatever follows them. */
  lemma DecodeActionBytes(a: Priority.Action, rest: string)
    ensures DecodeAction(Priority.ActionBytes(a) + rest) == LegacyProcesses.Done((a, |Priority.ActionBytes(a)|))
  {
    if a.SetLevel? {
      Message.Decode32Encode32("l", a.level, rest);
      assert Priority.ActionBytes(a) + rest == "l" + Message.Encode32(a.level) + rest;
    }
  }

  /** The message the client sends: 't', or 'l' and the level's bytes,
      then `add_target_to_message`. */
  function ClientMessage(a: Priority.Action, s: Processes.Selector): (msg: string)
    ensures |msg| >= |Priority.ActionBytes(a)| && msg[..|Priority.ActionBytes(a)|] == Priority.ActionBytes(a)
  {
    LegacyProcesses.AddTarget(Priority.ActionBytes(a), s)
  }

  /** For every selector the command line accepts, the service decodes the
      action and target the client encoded: with the corrected length read
      for names shorter than 256 characters, as written only below 128. */
  lemma HandleMessageClientMessage(v: LegacyProcesses.LengthRead, a: Priority.Action, s: Processes.Selector)
    requires Processes.ValidateOptions(s, a.TestLevel?).Pass?
    requires |s.name| < (if v == LegacyProcesses.Corrected then 256 else 128)
    ensures HandleMessage(v, ClientMessage(a, s)) == LegacyProcesses.Done(Priority.Request(a, Processes.Canonical(s)))
  {
    var bytes := Priority.ActionBytes(a);
    var msg := ClientMessage(a, s);
    assert bytes + msg[|bytes|..] == msg;
    DecodeActionBytes(a, msg[|bytes|..]);
    if s.pid != 0 || s.name != "" {
      LegacyProcesses.GetTargetAddTarget(v, s, bytes, "");
      assert LegacyProcesses.AddTarget(bytes, s) + "" == msg;
    } else {
      assert msg == bytes;
    }
  }

  // ---------------------------------------------------------------------
  // The command line
  // ---------------------------------------------------------------------

  /** The options the tool defines: the newer tool's without `--xml`. */
  function Defs(): seq<Options.OptionDef> {
    [Priority.Def('h', "help", Options.NoArgument),
     Priority.Def('i', "pid", Options.RequiredArgument), Priority.Def('n', "name", Options.RequiredArgument),
     Priority.Def('s', "substr", Options.NoArgument), Priority.Def('l', "level", Options.RequiredArgument),
     Priority.Def('t', "test", Options.NoArgument), Priority.Def('c', "computer", Options.RequiredArgument),
     Priority.Def('u', "username", Options.RequiredArgument), Priority.Def('p', "password", Options.OptionalArgument)]
  }

  /** The options gathered so far; `level` is None while no `--level` was
      given (the original leaves it uninitialised). */
  datatype Setup = Setup(level: Option<U32>, test: bool, selector: Processes.Selector, client: RemoteFramework.Client)

  const Initial: Setup := Setup(None, false, Processes.Fresh, RemoteFramework.NewClient)

  type Command = Tools.Command<Setup>

  /** One pass of the option loop: `--level` with the newer tool's
      reading, `--test`, then the selector, then the client. */
  function HandleEvent(st: Setup, e: Options.Event): (r: Result<Setup, Tools.Usage>)
    ensures e.option.None? ==> r == Err(Some(Options.MissingOption(Options.ArgumentText(e))))
    ensures e.option.Some? && e.option.value.short == 'h' ==> r == Err(None)
    ensures e.option.Some? && e.option.value.short == 'l' ==>
              match Priority.LevelOption(Options.ArgumentText(e))
              case Ok(level) => r == Ok(st.(level := Some(level)))
              case Err(m) => r == Err(Some(m))
    ensures r.Ok? && r.value.level != st.level ==> e.option.value.short == 'l'
  {
    match e.option
    case None => Err(Some(Options.MissingOption(Options.ArgumentText(e))))
    case Some(d) =>
      var c := d.short;
      if c == 'h' then Err(None)
      else if c == 'l' then
        match Priority.LevelOption(Options.ArgumentText(e))
        case Ok(level) => Ok(st.(level := Some(level)))
        case Err(m) => Err(Some(m))
      else if c == 't' then Ok(st.(test := true))
      else match Processes.HandleOption(st.selector, c, Options.ArgumentText(e))
        case Rejected(m) => Err(Some(m))
        case Handled(s) => Ok(st.(selector := s))
        case Unhandled =>
          match RemoteFramework.ClientOption(st.client, c, e.argument)
          case Handled(client) => Ok(st.(client := client))
          case _ => Ok(st)
  }

  /** The selector check, a test being allowed to leave the target out. */
  function Check(st: Setup): Outcome<string> {
    Processes.ValidateOptions(st.selector, st.test)
  }

  /** `command_line_main` up to the work: the option loop, the parser's own
      error and the selector check. As in the newer tool, a run that neither
      sets a level nor tests is let through. */
  function Configure(p: Options.Parsed): (c: Command)
    ensures c.Configured? ==> Processes.ValidateOptions(c.setup.selector, c.setup.test).Pass?
    ensures c.Configured? ==> p.failure.None? && Tools.HandleEvents(HandleEvent, Initial, p.events) == Ok(c.setup)
    ensures c.Undefined? ==> p.undefined
  {
    Tools.Configure(HandleEvent, Initial, Check, p)
  }

  /** The tool's command line, read by the parser as written. */
  function CommandLine(argv: seq<string>): (c: Command)
    ensures c.Configured? ==> Processes.ValidateOptions(c.setup.selector, c.setup.test).Pass?
    ensures c.Undefined? ==> Options.Parse(Defs(), argv, Options.AsWritten).undefined
  {
    Configure(Options.Parse(Defs(), argv, Options.AsWritten))
  }
}

=== FILE: legacy_processes.dfy ===
/** The older process selector (include/ntutils/processes.h): the same
    pid, name and matching mode as the newer one, and the same option
    handling and checks, but a different target on the wire. A name is
    sent with a ONE-byte length, and the service reads that byte back
    through a (signed) `char`.

    The selector record, its option handling, `validate_options` and the
    choice of processes are those of the newer selector (`Processes`); this
    module holds what differs. */
module LegacyProcesses {
  import opened Wrappers
  import Text
  import Message
  import Processes

  type Selector = Processes.Selector

  /** The outcome of reading from a message: a value, an error thrown with
      this message, or behaviour the C++ language leaves undefined. */
  datatype Decoding<+T> = Done(value: T) | Refused(message: string) | Undefined

  // ---------------------------------------------------------------------
  // The target on the wire
  // ---------------------------------------------------------------------

  /** `add_target_to_message`: 'i' and the pid's four bytes; else, for a
      name, 'n' or 's', the length stored into one `char` (so only its low
      eight bits), then the characters; else nothing. */
  function AddTarget(msg: string, s: Selector): (r: string)
    ensures |r| >= |msg| && r[..|msg|] == msg
    ensures s.pid != 0 ==> |r| == |msg| + 5 && r[|msg|] == 'i'
    ensures s.pid == 0 && s.name != "" ==>
              |r| == |msg| + 2 + |s.name| && r[|msg|] == Processes.NameTag(s.exactMatch)
              && Message.ByteOf(r[|msg| + 1]) == |s.name| % 256 && r[|msg| + 2..] == s.name
    ensures s.pid == 0 && s.name == "" ==> r == msg
  {
    if s.pid != 0 then Message.EncodeBinary(msg + "i", s.pid)
    else if s.name != "" then
      var r := msg + [Processes.NameTag(s.exactMatch), Message.ByteChar(|s.name| % 256)] + s.name;
      assert r[..|msg|] == msg;
      r
    else msg
  }

  /** How the service turns the length byte into the `unsigned` it uses. */
  datatype LengthRead =
      /** Through `char`, signed with this compiler: a byte from 128 on is
          sign-extended, so the length becomes 2^32 - 256 + the byte. */
      AsWritten
      /** Through `unsigned char`: the byte's own value. */
    | Corrected

  function NameLength(v: LengthRead, b: nat): (n: U32)
    requires b < 256
    ensures v == Corrected || b < 128 ==> n == b
    ensures v == AsWritten && b >= 128 ==> n == b + Message.Modulus - 256
  {
    if v == AsWritten && b >= 128 then b + Message.Modulus - 256 else b
  }

  function IncompletePid(): string { "Invalid message received: incomplete pid target" }
  function IncompleteLength(): string { "Invalid message received: incomplete name target length" }
  function IncompleteName(): string { "Invalid message received: incomplete name target" }

  /** The name at `i` (the length byte's position) of a message of
      `msg_size` bytes. As written the bound check `msg_size < i + 1 +
      length` is computed in 32-bit unsigned arithmetic: when that sum wraps
      the check passes and the name is copied from past the end of the
      message, which is undefined. The corrected check cannot wrap. */
  function ReadName(v: LengthRead, s: Selector, msg: string, i: nat): (r: Decoding<(Selector, nat)>)
    requires 0 < i < |msg| < Message.Modulus
    ensures v == Corrected ==> !r.Undefined?
    ensures r.Done? ==> var n := NameLength(v, Message.ByteOf(msg[i]));
                        i + 1 + n <= |msg| && r.value == (s.(name := msg[i + 1..i + 1 + n]), i + 1 + n)
    ensures r.Refused? ==> r.message == IncompleteName()
    ensures Message.ByteOf(msg[i]) < 128 && i + 1 + Message.ByteOf(msg[i]) < Message.Modulus ==>
              (r.Done? <==> i + 1 + Message.ByteOf(msg[i]) <= |msg|)
  {
    var n := NameLength(v, Message.ByteOf(msg[i]));
    var bound := if v == AsWritten then (i + 1 + n) % Message.Modulus else i + 1 + n;
    if |msg| < bound then Refused(IncompleteName())
    else if |msg| < i + 1 + n then Undefined
    else Done((s.(name := msg[i + 1..i + 1 + n]), i + 1 + n))
  }

  /** `get_target_from_message`: nothing at the end of the message; a pid
      after 'i'; a name after 'n' or 's' ('s' also turns off exact
      matching); and any other tag byte is left where it is, unread, since
      the switch has no default. */
  function GetTarget(v: LengthRead, s: Selector, msg: string, i: nat): (r: Decoding<(Selector, nat)>)
    requires i <= |msg| < Message.Modulus
    ensures i == |msg| ==> r == Done((s, i))
    ensures i < |msg| && msg[i] !in {'i', 'n', 's'} ==> r == Done((s, i))
    ensures i < |msg| && msg[i] == 'i' ==>
              if |msg| < i + 5 then r == Refused(IncompletePid())
              else r == Done((s.(pid := Message.Decode32(msg, i + 1)), i + 5))
    ensures i < |msg| && msg[i] in {'n', 's'} && |msg| < i + 2 ==> r == Refused(IncompleteLength())
    ensures i + 2 <= |msg| && msg[i] in {'n', 's'} ==>
              r == ReadName(v, s.(exactMatch := s.exactMatch && msg[i] == 'n'), msg, i + 1)
    ensures v == Corrected ==> !r.Undefined?
  {
    if i == |msg| then Done((s, i))
    else match msg[i]
      case 'i' =>
        if |msg| < i + 5 then Refused(IncompletePid())
        else Done((s.(pid := Message.Decode32(msg, i + 1)), i + 5))
      case 's' =>
        if |msg| < i + 2 then Refused(IncompleteLength())
        else ReadName(v, s.(exactMatch := false), msg, i + 1)
      case 'n' =>
        if |msg| < i + 2 then Refused(IncompleteLength())
        else ReadName(v, s, msg, i + 1)
      case _ => Done((s, i))
  }

  /** Reading back what `add_target_to_message` wrote, into a fresh
      selector: the pid, or the name and matching mode, and nothing more.
      With the corrected read this holds for every name shorter than 256
      characters; as written only for names shorter than 128. */
  lemma GetTargetAddTarget(v: LengthRead, s: Selector, prefix: string, rest: string)
    requires s.pid != 0 || s.name != ""
    requires |s.name| < (if v == Corrected then 256 else 128)
    requires |AddTarget(prefix, s) + rest| < Message.Modulus
    ensures GetTarget(v, Processes.Fresh, AddTarget(prefix, s) + rest, |prefix|)
            == Done((Processes.Canonical(s), |AddTarget(prefix, s)|))
  {
    var msg := AddTarget(prefix, s) + rest;
    var i := |prefix|;
    if s.pid != 0 {
      assert msg == Message.EncodeBinary(prefix + "i", s.pid) + rest;
      Message.DecodeBinaryEncodeBinary(prefix + "i", s.pid, rest, "pid target");
    } else {
      var n := |s.name|;
      assert msg[i] == Processes.NameTag(s.exactMatch);
      assert Message.ByteOf(msg[i + 1]) == n;
      assert msg[i + 2..i + 2 + n] == s.name;
    }
  }

  /** The bug as written: after a short prefix such as the action byte, a
      name of 128 characters is refused, ... */
  lemma LongNameRefused(prefix: string, name: string)
    requires |name| == 128 && |prefix| < 126
    ensures var msg := AddTarget(prefix, Processes.Selector(0, name, true));
            GetTarget(AsWritten, Processes.Fresh, msg, |prefix|) == Refused(IncompleteName())
  {
    var msg := AddTarget(prefix, Processes.Selector(0, name, true));
    assert msg[|prefix|] == 'n';
    assert Message.ByteOf(msg[|prefix| + 1]) == 128;
  }

  /** ... and one of 255 characters passes the wrapped check and is copied
      from past the end of the message. */
  lemma LongestNameUndefined(prefix: string, name: string)
    requires |name| == 255 && |prefix| < 1000
    ensures var msg := AddTarget(prefix, Processes.Selector(0, name, true));
            GetTarget(AsWritten, Processes.Fresh, msg, |prefix|) == Undefined
  {
    var msg := AddTarget(prefix, Processes.Selector(0, name, true));
    assert msg[|prefix|] == 'n';
    assert Message.ByteOf(msg[|prefix| + 1]) == 255;
  }

  /** The corrected read takes both names back. */
  lemma LongNamesCorrected(prefix: string, name: string)
    requires 128 <= |name| < 256 && |prefix| < 1000
    ensures var msg := AddTarget(prefix, Processes.Selector(0, name, true));
            GetTarget(Corrected, Processes.Fresh, msg, |prefix|) == Done((Processes.Selector(0, name, true), |msg|))
  {
    GetTargetAddTarget(Corrected, Processes.Selector(0, name, true), prefix, "");
    assert AddTarget(prefix, Processes.Selector(0, name, true)) + "" == AddTarget(prefix, Processes.Selector(0, name, true));
  }

  // ---------------------------------------------------------------------
  // Output
  // ---------------------------------------------------------------------

  /** `validate_process_list(empty)`: an empty selection is an error naming
      the pid, or the name without quotes. */
  function ValidateProcessList(s: Selector, empty: bool): (r: Outcome<string>)
    ensures r.Fail? <==> empty
    ensures r.Fail? && s.pid != 0 ==> r.error == "Could not find process " + Text.Decimal(s.pid)
    ensures r.Fail? && s.pid == 0 ==> r.error == "Could not find process " + s.name
  {
    if !empty then Pass
    else if s.pid != 0 then Fail("Could not find process " + Text.Decimal(s.pid))
    else Fail("Could not find process " + s.name)
  }

  /** The two generations report a missing process alike, except that the
      newer one quotes the name. */
  lemma ValidateProcessListGenerations(s: Selector, empty: bool)
    ensures ValidateProcessList(s, empty).Fail? <==> Processes.ValidateProcessList(s, empty).Fail?
    ensures s.pid != 0 ==> ValidateProcessList(s, empty) == Processes.ValidateProcessList(s, empty)
    ensures s.pid == 0 && empty ==>
              Processes.ValidateProcessList(s, empty).error
              == "Could not find process '" + ValidateProcessList(s, empty).error[23..] + "'"
  {
  }
}

=== FILE: legacy_remote_ops.dfy ===
/** The remote-session helpers of the older tools
    (include/ntutils/remote_ops.h). Unlike the newer ones they always add
    a connection, make a single delete attempt, and write their warnings
    straight to the error stream as "Warning: ..." lines. */
module LegacyRemoteOps {
  import opened Wrappers
  import Errors
  import LegacyErrors
  import ServiceControl

  const NoError: U32 := 0

  function IpcResource(host: string): string {
    "\\\\" + host + "\\IPC$"
  }

  /** The `remote_login` constructor: the connection to the computer's
      IPC$ share, or the network error that is thrown. */
  function RemoteLogin(catalog: Errors.Catalog, host: string, added: U32): (r: Result<string, LegacyErrors.LegacyError>)
    ensures r.Ok? <==> added == NoError
    ensures r.Ok? ==> r.value == IpcResource(host)
    ensures r.Err? ==> r.error == LegacyErrors.WNet(catalog, "WNetAddConnection2", added)
  {
    if added != NoError then Err(LegacyErrors.WNet(catalog, "WNetAddConnection2", added))
    else Ok(IpcResource(host))
  }

  /** A warning line on the error stream. */
  function Warning(text: string): (line: string)
    ensures |line| == |text| + 10 && line[..9] == "Warning: " && line[|line| - 1] == '\n'
    ensures line[9..|line| - 1] == text
  {
    "Warning: " + text + "\n"
  }

  /** The `remote_login` destructor: the connection is always cancelled;
      a failure is only a warning. */
  function Logout(catalog: Errors.Catalog, cancelled: U32): (lines: seq<string>)
    ensures |lines| == (if cancelled != NoError then 1 else 0)
    ensures |lines| == 1 ==>
              lines[0] == Warning("Could not log out of remote computer: " + LegacyErrors.WNet(catalog, "WNetCancelConnection2", cancelled).message)
  {
    if cancelled == NoError then []
    else [Warning("Could not log out of remote computer: " + LegacyErrors.WNet(catalog, "WNetCancelConnection2", cancelled).message)]
  }

  /** The `remote_file` destructor: one delete attempt (None on success, the
      error code otherwise); a failure is a warning. */
  function DeleteRemoteFile(catalog: Errors.Catalog, deleted: Option<U32>): (lines: seq<string>)
    ensures |lines| == (if deleted.Some? then 1 else 0)
    ensures |lines| == 1 ==>
              lines[0] == Warning("Could not delete remote file: " + LegacyErrors.Win32(catalog, "DeleteFile", deleted.value).message)
  {
    match deleted
    case None => []
    case Some(code) => [Warning("Could not delete remote file: " + LegacyErrors.Win32(catalog, "DeleteFile", code).message)]
  }

  /** The `remote_service_install` destructor: a failure to delete the
      service is a warning. */
  function Uninstall(catalog: Errors.Catalog, deleted: Option<U32>): (lines: seq<string>)
    ensures |lines| == (if deleted.Some? then 1 else 0)
    ensures |lines| == 1 ==>
              lines[0] == Warning("Could not uninstall remote service: " + LegacyErrors.Win32(catalog, "DeleteService", deleted.value).message)
  {
    match deleted
    case None => []
    case Some(code) => [Warning("Could not uninstall remote service: " + LegacyErrors.Win32(catalog, "DeleteService", code).message)]
  }

  /** The `remote_service_start` destructor: the same stop and wait as the
      newer tools, with its warnings on the error stream. */
  function StopLines(catalog: Errors.Catalog, e: ServiceControl.StopEnd): (lines: seq<string>)
    ensures !ServiceControl.Warns(e) ==> lines == []
    ensures e.WouldNotStop? ==> lines == [WouldNotStop()]
    ensures e.StopQueryFailed? ==> lines == [CouldNotStop(catalog, e.code)]
  {
    if e.StopQueryFailed? then [CouldNotStop(catalog, e.code)]
    else if e.WouldNotStop? then [WouldNotStop()]
    else []
  }

  /** The warning for a service still running after the wait. */
  function WouldNotStop(): string {
    Warning("Remote service would not stop")
  }

  /** The warning for a status query that failed while stopping. */
  function CouldNotStop(catalog: Errors.Catalog, code: U32): string {
    Warning("Could not stop remote service: " + StopQueryMessage(catalog, code))
  }

  /** The description of a failed status query. */
  function StopQueryMessage(catalog: Errors.Catalog, code: U32): string {
    LegacyErrors.Win32(catalog, "QueryServiceStatus", code).message
  }
}

=== FILE: legacy_suspend.dfy ===
/** The older `ntsuspend` tool (ntsuspend.cpp at the top of the
    repository). It has the same request as the newer tool but a different
    wire format: the target is written and read inline, with the one-byte
    name length of the older selector. Its command line handles `--pid`
    itself, more laxly than the selector, and it has no XML output.
    Modelled: the service's parser, the client's message, the command line
    and the exit code; the suspension itself is not part of this model. */
module LegacySuspend {
  import opened Wrappers
  import Text
  import Message
  import StrToUL
  import Options
  import Processes
  import LegacyProcesses
  import RemoteFramework
  import Suspend
  import Tools

  type Request = Suspend.Request

  // ---------------------------------------------------------------------
  // The request
  // ---------------------------------------------------------------------

  /** `server::handle_message` on a message of at least one byte (the
      framework refuses an empty one): the action byte, then a target read
      at position 1 exactly as `get_target_from_message` reads it, then
      nothing. An unknown tag byte is not read, so it is left over as extra
      data. */
  function HandleMessage(v: LegacyProcesses.LengthRead, msg: string): (r: LegacyProcesses.Decoding<Request>)
    requires 0 < |msg| < Message.Modulus
    ensures msg[0] !in {'s', 'r', 't'} ==> r == LegacyProcesses.Refused(Suspend.UnknownAction())
    ensures |msg| == 1 && msg[0] in {'s', 'r'} ==> r == LegacyProcesses.Refused(Processes.NoTarget())
    ensures |msg| > 1 && msg[0] in {'s', 'r', 't'} && msg[1] !in {'i', 'n', 's'} ==>
              r == LegacyProcesses.Refused(Suspend.ExtraData())
    ensures r.Done? ==> r.value.resume == (msg[0] == 'r') && r.value.test == (msg[0] == 't')
    ensures r.Done? && |msg| == 1 ==> r.value.selector == Processes.Fresh
    ensures r.Done? && |msg| > 1 ==>
              LegacyProcesses.GetTarget(v, Processes.Fresh, msg, 1) == LegacyProcesses.Done((r.value.selector, |msg|))
    ensures v == LegacyProcesses.Corrected ==> !r.Undefined?
  {
    var action := msg[0];
    if action !in {'s', 'r', 't'} then LegacyProcesses.Refused(Suspend.UnknownAction())
    else
      var resume := action == 'r';
      var test := action == 't';
      if |msg| == 1 && !test then LegacyProcesses.Refused(Processes.NoTarget())
      else match LegacyProcesses.GetTarget(v, Processes.Fresh, msg, 1)
        case Refused(m) => LegacyProcesses.Refused(m)
        case Undefined => LegacyProcesses.Undefined
        case Done((selector, i)) =>
          if i != |msg| then LegacyProcesses.Refused(Suspend.ExtraData())
          else LegacyProcesses.Done(Suspend.Request(resume, test, selector))
  }

  /** The message the client builds in `command_line_main`: the action
      byte, then, resizing the message in place, 'i' and the pid's bytes, or
      the name's tag, its length in one `char` and its characters. */
  function ClientMessage(resume: bool, test: bool, s: Processes.Selector): (msg: string)
    ensures |msg| >= 1 && msg[0] == Suspend.ActionChar(resume, test)
  {
    var action := [Suspend.ActionChar(resume, test)];
    if s.pid != 0 then action + ['i'] + Message.Encode32(s.pid)
    else if s.name != "" then
      action + [Processes.NameTag(s.exactMatch), Message.ByteChar(|s.name| % 256)] + s.name
    else action
  }

  /** The inline construction is the older selector's
      `add_target_to_message` after the action byte. */
  lemma ClientMessageAddsTarget(resume: bool, test: bool, s: Processes.Selector)
    ensures ClientMessage(resume, test, s) == LegacyProcesses.AddTarget([Suspend.ActionChar(resume, test)], s)
  {
  }

  /** For every selector the command line accepts, the service decodes the
      request the client built: with the corrected length read for names
      shorter than 256 characters, as written only below 128. */
  lemma HandleMessageClientMessage(v: LegacyProcesses.LengthRead, resume: bool, test: bool, s: Processes.Selector)
    requires Processes.ValidateOptions(s, test).Pass?
    requires |s.name| < (if v == LegacyProcesses.Corrected then 256 else 128)
    ensures HandleMessage(v, ClientMessage(resume, test, s))
            == LegacyProcesses.Done(Suspend.Request(resume && !test, test, Processes.Canonical(s)))
  {
    var action := [Suspend.ActionChar(resume, test)];
    ClientMessageAddsTarget(resume, test, s);
    if s.pid != 0 || s.name != "" {
      LegacyProcesses.GetTargetAddTarget(v, s, action, "");
      assert LegacyProcesses.AddTarget(action, s) + "" == ClientMessage(resume, test, s);
    }
  }

  // ---------------------------------------------------------------------
  // The command line
  // ---------------------------------------------------------------------

  /** The options the tool defines. */
  function Defs(): seq<Options.OptionDef> {
    [Suspend.Def('h', "help", Options.NoArgument),
     Suspend.Def('i', "pid", Options.RequiredArgument), Suspend.Def('n', "name", Options.RequiredArgument),
     Suspend.Def('s', "substr", Options.NoArgument), Suspend.Def('r', "resume", Options.NoArgument),
     Suspend.Def('t', "test", Options.NoArgument), Suspend.Def('c', "computer", Options.RequiredArgument),
     Suspend.Def('u', "username", Options.RequiredArgument), Suspend.Def('p', "password", Options.OptionalArgument)]
  }

  /** The options gathered so far. */
  datatype Setup = Setup(resume: bool, test: bool, selector: Processes.Selector, client: RemoteFramework.Client)

  const Initial: Setup := Setup(false, false, Processes.Fresh, RemoteFramework.NewClient)

  type Command = Tools.Command<Setup>

  /** One pass of the option loop. `--pid` takes whatever number the
      argument starts with and refuses only 0; the client's options go to
      the client; nothing else is defined. */
  function HandleEvent(st: Setup, e: Options.Event): (r: Result<Setup, Tools.Usage>)
    ensures e.option.None? ==> r == Err(Some(Options.MissingOption(Options.ArgumentText(e))))
    ensures e.option.Some? && e.option.value.short == 'h' ==> r == Err(None)
    ensures e.option.Some? && e.option.value.short == 'i' ==>
              var pid := StrToUL.Parse(Options.ArgumentText(e)).value;
              if pid == 0 then r == Err(Some(Processes.InvalidPid(Options.ArgumentText(e))))
              else r == Ok(st.(selector := st.selector.(pid := pid)))
  {
    match e.option
    case None => Err(Some(Options.MissingOption(Options.ArgumentText(e))))
    case Some(d) =>
      var argument := Options.ArgumentText(e);
      match d.short
      case 'h' => Err(None)
      case 'i' =>
        var pid := StrToUL.Parse(argument).value;
        if pid == 0 then Err(Some(Processes.InvalidPid(argument)))
        else Ok(st.(selector := st.selector.(pid := pid)))
      case 'n' => Ok(st.(selector := st.selector.(name := Text.CStr(argument))))
      case 's' => Ok(st.(selector := st.selector.(exactMatch := false)))
      case 'r' => Ok(st.(resume := true))
      case 't' => Ok(st.(test := true))
      case c =>
        match RemoteFramework.ClientOption(st.client, c, e.argument)
        case Handled(client) => Ok(st.(client := client))
        case _ => Ok(st)
  }

  /** Every pid the selector's stricter option handling accepts is accepted
      here with the same value; a number followed by other text is accepted
      here only. */
  lemma PidLaxerThanSelector(st: Setup, e: Options.Event)
    requires e.option.Some? && e.option.value.short == 'i'
    requires Processes.HandleOption(st.selector, 'i', Options.ArgumentText(e)).Handled?
    ensures HandleEvent(st, e) == Ok(st.(selector := Processes.HandleOption(st.selector, 'i', Options.ArgumentText(e)).state))
  {
  }

  /** "5x" names process 5 here, while the selector refuses it. */
  lemma LaxPidExample(st: Setup, d: Options.OptionDef)
    requires d.short == 'i'
    ensures HandleEvent(st, Options.Event(Some(d), Some("5x"))) == Ok(st.(selector := st.selector.(pid := 5)))
    ensures Processes.HandleOption(st.selector, 'i', "5x").Rejected?
  {
    var a := "5x";
    assert StrToUL.SkipSpace(a, 0) == 0;
    assert StrToUL.SignEnd(a, 0) == 0;
    assert StrToUL.BaseAndStart(a, 0) == (10, 0);
    assert StrToUL.DigitsEnd(a, 1, 10) == 1;
    assert StrToUL.DigitsEnd(a, 0, 10) == 1;
    assert a[0..1] == "5";
    assert StrToUL.Horner("5", 10) == StrToUL.Horner("", 10) * 10 + 5;
    assert StrToUL.Parse(a) == StrToUL.Conversion(5, 1);
    Text.CStrOfNulFree(a);
  }

  /** The target check `command_line_main` writes out itself, with the
      selector's messages; a test may leave the target out. */
  function Check(st: Setup): (r: Outcome<string>)
    ensures r == Processes.ValidateOptions(st.selector, st.test)
  {
    if st.selector.pid == 0 && st.selector.name == "" && !st.test then
      Fail("Neither process id nor process name specified")
    else if st.selector.pid != 0 && st.selector.name != "" then
      Fail("Both process id and process name specified")
    else Pass
  }

  /** `command_line_main` up to the work: the option loop, the parser's own
      error, and the inline target check, a test being allowed to leave the
      target out. */
  function Configure(p: Options.Parsed): (c: Command)
    ensures c.Configured? ==> Processes.ValidateOptions(c.setup.selector, c.setup.test).Pass?
    ensures c.Configured? ==> p.failure.None? && Tools.HandleEvents(HandleEvent, Initial, p.events) == Ok(c.setup)
    ensures c.Undefined? ==> p.undefined
  {
    Tools.Configure(HandleEvent, Initial, Check, p)
  }

  /** The tool's command line, read by the parser as written. */
  function CommandLine(argv: seq<string>): (c: Command)
    ensures c.Configured? ==> Processes.ValidateOptions(c.setup.selector, c.setup.test).Pass?
    ensures c.Undefined? ==> Options.Parse(Defs(), argv, Options.AsWritten).undefined
  {
    Configure(Options.Parse(Defs(), argv, Options.AsWritten))
  }

  /** What the tool writes to the error stream before the usage text: the
      option error on an "Error: " line. */
  function Diagnostic(c: Command): (line: string)
    ensures c.ShowUsage? && c.message.Some? ==> line == RemoteFramework.Response(Err(c.message.value))
    ensures !(c.ShowUsage? && c.message.Some?) ==> line == ""
  {
    if c.ShowUsage? && c.message.Some? then "Error: " + c.message.value + "\n" else ""
  }

  /** The exit code: 1 after the usage text, -1 when the run threw, and 0
      otherwise; the tool's own output does not decide it. */
  function ExitCode(c: Command, threw: bool): (code: int)
    ensures c.ShowUsage? <==> code == 1
    ensures c.Configured? ==> (code == -1 <==> threw) && (code == 0 <==> !threw)
  {
    if c.ShowUsage? then 1 else if threw then -1 else 0
  }
}

=== FILE: message.dfy ===
/** The wire format the client and the remote service exchange
    (src/include/ntutils/message.h): fixed-size binary fields copied in
    native byte order, and strings as a 32-bit length followed by the
    characters. The ANSI build is modelled: one character is one byte, and
    an `unsigned` is four of them, least significant first. */
module Message {
  import opened Wrappers
  import Text

  const Modulus: int := 0x1_0000_0000

  /** A buffer position holds one byte. */
  predicate IsByte(c: char) { (c as int) < 256 }

  predicate Bytes(s: string) {
    forall k :: 0 <= k < |s| ==> IsByte(s[k])
  }

  function ByteChar(b: nat): (c: char)
    requires b < 256
    ensures IsByte(c) && c as int == b
  {
    b as char
  }

  /** The value of one buffer position as an unsigned byte. */
  function ByteOf(c: char): (b: nat)
    ensures b < 256
    ensures IsByte(c) ==> b == c as int
  {
    (c as int) % 256
  }

  /** The four bytes `CopyMemory` writes for an `unsigned`. */
  function Encode32(x: U32): (r: string)
    ensures |r| == 4 && Bytes(r)
  {
    var x1 := x / 256;
    var x2 := x1 / 256;
    [ByteChar(x % 256), ByteChar(x1 % 256), ByteChar(x2 % 256), ByteChar(x2 / 256)]
  }

  /** The `unsigned` four bytes at `i` make up. */
  function Decode32(buf: string, i: nat): (x: U32)
    requires i + 4 <= |buf|
  {
    ByteOf(buf[i]) + 256 * (ByteOf(buf[i + 1]) + 256 * (ByteOf(buf[i + 2]) + 256 * ByteOf(buf[i + 3])))
  }

  lemma Decode32Encode32(prefix: string, x: U32, rest: string)
    ensures Decode32(prefix + Encode32(x) + rest, |prefix|) == x
  {
    var buf := prefix + Encode32(x) + rest;
    var e := Encode32(x);
    assert buf[|prefix|..|prefix| + 4] == e;
    var x1 := x / 256;
    var x2 := x1 / 256;
    assert x == x % 256 + 256 * x1;
    assert x1 == x1 % 256 + 256 * x2;
    assert x2 == x2 % 256 + 256 * (x2 / 256);
  }

  lemma DivMod256(low: nat, high: nat)
    requires low < 256
    ensures (low + 256 * high) % 256 == low && (low + 256 * high) / 256 == high
  {
  }

  lemma Encode32Decode32(buf: string, i: nat)
    requires i + 4 <= |buf| && Bytes(buf[i..i + 4])
    ensures Encode32(Decode32(buf, i)) == buf[i..i + 4]
  {
    var w := buf[i..i + 4];
    assert IsByte(w[0]) && IsByte(w[1]) && IsByte(w[2]) && IsByte(w[3]);
    var b0, b1, b2, b3 := ByteOf(w[0]), ByteOf(w[1]), ByteOf(w[2]), ByteOf(w[3]);
    var x2 := b2 + 256 * b3;
    var x1 := b1 + 256 * x2;
    var x := b0 + 256 * x1;
    assert x == Decode32(buf, i);
    DivMod256(b0, x1);
    DivMod256(b1, x2);
    DivMod256(b2, b3);
    var e := Encode32(x);
    assert e[0] == w[0] && e[1] == w[1] && e[2] == w[2] && e[3] == w[3];
  }

  /** `encode_binary_data<unsigned>`: appends the four bytes of `x`. */
  function EncodeBinary(buf: string, x: U32): (r: string)
    ensures |r| == |buf| + 4 && r[..|buf|] == buf
  {
    buf + Encode32(x)
  }

  function Incomplete(name: string): string {
    "Invalid message received: incomplete " + name
  }

  /** `decode_binary_data<unsigned>`: reads the value at `i` and moves past
      it; an exception naming the field when fewer than four bytes are left. */
  function DecodeBinary(buf: string, i: nat, name: string): (r: Result<(U32, nat), string>)
    ensures r.Err? <==> |buf| < i + 4
    ensures r.Err? ==> r.error == Incomplete(name)
    ensures r.Ok? ==> r.value.1 == i + 4 && r.value.0 == Decode32(buf, i)
    ensures r.Ok? && Bytes(buf[i..i + 4]) ==> Encode32(r.value.0) == buf[i..i + 4]
  {
    if |buf| < i + 4 then Err(Incomplete(name))
    else
      Encode32Decode32Guarded(buf, i);
      Ok((Decode32(buf, i), i + 4))
  }

  lemma Encode32Decode32Guarded(buf: string, i: nat)
    requires i + 4 <= |buf|
    ensures Bytes(buf[i..i + 4]) ==> Encode32(Decode32(buf, i)) == buf[i..i + 4]
  {
    if Bytes(buf[i..i + 4]) {
      Encode32Decode32(buf, i);
    }
  }

  lemma DecodeBinaryEncodeBinary(prefix: string, x: U32, rest: string, name: string)
    ensures DecodeBinary(EncodeBinary(prefix, x) + rest, |prefix|, name) == Ok((x, |prefix| + 4))
  {
    Decode32Encode32(prefix, x, rest);
  }

  /** `encode_string`: the length field says `data.length()` (truncated to
      32 bits), but the characters appended are those `data.ptr()` points
      at, which stop at the first NUL. */
  function EncodeString(buf: string, data: string): (r: string)
    ensures r == EncodeBinary(buf, |data| % Modulus) + Text.CStr(data)
    ensures Text.NulFree(data) ==> |r| == |buf| + 4 + |data|
  {
    Text.CStrOfNulFree(data);
    EncodeBinary(buf, |data| % Modulus) + Text.CStr(data)
  }

  /** The check `buf.size() < i + length` that guards the copy in
      `decode_string`: `i` and `length` are both `unsigned`, so the sum is
      taken modulo 2^32. */
  predicate StringFitsAsWritten(size: nat, i: nat, length: U32) {
    !(size < (i + length) % Modulus)
  }

  /** The check as intended: the `length` characters from `i` are inside
      the buffer. */
  predicate StringFits(size: nat, i: nat, length: U32) {
    !(size < i + length)
  }

  /** The wrap-around lets a length field close to 2^32 through: the copy
      would start at position 5 and end at position 4 of a 5-byte buffer. */
  lemma StringFitsAsWrittenOverruns()
    ensures StringFitsAsWritten(5, 5, MaxU32) && 5 + MaxU32 > 5
    ensures !StringFits(5, 5, MaxU32)
  {
  }

  /** Where the sum does not wrap, the two checks agree; they differ exactly
      on the lengths that reach past 2^32. */
  lemma StringFitsAgree(size: nat, i: nat, length: U32)
    requires i + length < Modulus
    ensures StringFitsAsWritten(size, i, length) <==> StringFits(size, i, length)
  {
  }

  /** `decode_string`: a length field, then that many characters. A message
      cut short anywhere raises the exception naming the field. */
  function DecodeString(buf: string, i: nat, name: string): (r: Result<(string, nat), string>)
    ensures r.Err? ==> r.error == Incomplete(name)
    ensures r.Ok? <==> i + 4 <= |buf| && i + 4 + Decode32(buf, i) <= |buf|
    ensures r.Ok? ==> i + 4 <= r.value.1 <= |buf|
                      && r.value.0 == buf[i + 4..r.value.1]
                      && |r.value.0| == Decode32(buf, i)
  {
    match DecodeBinary(buf, i, name)
    case Err(e) => Err(e)
    case Ok((length, j)) =>
      if !StringFits(|buf|, j, length) then Err(Incomplete(name))
      else Ok((buf[j..j + length], j + length))
  }

  lemma {:induction false} DecodeStringEncodeString(prefix: string, data: string, rest: string, name: string)
    requires Text.NulFree(data) && |data| < Modulus
    ensures DecodeString(EncodeString(prefix, data) + rest, |prefix|, name)
            == Ok((data, |prefix| + 4 + |data|))
  {
    var buf := EncodeString(prefix, data) + rest;
    EncodedString(prefix, data, rest);
    DecodeBinaryEncodeBinary(prefix, |data|, data + rest, name);
    var j := |prefix| + 4;
    assert buf[j..j + |data|] == data;
  }

  /** An encoded string of fewer than 2^32 characters, followed by more
      bytes: its exact length field, then its characters. */
  lemma EncodedString(prefix: string, data: string, rest: string)
    requires Text.NulFree(data) && |data| < Modulus
    ensures EncodeString(prefix, data) + rest == EncodeBinary(prefix, |data|) + (data + rest)
  {
    Text.CStrOfNulFree(data);
    assert |data| % Modulus == |data|;
  }

  /** Every cut of an encoded string before its last character is rejected. */
  lemma DecodeStringTruncated(prefix: string, data: string, cut: nat, name: string)
    requires Text.NulFree(data) && |data| < Modulus
    requires |prefix| <= cut < |prefix| + 4 + |data|
    ensures DecodeString(EncodeString(prefix, data)[..cut], |prefix|, name) == Err(Incomplete(name))
  {
    Text.CStrOfNulFree(data);
    var buf := EncodeString(prefix, data)[..cut];
    if cut >= |prefix| + 4 {
      TruncatedHead(prefix, data, cut);
      DecodeBinaryEncodeBinary(prefix, |data|, buf[|prefix| + 4..], name);
    }
  }

  /** A cut of an encoded string past the length field keeps the field. */
  lemma TruncatedHead(prefix: string, data: string, cut: nat)
    requires Text.NulFree(data) && |data| < Modulus
    requires |prefix| + 4 <= cut <= |prefix| + 4 + |data|
    ensures var buf := EncodeString(prefix, data)[..cut];
            |buf| == cut && buf == EncodeBinary(prefix, |data|) + buf[|prefix| + 4..]
  {
    Text.CStrOfNulFree(data);
    var full := EncodeString(prefix, data);
    assert full == EncodeBinary(prefix, |data|) + data;
    var buf := full[..cut];
    assert buf[..|prefix| + 4] == EncodeBinary(prefix, |data|);
  }
}

=== FILE: options.dfy ===
/** The command-line option parser (`option_parser`, include/ntutils/console.h):
    a cursor over the argument vector that returns one option, or one bare
    argument, per call. Short options may be run together ("-abc") or carry
    their argument in the same word ("-ifoo"); long options are matched
    case-insensitively on their defined name and take an argument after
    '=' or in the next word. The argument vector is the words after the
    program name; reading the slot after the last word sees the terminating
    null pointer, and reading beyond it is undefined. */
module Options {
  import opened Wrappers
  import Text

  datatype ArgumentKind = NoArgument | RequiredArgument | OptionalArgument

  /** `option_def`: short name, long name (if any), argument kind, and the
      long name's length as the parser's constructor caches it. */
  datatype OptionDef = OptionDef(short: char, long: Option<string>, kind: ArgumentKind, longLength: nat)

  function LongLength(long: Option<string>): nat {
    match long case None => 0 case Some(name) => |Text.CStr(name)|
  }

  /** The constructor's loop over the definitions. */
  function CacheLengths(defs: seq<OptionDef>): (r: seq<OptionDef>)
    ensures |r| == |defs|
    ensures forall k :: 0 <= k < |r| ==> r[k].longLength == LongLength(defs[k].long)
                                         && r[k] == defs[k].(longLength := r[k].longLength)
  {
    seq(|defs|, k requires 0 <= k < |defs| => defs[k].(longLength := LongLength(defs[k].long)))
  }

  /** Where the next call continues inside a run of short options: word
      `arg` of the vector, at character `offset`. */
  datatype Cursor = Cursor(arg: nat, offset: nat)

  /** `index` and `multi_opt`. */
  datatype Parser = Parser(index: nat, multi: Option<Cursor>)

  const Start: Parser := Parser(0, None)

  /** What one successful call reports: `option` (null for a bare word) and
      `argument` (null when there is none). */
  datatype Event = Event(option: Option<OptionDef>, argument: Option<string>)

  /** `options.argument` as a tool reads it: the empty string stands in
      for the null pointer of an option given without one. */
  function ArgumentText(e: Event): string {
    if e.argument.Some? then e.argument.value else ""
  }

  /** The option error the tools raise for a word that is not an option. */
  function MissingOption(argument: string): string {
    "Missing option for argument '" + argument + "'"
  }

  /** An option without arguments never reports one; an option that
      requires one always does. */
  predicate ArgumentAgrees(e: Event)
    requires e.option.Some?
  {
    (e.option.value.kind == NoArgument ==> e.argument.None?)
    && (e.option.value.kind == RequiredArgument ==> e.argument.Some?)
  }

  /** One call: false (`Done`), true with the event and the new state, an
      `option_error`, or a read past the vector's terminator. */
  datatype Step = Done | Next(event: Event, parser: Parser) | Failure(message: string) | Undefined

  /** The parser as written, and with the two slips corrected (see `Getopt`). */
  datatype Variant = AsWritten | Corrected

  /** A slot of the vector: a word, the terminating null pointer, or
      nothing the program may read. */
  datatype Slot = Word(text: string) | Null | Beyond

  function ArgvAt(argv: seq<string>, i: nat): Slot {
    if i < |argv| then Word(Text.CStr(argv[i]))
    else if i == |argv| then Null
    else Beyond
  }

  /** The word a cursor points into. */
  function ArgText(argv: seq<string>, a: nat): string {
    if a < |argv| then Text.CStr(argv[a]) else ""
  }

  predicate Dashed(s: string) { Text.CharAt(s, 0) == '-' }

  /** The first definition with this (non-zero) short name. */
  function FindShort(defs: seq<OptionDef>, c: char): (k: Option<nat>)
    ensures k.Some? ==> k.value < |defs| && defs[k.value].short == c && c != '\0'
    ensures k.Some? ==> forall j :: 0 <= j < k.value ==> !(defs[j].short != '\0' && defs[j].short == c)
    ensures k.None? ==> forall j :: 0 <= j < |defs| ==> !(defs[j].short != '\0' && defs[j].short == c)
    decreases |defs|
  {
    if |defs| == 0 then None
    else if defs[0].short != '\0' && defs[0].short == c then Some(0)
    else match FindShort(defs[1..], c)
      case None => None
      case Some(k) => Some(k + 1)
  }

  /** The first definition with a given (non-NUL) short letter is the one
      found. */
  lemma {:induction false} FindShortAt(defs: seq<OptionDef>, c: char, k: nat)
    requires k < |defs| && defs[k].short == c && c != '\0'
    requires forall j :: 0 <= j < k ==> defs[j].short != c
    ensures FindShort(defs, c) == Some(k)
    decreases k
  {
    if k > 0 {
      assert forall j :: 0 <= j < k - 1 ==> defs[1..][j].short == defs[j + 1].short;
      FindShortAt(defs[1..], c, k - 1);
    }
  }

  /** The long-name test: `_tcsnicmp(long_option, text, long_option_length)`. */
  predicate LongMatches(d: OptionDef, text: string) {
    d.long.Some? && Text.EqualsIgnoreCaseN(d.long.value, text, d.longLength)
  }

  /** The first definition whose long name matches the start of `text`. */
  function FindLong(defs: seq<OptionDef>, text: string): (k: Option<nat>)
    ensures k.Some? ==> k.value < |defs| && LongMatches(defs[k.value], text)
    ensures k.Some? ==> forall j :: 0 <= j < k.value ==> !LongMatches(defs[j], text)
    ensures k.None? ==> forall j :: 0 <= j < |defs| ==> !LongMatches(defs[j], text)
    decreases |defs|
  {
    if |defs| == 0 then None
    else if LongMatches(defs[0], text) then Some(0)
    else match FindLong(defs[1..], text)
      case None => None
      case Some(k) => Some(k + 1)
  }

  /** With the cached length, the long-name test is a case-insensitive
      prefix test of the text after "--". */
  lemma LongMatchesIsPrefix(d: OptionDef, text: string)
    requires d.long.Some? && d.longLength == LongLength(d.long) && Text.NulFree(text)
    ensures LongMatches(d, text) <==> Text.PrefixIgnoreCase(Text.CStr(d.long.value), text)
  {
    var name := Text.CStr(d.long.value);
    Text.CStrOfNulFree(text);
    Text.NIcmpSymmetric(name, text, |name|);
    Text.NIcmpIsPrefix(text, name);
  }

  /** The message for a word that starts like a long option but names
      none. As written it prepends "--" to a word that already starts with
      "--". */
  function UnknownLong(v: Variant, word: string): string {
    match v
    case AsWritten => "Unknown option --" + word
    case Corrected => "Unknown option " + word
  }

  /** `do_getopt`: the short option at the cursor, in a word whose end is
      not yet consumed. `incoming` is `multi_opt` on entry. */
  function DoGetopt(defs: seq<OptionDef>, argv: seq<string>, v: Variant, index: nat,
                    cur: Cursor, incoming: Option<Cursor>): (r: Step)
    ensures r.Next? ==> r.parser.index >= index
    ensures r.Next? ==> r.event.option.Some? && ArgumentAgrees(r.event)
    ensures r.Next? && r.event.option.value.kind != NoArgument ==>
              r.parser.multi.None? || (v == AsWritten && r.parser.multi == incoming)
    ensures var c := Text.CharAt(ArgText(argv, cur.arg), cur.offset);
            FindShort(defs, c).None? ==> r == Failure("Unknown option -" + [c])
    ensures var s := ArgText(argv, cur.arg);
            var c := Text.CharAt(s, cur.offset);
            var more := Text.CharAt(s, cur.offset + 1) != '\0';
            FindShort(defs, c).Some? ==>
              var d := defs[FindShort(defs, c).value];
              (d.kind == NoArgument && more ==>
                 r == Next(Event(Some(d), None), Parser(index, Some(Cursor(cur.arg, cur.offset + 1)))))
              && (d.kind == NoArgument && !more ==> r == Next(Event(Some(d), None), Parser(index + 1, None)))
              && (d.kind != NoArgument && more ==>
                    r == Next(Event(Some(d), Some(s[cur.offset + 1..])), Parser(index + 1, None)))
              && (d.kind != NoArgument && !more ==>
                    (r.Undefined? <==> index + 1 > |argv|)
                    && (r == Failure("Option -" + [c] + " requires an argument") <==>
                          d.kind == RequiredArgument && index + 1 <= |argv|
                          && (index + 1 == |argv| || Dashed(Text.CStr(argv[index + 1]))))
                    && (r.Next? && r.event.argument.Some? <==>
                          index + 1 < |argv| && !Dashed(Text.CStr(argv[index + 1])))
                    && (r.Next? && r.event.argument.Some? ==>
                          r == Next(Event(Some(d), Some(Text.CStr(argv[index + 1]))), Parser(index + 2, None)))
                    && (r.Next? && r.event.argument.None? ==>
                          r == Next(Event(Some(d), None), Parser(index + 1, if v == Corrected then None else incoming)))
                    && (d.kind == OptionalArgument && index + 1 <= |argv| ==> r.Next?))
  {
    var s := ArgText(argv, cur.arg);
    var c := Text.CharAt(s, cur.offset);
    var more := Text.CharAt(s, cur.offset + 1) != '\0';
    match FindShort(defs, c)
    case None => Failure("Unknown option -" + [c])
    case Some(k) =>
      var d := defs[k];
      match d.kind
      case RequiredArgument =>
        if more then Next(Event(Some(d), Some(s[cur.offset + 1..])), Parser(index + 1, None))
        else
          (match ArgvAt(argv, index + 1)
           case Beyond => Undefined
           case Null => Failure("Option -" + [c] + " requires an argument")
           case Word(a) =>
             if Dashed(a) then Failure("Option -" + [c] + " requires an argument")
             else Next(Event(Some(d), Some(a)), Parser(index + 2, None)))
      case OptionalArgument =>
        if more then Next(Event(Some(d), Some(s[cur.offset + 1..])), Parser(index + 1, None))
        else
          (match ArgvAt(argv, index + 1)
           case Beyond => Undefined
           case Word(a) =>
             if !Dashed(a) then Next(Event(Some(d), Some(a)), Parser(index + 2, None))
             else Next(Event(Some(d), None), Parser(index + 1, if v == Corrected then None else incoming))
           case Null => Next(Event(Some(d), None), Parser(index + 1, if v == Corrected then None else incoming)))
      case NoArgument =>
        if more then Next(Event(Some(d), None), Parser(index, Some(Cursor(cur.arg, cur.offset + 1))))
        else Next(Event(Some(d), None), Parser(index + 1, None))
  }

  /** The "--name", "--name=value" and "--name value" forms. */
  function LongOption(defs: seq<OptionDef>, argv: seq<string>, v: Variant, index: nat, word: string): (r: Step)
    requires |word| > 2
    ensures r.Next? ==> r.parser.multi.None? && r.parser.index > index
    ensures r.Next? ==> r.event.option.Some? && LongMatches(r.event.option.value, word[2..])
    ensures r.Next? ==> ArgumentAgrees(r.event)
    ensures FindLong(defs, word[2..]).None? ==> r == Failure(UnknownLong(v, word))
    ensures FindLong(defs, word[2..]).Some? ==>
              var d := defs[FindLong(defs, word[2..]).value];
              var after := Text.CharAt(word, 2 + d.longLength);
              var name := Text.CStr(d.long.value);
              (after != '\0' && after != '=' ==> r == Failure(UnknownLong(v, word)))
              && (after == '=' ==>
                    if d.kind == NoArgument then r == Failure("Option --" + name + " cannot take an argument")
                    else r == Next(Event(Some(d), Some(word[3 + d.longLength..])), Parser(index + 1, None)))
              && (after == '\0' && d.kind == NoArgument ==> r == Next(Event(Some(d), None), Parser(index + 1, None)))
              && (after == '\0' && d.kind != NoArgument ==>
                    (r.Undefined? <==> index + 1 > |argv|)
                    && (r == Failure("Option --" + name + " requires an argument") <==>
                          d.kind == RequiredArgument && index + 1 <= |argv|
                          && (index + 1 == |argv| || Dashed(Text.CStr(argv[index + 1]))))
                    && (r.Next? && r.event.argument.Some? <==>
                          index + 1 < |argv| && !Dashed(Text.CStr(argv[index + 1])))
                    && (r.Next? && r.event.argument.Some? ==>
                          r == Next(Event(Some(d), Some(Text.CStr(argv[index + 1]))), Parser(index + 2, None))))
  {
    match FindLong(defs, word[2..])
    case None => Failure(UnknownLong(v, word))
    case Some(k) =>
      var d := defs[k];
      var name := Text.CStr(d.long.value);
      var after := Text.CharAt(word, 2 + d.longLength);
      if after == '\0' then
        match d.kind
        case NoArgument => Next(Event(Some(d), None), Parser(index + 1, None))
        case RequiredArgument =>
          (match ArgvAt(argv, index + 1)
           case Beyond => Undefined
           case Null => Failure("Option --" + name + " requires an argument")
           case Word(a) =>
             if Dashed(a) then Failure("Option --" + name + " requires an argument")
             else Next(Event(Some(d), Some(a)), Parser(index + 2, None)))
        case OptionalArgument =>
          (match ArgvAt(argv, index + 1)
           case Beyond => Undefined
           case Null => Next(Event(Some(d), None), Parser(index + 1, None))
           case Word(a) =>
             if Dashed(a) then Next(Event(Some(d), None), Parser(index + 1, None))
             else Next(Event(Some(d), Some(a)), Parser(index + 2, None)))
      else if after == '=' then
        if d.kind == NoArgument then Failure("Option --" + name + " cannot take an argument")
        else Next(Event(Some(d), Some(word[3 + d.longLength..])), Parser(index + 1, None))
      else Failure(UnknownLong(v, word))
  }

  /** `getopt`. Bare words, a lone "-" and "--" come back as arguments
      without an option; words starting with "--" are long options, other
      words starting with '-' runs of short options. */
  function Getopt(defs: seq<OptionDef>, argv: seq<string>, v: Variant, p: Parser): (r: Step)
    ensures r.Done? <==> p.multi.None? && p.index == |argv|
    ensures p.multi.None? && p.index < |argv| ==>
              var w := Text.CStr(argv[p.index]);
              (Text.CharAt(w, 0) != '-' || Text.CharAt(w, 1) == '\0' || w == "--") ==>
                r == Next(Event(None, Some(w)), Parser(p.index + 1, None))
    ensures r.Next? ==> r.parser.index >= p.index
    ensures r.Next? && r.event.option.Some? ==> ArgumentAgrees(r.event)
  {
    match p.multi
    case Some(cur) => DoGetopt(defs, argv, v, p.index, cur, p.multi)
    case None =>
      match ArgvAt(argv, p.index)
      case Beyond => Undefined
      case Null => Done
      case Word(w) =>
        if Text.CharAt(w, 0) != '-' || Text.CharAt(w, 1) == '\0' then Next(Event(None, Some(w)), Parser(p.index + 1, None))
        else if Text.CharAt(w, 1) == '-' then
          if Text.CharAt(w, 2) == '\0' then
            assert w == "--";
            Next(Event(None, Some(w)), Parser(p.index + 1, None))
          else LongOption(defs, argv, v, p.index, w)
        else DoGetopt(defs, argv, v, p.index, Cursor(p.index, 1), None)
  }

  // ---------------------------------------------------------------------
  // The corrected parser always reaches the end
  // ---------------------------------------------------------------------

  /** The states the corrected parser can be in: inside the vector, and a
      run cursor only ever points at a character of the current word. */
  predicate Valid(argv: seq<string>, p: Parser) {
    p.index <= |argv|
    && (p.multi.Some? ==>
          p.multi.value.arg == p.index < |argv|
          && 1 <= p.multi.value.offset < |ArgText(argv, p.index)|)
  }

  /** The states either variant can be in. As written, the cursor of a run
      may stay on the last character of an earlier word while the index
      moves on, and the index may then pass the terminator by one. */
  predicate Sane(argv: seq<string>, p: Parser) {
    p.index <= |argv| + 1
    && (p.index == |argv| + 1 ==> p.multi.None?)
    && (p.multi.Some? ==>
          p.multi.value.arg < |argv|
          && 1 <= p.multi.value.offset < |ArgText(argv, p.multi.value.arg)|
          && (p.multi.value.arg != p.index ==> p.multi.value.offset + 1 == |ArgText(argv, p.multi.value.arg)|))
  }

  /** What is left of the word the next call reads. */
  function RunLeft(argv: seq<string>, p: Parser): nat {
    match p.multi
    case Some(cur) =>
      if cur.offset <= |ArgText(argv, cur.arg)| then |ArgText(argv, cur.arg)| - cur.offset else 0
    case None => if p.index < |argv| then |ArgText(argv, p.index)| + 1 else 0
  }

  /** From a sane state either variant stays sane and moves on: to a later
      word, or further into the word it reads. So every parse ends, with
      `Done`, an exception, or a read beyond the terminator. */
  lemma GetoptDecreases(defs: seq<OptionDef>, argv: seq<string>, v: Variant, p: Parser)
    requires Sane(argv, p)
    ensures Getopt(defs, argv, v, p).Next? ==>
              var q := Getopt(defs, argv, v, p).parser;
              Sane(argv, q)
              && (q.index > p.index || (q.index == p.index && RunLeft(argv, q) < RunLeft(argv, p)))
  {
    if p.multi.Some? {
      DoGetoptDecreases(defs, argv, v, p.index, p.multi.value, p.multi);
    } else if p.index < |argv| {
      var w := Text.CStr(argv[p.index]);
      if Text.CharAt(w, 0) == '-' && Text.CharAt(w, 1) != '\0' && Text.CharAt(w, 1) != '-' {
        assert |ArgText(argv, p.index)| >= 2;
        DoGetoptDecreases(defs, argv, v, p.index, Cursor(p.index, 1), None);
      }
    }
  }

  /** One short option of a run, in either variant: a later word, or the
      next character of the same one. */
  lemma DoGetoptDecreases(defs: seq<OptionDef>, argv: seq<string>, v: Variant, index: nat, cur: Cursor, incoming: Option<Cursor>)
    requires index <= |argv| && cur.arg < |argv| && 1 <= cur.offset < |ArgText(argv, cur.arg)|
    requires cur.arg != index ==> cur.offset + 1 == |ArgText(argv, cur.arg)|
    requires incoming.None? || incoming == Some(cur)
    requires incoming.None? ==> cur.arg == index
    ensures var r := DoGetopt(defs, argv, v, index, cur, incoming);
            r.Next? ==> Sane(argv, r.parser)
                        && (r.parser.index > index
                            || r.parser == Parser(index, Some(Cursor(cur.arg, cur.offset + 1))))
  {
    var s := ArgText(argv, cur.arg);
    assert Text.NulFree(s);
    assert Text.CharAt(s, cur.offset + 1) != '\0' <==> cur.offset + 1 < |s|;
  }

  /** From a valid state the corrected parser never reads beyond the
      terminator, stays valid, and moves on: to a later word, or further
      into the current one. */
  lemma GetoptProgress(defs: seq<OptionDef>, argv: seq<string>, p: Parser)
    requires Valid(argv, p)
    ensures Getopt(defs, argv, Corrected, p) != Undefined
    ensures Getopt(defs, argv, Corrected, p).Next? ==>
              var q := Getopt(defs, argv, Corrected, p).parser;
              Valid(argv, q)
              && (q.index > p.index || (q.index == p.index && RunLeft(argv, q) < RunLeft(argv, p)))
  {
    var r := Getopt(defs, argv, Corrected, p);
    if p.multi.Some? {
      DoGetoptProgress(defs, argv, p.index, p.multi.value, p.multi);
    } else if p.index < |argv| {
      var w := Text.CStr(argv[p.index]);
      if Text.CharAt(w, 0) == '-' && Text.CharAt(w, 1) != '\0' {
        if Text.CharAt(w, 1) == '-' {
          if Text.CharAt(w, 2) != '\0' {
            assert r == LongOption(defs, argv, Corrected, p.index, w);
            LongOptionProgress(defs, argv, p.index, w);
          }
        } else {
          assert r == DoGetopt(defs, argv, Corrected, p.index, Cursor(p.index, 1), None);
          assert |ArgText(argv, p.index)| >= 2;
          DoGetoptProgress(defs, argv, p.index, Cursor(p.index, 1), None);
        }
      }
    }
  }

  /** One short option of a run: the corrected parser moves to a later
      word, or one character further into the current one. */
  lemma DoGetoptProgress(defs: seq<OptionDef>, argv: seq<string>, index: nat, cur: Cursor, incoming: Option<Cursor>)
    requires cur.arg == index < |argv| && 1 <= cur.offset < |ArgText(argv, index)|
    ensures var r := DoGetopt(defs, argv, Corrected, index, cur, incoming);
            r != Undefined
            && (r.Next? ==> r.parser.index <= |argv|
                            && ((r.parser.index > index && r.parser.multi.None?)
                                || (r.parser == Parser(index, Some(Cursor(index, cur.offset + 1)))
                                    && cur.offset + 1 < |ArgText(argv, index)|)))
  {
  }

  /** A long option: the corrected parser moves to a later word. */
  lemma LongOptionProgress(defs: seq<OptionDef>, argv: seq<string>, index: nat, word: string)
    requires index < |argv| && |word| > 2
    ensures var r := LongOption(defs, argv, Corrected, index, word);
            r != Undefined && (r.Next? ==> index < r.parser.index <= |argv| && r.parser.multi.None?)
  {
  }

  /** The corrected parser's progress, for either variant's parse. */
  lemma GetoptProgressWhen(defs: seq<OptionDef>, argv: seq<string>, v: Variant, p: Parser)
    ensures v == Corrected && Valid(argv, p) ==>
              Getopt(defs, argv, v, p) != Undefined
              && (Getopt(defs, argv, v, p).Next? ==> Valid(argv, Getopt(defs, argv, v, p).parser))
  {
    if v == Corrected && Valid(argv, p) {
      GetoptProgress(defs, argv, p);
    }
  }

  /** The calls a program makes until `getopt` returns false, throws, or
      reads the vector beyond its terminator: the events in order, the
      message of the exception if there was one, and whether the last call
      was undefined. */
  datatype Parsed = Parsed(events: seq<Event>, failure: Option<string>, undefined: bool)

  /** The calls from state `p` on. A parse never both throws and is
      undefined, and the corrected parser is never undefined. */
  function ParseFrom(defs: seq<OptionDef>, argv: seq<string>, v: Variant, p: Parser): (r: Parsed)
    requires Sane(argv, p)
    ensures !(r.failure.Some? && r.undefined)
    ensures v == Corrected && Valid(argv, p) ==> !r.undefined
    decreases |argv| + 1 - p.index, RunLeft(argv, p)
  {
    GetoptDecreases(defs, argv, v, p);
    GetoptProgressWhen(defs, argv, v, p);
    match Getopt(defs, argv, v, p)
    case Done => Parsed([], None, false)
    case Failure(m) => Parsed([], Some(m), false)
    case Undefined => Parsed([], None, true)
    case Next(e, q) =>
      var rest := ParseFrom(defs, argv, v, q);
      Parsed([e] + rest.events, rest.failure, rest.undefined)
  }

  /** Every letter of a run is a defined option without an argument. */
  predicate NoArgumentLetters(defs: seq<OptionDef>, letters: string) {
    forall k :: 0 <= k < |letters| ==>
      FindShort(defs, letters[k]).Some? && defs[FindShort(defs, letters[k]).value].kind == NoArgument
  }

  /** The events of such a run, one per letter, in order. */
  function RunEvents(defs: seq<OptionDef>, letters: string): (es: seq<Event>)
    requires NoArgumentLetters(defs, letters)
    ensures |es| == |letters|
    ensures forall k :: 0 <= k < |letters| ==> es[k] == Event(Some(defs[FindShort(defs, letters[k]).value]), None)
  {
    if |letters| == 0 then [] else [Event(Some(defs[FindShort(defs, letters[0]).value]), None)] + RunEvents(defs, letters[1..])
  }

  /** A run "-abc" of options without arguments: each call reports the
      letter under the cursor and keeps the index, and only the last letter
      moves on to the next word, in either variant. */
  lemma {:induction false} NoArgumentRun(defs: seq<OptionDef>, argv: seq<string>, v: Variant, i: nat, off: nat)
    requires i < |argv| && 1 <= off < |Text.CStr(argv[i])|
    requires NoArgumentLetters(defs, Text.CStr(argv[i])[off..])
    ensures var w := Text.CStr(argv[i]);
            var r := ParseFrom(defs, argv, v, Parser(i, Some(Cursor(i, off))));
            var rest := ParseFrom(defs, argv, v, Parser(i + 1, None));
            r == Parsed(RunEvents(defs, w[off..]) + rest.events, rest.failure, rest.undefined)
    decreases |Text.CStr(argv[i])| - off
  {
    var w := Text.CStr(argv[i]);
    var p := Parser(i, Some(Cursor(i, off)));
    var e, q := NoArgumentStep(defs, argv, v, i, off);
    RunEventsStep(defs, w, off);
    ParseFromNext(defs, argv, v, p, e, q);
    var rest := ParseFrom(defs, argv, v, Parser(i + 1, None));
    if off + 1 < |w| {
      NoArgumentRun(defs, argv, v, i, off + 1);
    } else {
      assert w[off + 1..] == [];
    }
    Prepend(ParseFrom(defs, argv, v, p), ParseFrom(defs, argv, v, q), rest, e, RunEvents(defs, w[off + 1..]));
  }

  lemma Prepend(r: Parsed, tail: Parsed, rest: Parsed, e: Event, es: seq<Event>)
    requires r == Parsed([e] + tail.events, tail.failure, tail.undefined)
    requires tail == Parsed(es + rest.events, rest.failure, rest.undefined)
    ensures r == Parsed([e] + es + rest.events, rest.failure, rest.undefined)
  {
  }

  lemma RunEventsStep(defs: seq<OptionDef>, w: string, off: nat)
    requires off < |w| && NoArgumentLetters(defs, w[off..])
    ensures NoArgumentLetters(defs, w[off + 1..])
    ensures RunEvents(defs, w[off..])
            == [Event(Some(defs[FindShort(defs, w[off]).value]), None)] + RunEvents(defs, w[off + 1..])
  {
    assert w[off..][0] == w[off] && w[off..][1..] == w[off + 1..];
  }

  /** Unfolding the parse by one step. */
  lemma ParseFromNext(defs: seq<OptionDef>, argv: seq<string>, v: Variant, p: Parser, e: Event, q: Parser)
    requires Sane(argv, p) && Getopt(defs, argv, v, p) == Next(e, q)
    ensures Sane(argv, q)
    ensures var tail := ParseFrom(defs, argv, v, q);
            ParseFrom(defs, argv, v, p) == Parsed([e] + tail.events, tail.failure, tail.undefined)
  {
    GetoptDecreases(defs, argv, v, p);
  }

  /** One call inside such a run. */
  lemma NoArgumentStep(defs: seq<OptionDef>, argv: seq<string>, v: Variant, i: nat, off: nat) returns (e: Event, q: Parser)
    requires i < |argv| && 1 <= off < |Text.CStr(argv[i])|
    requires NoArgumentLetters(defs, Text.CStr(argv[i])[off..])
    ensures var w := Text.CStr(argv[i]);
            e == Event(Some(defs[FindShort(defs, w[off]).value]), None)
            && q == (if off + 1 < |w| then Parser(i, Some(Cursor(i, off + 1))) else Parser(i + 1, None))
            && Sane(argv, Parser(i, Some(Cursor(i, off)))) && Sane(argv, q)
            && Getopt(defs, argv, v, Parser(i, Some(Cursor(i, off)))) == Next(e, q)
  {
    var w := Text.CStr(argv[i]);
    assert w[off..][0] == w[off];
    assert Text.CharAt(w, off) == w[off];
    e := Event(Some(defs[FindShort(defs, w[off]).value]), None);
    if off + 1 < |w| {
      assert Text.CharAt(w, off + 1) != '\0';
      q := Parser(i, Some(Cursor(i, off + 1)));
    } else {
      q := Parser(i + 1, None);
    }
  }

  /** Words that do not start with '-' come back one by one as arguments
      without an option, in order, and the parser ends cleanly. */
  lemma {:induction false} ParseBareWords(defs: seq<OptionDef>, argv: seq<string>, v: Variant, p: Parser)
    requires p.multi.None? && p.index <= |argv|
    requires forall k :: p.index <= k < |argv| ==> Text.CharAt(Text.CStr(argv[k]), 0) != '-'
    ensures ParseFrom(defs, argv, v, p).failure.None? && !ParseFrom(defs, argv, v, p).undefined
    ensures |ParseFrom(defs, argv, v, p).events| == |argv| - p.index
    ensures forall k :: 0 <= k < |argv| - p.index ==>
              ParseFrom(defs, argv, v, p).events[k] == Event(None, Some(Text.CStr(argv[p.index + k])))
    decreases |argv| - p.index
  {
    if p.index < |argv| {
      var q := Parser(p.index + 1, None);
      assert Getopt(defs, argv, v, p) == Next(Event(None, Some(Text.CStr(argv[p.index]))), q);
      ParseBareWords(defs, argv, v, q);
      var rest := ParseFrom(defs, argv, v, q);
      assert ParseFrom(defs, argv, v, p) == Parsed([Event(None, Some(Text.CStr(argv[p.index])))] + rest.events, rest.failure, rest.undefined);
      forall k | 1 <= k < |argv| - p.index
        ensures ParseFrom(defs, argv, v, p).events[k] == Event(None, Some(Text.CStr(argv[p.index + k])))
      {
        assert ParseFrom(defs, argv, v, p).events[k] == rest.events[k - 1];
      }
    }
  }

  /** Construct the parser over `argv` and call `getopt` until it is done:
      the events come from the first word on, and only the parser as
      written can read beyond the terminator. */
  function Parse(defs: seq<OptionDef>, argv: seq<string>, v: Variant): (r: Parsed)
    ensures !(r.failure.Some? && r.undefined)
    ensures v == Corrected ==> !r.undefined
    ensures |argv| == 0 ==> r == Parsed([], None, false)
  {
    ParseFrom(CacheLengths(defs), argv, v, Start)
  }

  // ---------------------------------------------------------------------
  // What goes wrong as written
  // ---------------------------------------------------------------------

  /** "-xp" with -x taking no argument and -p an optional one. */
  function RunDefs(): seq<OptionDef> {
    [OptionDef('x', None, NoArgument, 0), OptionDef('p', None, OptionalArgument, 0)]
  }

  /** As written, an option with an optional argument that ends a run of
      short options and finds no argument leaves `multi_opt` pointing at
      itself: the next call returns it again and reads the vector past its
      terminator. */
  lemma RunEndingInOptionalRepeats()
    ensures var argv := ["-xp"];
            var s1 := Getopt(RunDefs(), argv, AsWritten, Start);
            s1 == Next(Event(Some(RunDefs()[0]), None), Parser(0, Some(Cursor(0, 2))))
            && var s2 := Getopt(RunDefs(), argv, AsWritten, s1.parser);
            s2 == Next(Event(Some(RunDefs()[1]), None), Parser(1, Some(Cursor(0, 2))))
            && Getopt(RunDefs(), argv, AsWritten, s2.parser) == Undefined
    ensures Parse(RunDefs(), ["-xp"], AsWritten)
            == Parsed([Event(Some(RunDefs()[0]), None), Event(Some(RunDefs()[1]), None)], None, true)
  {
    var argv := ["-xp"];
    var defs := CacheLengths(RunDefs());
    assert defs == RunDefs();
    Text.CStrOfNulFree("-xp");
    assert Text.CharAt("-xp", 1) == 'x' && Text.CharAt("-xp", 2) == 'p' && Text.CharAt("-xp", 3) == '\0';
    assert FindShort(RunDefs(), 'x') == Some(0);
    assert FindShort(RunDefs()[1..], 'p') == Some(0);
    assert FindShort(RunDefs(), 'p') == Some(1);
    var p1 := Parser(0, Some(Cursor(0, 2)));
    var p2 := Parser(1, Some(Cursor(0, 2)));
    assert Getopt(defs, argv, AsWritten, Start) == Next(Event(Some(defs[0]), None), p1);
    assert Getopt(defs, argv, AsWritten, p1) == Next(Event(Some(defs[1]), None), p2);
    assert ParseFrom(defs, argv, AsWritten, p2) == Parsed([], None, true);
    assert ParseFrom(defs, argv, AsWritten, p1) == Parsed([Event(Some(defs[1]), None)], None, true);
  }

  /** The same for any table: as written, a last word "-ab" whose `a`
      takes no argument and whose `b` takes an optional one hands over both
      options and then reads beyond the vector. */
  lemma RunEndingInOptionalUndefined(defs: seq<OptionDef>, a: char, b: char)
    requires a != '-' && FindShort(defs, a).Some? && FindShort(defs, b).Some?
    requires defs[FindShort(defs, a).value].kind == NoArgument
    requires defs[FindShort(defs, b).value].kind == OptionalArgument
    ensures ParseFrom(defs, ["-" + [a, b]], AsWritten, Start)
            == Parsed([Event(Some(defs[FindShort(defs, a).value]), None),
                       Event(Some(defs[FindShort(defs, b).value]), None)], None, true)
  {
    var w := "-" + [a, b];
    var argv := [w];
    Text.CStrOfNulFree(w);
    assert Text.CharAt(w, 1) == a && Text.CharAt(w, 2) == b && Text.CharAt(w, 3) == '\0';
    var p1 := Parser(0, Some(Cursor(0, 2)));
    var p2 := Parser(1, Some(Cursor(0, 2)));
    var ea := Event(Some(defs[FindShort(defs, a).value]), None);
    var eb := Event(Some(defs[FindShort(defs, b).value]), None);
    assert Getopt(defs, argv, AsWritten, Start) == Next(ea, p1);
    assert Getopt(defs, argv, AsWritten, p1) == Next(eb, p2);
    assert ParseFrom(defs, argv, AsWritten, p2) == Parsed([], None, true);
    assert ParseFrom(defs, argv, AsWritten, p1) == Parsed([eb], None, true);
  }

  /** Corrected, the same words give -x, then -p without an argument, and
      then the end of the options. */
  lemma RunEndingInOptionalCorrected()
    ensures Parse(RunDefs(), ["-xp"], Corrected) == Parsed([Event(Some(RunDefs()[0]), None), Event(Some(RunDefs()[1]), None)], None, false)
  {
    var argv := ["-xp"];
    var defs := CacheLengths(RunDefs());
    assert defs == RunDefs();
    Text.CStrOfNulFree("-xp");
    assert Text.CharAt("-xp", 1) == 'x' && Text.CharAt("-xp", 2) == 'p' && Text.CharAt("-xp", 3) == '\0';
    assert FindShort(defs, 'x') == Some(0);
    assert FindShort(defs[1..], 'p') == Some(0);
    assert FindShort(defs, 'p') == Some(1);
    var p1 := Parser(0, Some(Cursor(0, 2)));
    var p2 := Parser(1, None);
    assert Getopt(defs, argv, Corrected, Start) == Next(Event(Some(defs[0]), None), p1);
    assert Getopt(defs, argv, Corrected, p1) == Next(Event(Some(defs[1]), None), p2);
    assert ParseFrom(defs, argv, Corrected, p2) == Parsed([], None, false);
    assert ParseFrom(defs, argv, Corrected, p1) == Parsed([Event(Some(defs[1]), None)], None, false);
  }

  /** As written, an unknown long option is echoed with its dashes doubled. */
  lemma UnknownLongDoubled(argv: seq<string>)
    requires argv == ["--bogus"]
    ensures Getopt([], argv, AsWritten, Start) == Failure("Unknown option ----bogus")
    ensures Getopt([], argv, Corrected, Start) == Failure("Unknown option --bogus")
  {
    Text.CStrOfNulFree(argv[0]);
    var w := Text.CStr(argv[0]);
    assert w == "--bogus";
    assert FindLong([], "bogus").None?;
    UnknownLongEchoes([], argv, Start);
    DoubledDashes();
  }

  lemma DoubledDashes()
    ensures "Unknown option --" + "--bogus" == "Unknown option ----bogus"
    ensures "Unknown option " + "--bogus" == "Unknown option --bogus"
  {
  }

  /** Either variant reports an unknown long option with the word it was
      given, as written with two more dashes in front. */
  lemma UnknownLongEchoes(defs: seq<OptionDef>, argv: seq<string>, p: Parser)
    requires p.multi.None? && p.index < |argv|
    requires var w := Text.CStr(argv[p.index]);
             |w| > 2 && w[0] == '-' && w[1] == '-' && FindLong(defs, w[2..]).None?
    ensures Getopt(defs, argv, AsWritten, p) == Failure("Unknown option --" + Text.CStr(argv[p.index]))
    ensures Getopt(defs, argv, Corrected, p) == Failure("Unknown option " + Text.CStr(argv[p.index]))
  {
  }
}

=== FILE: priority.dfy ===
/** The newer `ntpriority` tool (src/ntpriority.cpp): sets or tests the
    priority class of the selected processes, locally or through the helper
    service on a remote computer. Modelled: the `--level` argument, the
    request the client sends and the service decodes, the command line and
    the XML wrapper around the output. Changing the priority itself is not
    part of this model. */
module Priority {
  import opened Wrappers
  import Text
  import StrToUL
  import Message
  import Options
  import Processes
  import Results
  import RemoteFramework
  import Tools

  const Name: string := "ntpriority"
  const MaxResponseSize: nat := 8192

  // The priority classes of the Win32 API.
  const IdlePriorityClass: U32 := 0x40
  const BelowNormalPriorityClass: U32 := 0x4000
  const NormalPriorityClass: U32 := 0x20
  const AboveNormalPriorityClass: U32 := 0x8000
  const HighPriorityClass: U32 := 0x80
  const RealtimePriorityClass: U32 := 0x100

  // ---------------------------------------------------------------------
  // --level
  // ---------------------------------------------------------------------

  /** The names `--level` accepts, in the order they are compared, with the
      priority class each stands for. */
  function LevelNames(): seq<(string, U32)> {
    [("ABOVE_NORMAL", AboveNormalPriorityClass), ("BELOW_NORMAL", BelowNormalPriorityClass),
     ("HIGH", HighPriorityClass), ("IDLE", IdlePriorityClass),
     ("NORMAL", NormalPriorityClass), ("REALTIME", RealtimePriorityClass)]
  }

  /** The names' lower-case initials, which already tell them apart. */
  const Initials: string := "abhinr"

  lemma InitialsOfNames()
    ensures |Initials| == |LevelNames()|
    ensures forall k :: 0 <= k < |LevelNames()| ==> |LevelNames()[k].0| > 0 && Text.Lower(LevelNames()[k].0[0]) == Initials[k]
    ensures forall k :: 0 <= k < |LevelNames()| ==> Text.NulFree(LevelNames()[k].0)
  {
  }

  /** An argument matches at most one name: no two names agree up to case. */
  lemma MatchUnique(argument: string, j: nat, k: nat)
    requires j < |LevelNames()| && k < |LevelNames()|
    requires Text.EqualsIgnoreCase(argument, LevelNames()[j].0) && Text.EqualsIgnoreCase(argument, LevelNames()[k].0)
    ensures j == k
  {
    InitialsOfNames();
    SameInitial(argument, LevelNames()[j].0, LevelNames()[k].0);
    InitialsDistinct(j, k);
  }

  lemma InitialsDistinct(j: nat, k: nat)
    requires j < |Initials| && k < |Initials| && Initials[j] == Initials[k]
    ensures j == k
  {
  }

  /** Two NUL-free names that both equal the argument up to case share
      their lower-case initial. */
  lemma SameInitial(argument: string, a: string, b: string)
    requires |a| > 0 && |b| > 0 && Text.NulFree(a) && Text.NulFree(b)
    requires Text.EqualsIgnoreCase(argument, a) && Text.EqualsIgnoreCase(argument, b)
    ensures Text.Lower(a[0]) == Text.Lower(b[0])
  {
    Text.CStrOfNulFree(a);
    Text.CStrOfNulFree(b);
    assert Text.LowerAll(a)[0] == Text.LowerAll(b)[0];
  }

  function InvalidLevel(argument: string): string {
    "Invalid argument '" + Text.CStr(argument) + "' for option --level"
  }

  /** The chain of `_tcsicmp` tests over `names` from entry `k` on. */
  function NamedLevel(argument: string, names: seq<(string, U32)>, k: nat): (r: Option<U32>)
    requires k <= |names|
    ensures r.Some? <==> exists j :: k <= j < |names| && Text.EqualsIgnoreCase(argument, names[j].0)
    ensures r.Some? ==> exists j :: k <= j < |names| && Text.EqualsIgnoreCase(argument, names[j].0)
                                    && r.value == names[j].1
    decreases |names| - k
  {
    if k == |names| then None
    else if Text.EqualsIgnoreCase(argument, names[k].0) then Some(names[k].1)
    else NamedLevel(argument, names, k + 1)
  }

  /** The `--level` argument: a number that uses the whole argument (any
      base `_tcstoul` accepts), otherwise one of the names in any case,
      otherwise an option error. */
  function LevelOption(argument: string): (r: Result<U32, string>)
    ensures StrToUL.Whole(argument) ==> r == Ok(StrToUL.Parse(argument).value)
    ensures !StrToUL.Whole(argument) ==>
              (r.Ok? <==> exists j :: 0 <= j < |LevelNames()| && Text.EqualsIgnoreCase(argument, LevelNames()[j].0))
    ensures !StrToUL.Whole(argument) && r.Ok? ==>
              exists j :: 0 <= j < |LevelNames()| && Text.EqualsIgnoreCase(argument, LevelNames()[j].0)
                          && r.value == LevelNames()[j].1
    ensures r.Err? ==> r.error == InvalidLevel(argument)
  {
    if StrToUL.Whole(argument) then Ok(StrToUL.Parse(argument).value)
    else match NamedLevel(argument, LevelNames(), 0)
      case Some(level) => Ok(level)
      case None => Err(InvalidLevel(argument))
  }

  /** Text that starts with a letter is never a number. */
  lemma LetterIsNotNumber(s: string)
    requires |s| > 0 && ('a' <= s[0] <= 'z' || 'A' <= s[0] <= 'Z')
    ensures !StrToUL.Whole(s)
  {
    assert StrToUL.SkipSpace(s, 0) == 0;
    assert StrToUL.SignEnd(s, 0) == 0;
    assert StrToUL.BaseAndStart(s, 0) == (10, 0);
    assert StrToUL.DigitsEnd(s, 0, 10) == 0;
    assert |Text.CStr(s)| > 0;
  }

  /** A level name is accepted in any case and gives its priority class. */
  lemma LevelNameAnyCase(argument: string, k: nat)
    requires k < |LevelNames()| && Text.EqualsIgnoreCase(argument, LevelNames()[k].0)
    ensures LevelOption(argument) == Ok(LevelNames()[k].1)
  {
    InitialsOfNames();
    var name := LevelNames()[k].0;
    Text.CStrOfNulFree(name);
    var a := Text.CStr(argument);
    assert Text.LowerAll(a)[0] == Initials[k];
    assert argument[0] == a[0];
    LetterIsNotNumber(argument);
    var r := NamedLevel(argument, LevelNames(), 0);
    assert r.Some?;
    var j :| 0 <= j < |LevelNames()| && Text.EqualsIgnoreCase(argument, LevelNames()[j].0) && r.value == LevelNames()[j].1;
    MatchUnique(argument, j, k);
  }

  /** A level written in decimal is taken as the number it spells. */
  lemma LevelDecimal(n: U32)
    ensures LevelOption(Text.Decimal(n)) == Ok(n)
  {
    StrToUL.DecimalRoundTrip(n);
  }

  // ---------------------------------------------------------------------
  // The request
  // ---------------------------------------------------------------------

  /** What the service is asked to do to the processes. */
  datatype Action = SetLevel(level: U32) | TestLevel

  datatype Request = Request(action: Action, selector: Processes.Selector)

  function NoAction(): string { "Invalid message received: no action" }
  function UnknownAction(): string { "Invalid message received: unknown action" }
  function ExtraData(): string { "Invalid message received: extra data" }

  /** The action's bytes: 't', or 'l' followed by the level. */
  function ActionBytes(a: Action): (b: string)
    ensures a.TestLevel? ==> b == "t"
    ensures a.SetLevel? ==> |b| == 5 && b[0] == 'l' && b[1..] == Message.Encode32(a.level)
  {
    match a
    case TestLevel => "t"
    case SetLevel(level) => Message.EncodeBinary("l", level)
  }

  /** `server::handle_message`, from position `i`: the action, then a
      target, which only a test may leave out, and nothing after it. */
  function HandleMessage(msg: string, i: nat): (r: Result<Request, string>)
    requires i <= |msg|
    ensures i == |msg| ==> r == Err(NoAction())
    ensures i < |msg| && msg[i] !in {'l', 't'} ==> r == Err(UnknownAction())
    ensures i < |msg| && msg[i] == 'l' && |msg| < i + 5 ==> r == Err(Message.Incomplete("level"))
    ensures i + 5 == |msg| && msg[i] == 'l' ==> r == Err(Processes.NoTarget())
    ensures r.Ok? ==> i < |msg| && (r.value.action.TestLevel? <==> msg[i] == 't')
    ensures r.Ok? && r.value.action.SetLevel? ==> Message.DecodeBinary(msg, i + 1, "level") == Ok((r.value.action.level, i + 5))
    ensures r.Ok? ==> var j := |ActionBytes(r.value.action)| + i;
                      if j == |msg| then r.value.selector == Processes.Fresh
                      else Processes.DecodeTarget(Processes.Fresh, msg, j) == Ok((r.value.selector, |msg|))
  {
    if i == |msg| then Err(NoAction())
    else
      match DecodeAction(msg, i)
      case Err(e) => Err(e)
      case Ok((a, j)) => WithTarget(msg, a, j)
  }

  /** The request for action `a` whose target starts at `j`: a test may
      leave the target out; a target must end the message. */
  function WithTarget(msg: string, a: Action, j: nat): (r: Result<Request, string>)
    requires j <= |msg|
    ensures j == |msg| && !a.TestLevel? ==> r == Err(Processes.NoTarget())
    ensures r.Ok? ==> r.value.action == a
    ensures r.Ok? ==> if j == |msg| then r.value.selector == Processes.Fresh
                      else Processes.DecodeTarget(Processes.Fresh, msg, j) == Ok((r.value.selector, |msg|))
  {
    if j == |msg| then
      if a.TestLevel? then Ok(Request(a, Processes.Fresh)) else Err(Processes.NoTarget())
    else match Processes.DecodeTarget(Processes.Fresh, msg, j)
      case Err(e) => Err(e)
      case Ok((selector, k)) =>
        if k != |msg| then Err(ExtraData()) else Ok(Request(a, selector))
  }

  /** The action at `i`: 'l' and the level's four bytes, or 't'. */
  function DecodeAction(msg: string, i: nat): (r: Result<(Action, nat), string>)
    requires i < |msg|
    ensures msg[i] !in {'l', 't'} ==> r == Err(UnknownAction())
    ensures msg[i] == 'l' && |msg| < i + 5 ==> r == Err(Message.Incomplete("level"))
    ensures r.Ok? ==> r.value.1 == i + |ActionBytes(r.value.0)| <= |msg| && (r.value.0.TestLevel? <==> msg[i] == 't')
    ensures r.Ok? && r.value.0.SetLevel? ==> Message.DecodeBinary(msg, i + 1, "level") == Ok((r.value.0.level, i + 5))
  {
    match msg[i]
    case 'l' =>
      (match Message.DecodeBinary(msg, i + 1, "level")
       case Err(e) => Err(e)
       case Ok((level, j)) => Ok((SetLevel(level), j)))
    case 't' => Ok((TestLevel, i + 1))
    case _ => Err(UnknownAction())
  }

  /** The action's bytes read back, whatever follows them. */
  lemma DecodeActionBytes(header: string, a: Action, rest: string)
    ensures DecodeAction(header + ActionBytes(a) + rest, |header|) == Ok((a, |header| + |ActionBytes(a)|))
  {
    if a.SetLevel? {
      var msg := header + ActionBytes(a) + rest;
      assert msg == Message.EncodeBinary(header + "l", a.level) + rest;
      Message.DecodeBinaryEncodeBinary(header + "l", a.level, rest, "level");
    }
  }

  /** The message the client sends: the action, then the target. */
  function ClientMessage(header: string, a: Action, s: Processes.Selector): (msg: string)
    ensures |msg| >= |header| + |ActionBytes(a)| && msg[..|header| + |ActionBytes(a)|] == header + ActionBytes(a)
  {
    Processes.EncodeTarget(header + ActionBytes(a), s)
  }

  /** For every selector the command line accepts, the service decodes the
      action and the target the client encoded. */
  lemma HandleMessageClientMessage(header: string, a: Action, s: Processes.Selector)
    requires Processes.ValidateOptions(s, a.TestLevel?).Pass?
    requires Text.NulFree(s.name) && |s.name| < Message.Modulus
    ensures HandleMessage(ClientMessage(header, a, s), |header|) == Ok(Request(a, Processes.Canonical(s)))
  {
    var tagged := header + ActionBytes(a);
    var msg := ClientMessage(header, a, s);
    assert msg == tagged + msg[|tagged|..];
    DecodeActionBytes(header, a, msg[|tagged|..]);
    if s.pid != 0 || s.name != "" {
      Processes.DecodeTargetEncodeTarget(s, tagged, "");
      assert Processes.EncodeTarget(tagged, s) + "" == msg;
    } else {
      assert msg == tagged;
    }
  }

  // ---------------------------------------------------------------------
  // The command line
  // ---------------------------------------------------------------------

  function Def(short: char, long: string, kind: Options.ArgumentKind): Options.OptionDef {
    Options.OptionDef(short, Some(long), kind, 0)
  }

  /** The options the tool defines. */
  function Defs(): seq<Options.OptionDef> {
    [Def('h', "help", Options.NoArgument), Def('x', "xml", Options.NoArgument),
     Def('i', "pid", Options.RequiredArgument), Def('n', "name", Options.RequiredArgument),
     Def('s', "substr", Options.NoArgument), Def('l', "level", Options.RequiredArgument),
     Def('t', "test", Options.NoArgument), Def('c', "computer", Options.RequiredArgument),
     Def('u', "username", Options.RequiredArgument), Def('p', "password", Options.OptionalArgument)]
  }

  /** The options gathered so far. `level` is None while no `--level` was
      given: the original leaves the variable uninitialised. */
  datatype Setup = Setup(level: Option<U32>, test: bool, selector: Processes.Selector,
                         client: RemoteFramework.Client, results: Results.Results)

  const Initial: Setup := Setup(None, false, Processes.Fresh, RemoteFramework.NewClient, Results.Initial)

  type Command = Tools.Command<Setup>

  /** One pass of the option loop: `--help` ends it with the usage text, a
      bare argument and a rejected value with an option error; `--level` and
      `--test` are the tool's own; the rest goes to the selector, then the
      client, then the results, in that order. */
  function HandleEvent(st: Setup, e: Options.Event): (r: Result<Setup, Tools.Usage>)
    ensures e.option.None? ==> r == Err(Some(Options.MissingOption(Options.ArgumentText(e))))
    ensures e.option.Some? && e.option.value.short == 'h' ==> r == Err(None)
    ensures e.option.Some? && e.option.value.short == 'l' ==>
              match LevelOption(Options.ArgumentText(e))
              case Ok(level) => r == Ok(st.(level := Some(level)))
              case Err(m) => r == Err(Some(m))
    ensures r.Ok? ==> r.value.results.errorSeen == st.results.errorSeen && r.value.results.buffer == st.results.buffer
    ensures r.Ok? && r.value.level != st.level ==> e.option.value.short == 'l'
  {
    match e.option
    case None => Err(Some(Options.MissingOption(Options.ArgumentText(e))))
    case Some(d) =>
      var c := d.short;
      if c == 'h' then Err(None)
      else if c == 'l' then
        match LevelOption(Options.ArgumentText(e))
        case Ok(level) => Ok(st.(level := Some(level)))
        case Err(m) => Err(Some(m))
      else if c == 't' then Ok(st.(test := true))
      else match Processes.HandleOption(st.selector, c, Options.ArgumentText(e))
        case Rejected(m) => Err(Some(m))
        case Handled(s) => Ok(st.(selector := s))
        case Unhandled =>
          match RemoteFramework.ClientOption(st.client, c, e.argument)
          case Handled(client) => Ok(st.(client := client))
          case _ =>
            match Results.HandleOption(st.results, c)
            case Handled(results) => Ok(st.(results := results))
            case _ => Ok(st)
  }

  /** A level is set only by a `--level` event: without one the level stays
      as it was. */
  lemma {:induction false} LevelOnlyFromOption(st: Setup, events: seq<Options.Event>)
    requires forall k :: 0 <= k < |events| ==> events[k].option.Some? ==> events[k].option.value.short != 'l'
    requires Tools.HandleEvents(HandleEvent, st, events).Ok?
    ensures Tools.HandleEvents(HandleEvent, st, events).value.level == st.level
    decreases |events|
  {
    if |events| > 0 {
      var st1 := HandleEvent(st, events[0]).value;
      LevelOnlyFromOption(st1, events[1..]);
    }
  }

  /** The selector check, a test being allowed to leave the target out. */
  function Check(st: Setup): Outcome<string> {
    Processes.ValidateOptions(st.selector, st.test)
  }

  /** `command_line_main` up to the output, as written: the option loop,
      the parser's own error, and the selector check with a test allowed
      to leave the target out. A run that neither sets nor tests passes. */
  function Configure(p: Options.Parsed): (c: Command)
    ensures c.Configured? ==> Processes.ValidateOptions(c.setup.selector, c.setup.test).Pass?
    ensures c.Configured? ==> p.failure.None? && Tools.HandleEvents(HandleEvent, Initial, p.events) == Ok(c.setup)
    ensures c.Undefined? ==> p.undefined
  {
    Tools.Configure(HandleEvent, Initial, Check, p)
  }

  /** The action a configured run performs, locally or in its request,
      from the `--level` given (if any) and `--test`: a test wins over a
      level. None where the original reads the uninitialised level, a run
      with neither option. */
  function RunAction(level: Option<U32>, test: bool): (a: Option<Action>)
    ensures test ==> a == Some(TestLevel)
    ensures !test ==> (a.Some? <==> level.Some?)
    ensures !test && a.Some? ==> a.value == SetLevel(level.value)
  {
    if test then Some(TestLevel)
    else match level
      case Some(l) => Some(SetLevel(l))
      case None => None
  }

  function NoLevel(): string { "Neither level nor test specified" }

  /** The evidently intended command line: a run must set a level or test. */
  function ConfigureChecked(p: Options.Parsed): (c: Command)
    ensures c.Configured? ==> RunAction(c.setup.level, c.setup.test).Some?
    ensures c.Configured? ==> Configure(p) == c
    ensures Configure(p).Configured? && !c.Configured? ==> c == Tools.ShowUsage(Some(NoLevel()))
  {
    match Configure(p)
    case Configured(st) =>
      if !st.test && st.level.None? then Tools.ShowUsage(Some(NoLevel())) else Configure(p)
    case c => c
  }

  /** The tool's command line as written: the parser as written, and no
      check that a run sets a level or tests. */
  function CommandLine(argv: seq<string>): (c: Command)
    ensures c.Configured? ==> Processes.ValidateOptions(c.setup.selector, c.setup.test).Pass?
    ensures c.Undefined? ==> Options.Parse(Defs(), argv, Options.AsWritten).undefined
  {
    Configure(Options.Parse(Defs(), argv, Options.AsWritten))
  }

  /** The evidently intended command line: the corrected parser, which is
      never undefined, and the check for a level or a test. */
  function CommandLineChecked(argv: seq<string>): (c: Command)
    ensures !c.Undefined?
    ensures c.Configured? ==> RunAction(c.setup.level, c.setup.test).Some?
    ensures c.Configured? ==> Processes.ValidateOptions(c.setup.selector, c.setup.test).Pass?
  {
    ConfigureChecked(Options.Parse(Defs(), argv, Options.Corrected))
  }

  /** As written, `--pid 5` alone is accepted, and the run it configures
      has no level to set. */
  lemma PidAloneHasNoLevel()
    ensures var e := Options.Event(Some(Options.CacheLengths(Defs())[2]), Some("5"));
            var c := Configure(Options.Parsed([e], None, false));
            c.Configured? && RunAction(c.setup.level, c.setup.test).None?
  {
    var defs := Options.CacheLengths(Defs());
    var e := Options.Event(Some(defs[2]), Some("5"));
    assert Text.Decimal(5) == "5";
    Processes.PidOptionAcceptsDecimal(Processes.Fresh, 5);
    assert defs[2].short == 'i';
    var st := Initial.(selector := Processes.Fresh.(pid := 5));
    assert HandleEvent(Initial, e) == Ok(st);
    assert Tools.HandleEvents(HandleEvent, Initial, [e]) == Ok(st);
    assert Processes.ValidateOptions(st.selector, false).Pass?;
  }

  /** With the check, the same run is refused. */
  lemma PidAloneRefused()
    ensures var e := Options.Event(Some(Options.CacheLengths(Defs())[2]), Some("5"));
            ConfigureChecked(Options.Parsed([e], None, false)) == Tools.ShowUsage(Some(NoLevel()))
  {
    PidAloneHasNoLevel();
  }

  // ---------------------------------------------------------------------
  // Output
  // ---------------------------------------------------------------------

  /** The action attribute of the info record: a test or a level to set. */
  function ActionInfo(test: bool): (a: string)
    ensures |a| > 9 && a[..8] == "action='" && a[|a| - 1] == '\'' && '<' !in a
  {
    if test then "action='test'" else "action='set level'"
  }

  /** The attribute tells the two actions apart. */
  lemma ActionInfoDetermines(t1: bool, t2: bool)
    ensures ActionInfo(t1) == ActionInfo(t2) <==> t1 == t2
  {
    if t1 != t2 {
      assert ActionInfo(t1)[8] != ActionInfo(t2)[8];
    }
  }

  /** The output of a configured run around the reports of the work: in
      XML mode it starts with the header naming the action and the target;
      in plain mode it is what the work reported. */
  function Output(st: Setup, work: seq<Results.Report>): (o: Option<Results.Results>)
    ensures !st.results.xml ==> o == Results.Run(st.results, work)
    ensures st.results.xml && o.Some? ==>
              var h := Tools.Header(st.results, Name, ActionInfo(st.test), Processes.XmlAttribute(st.selector)).buffer;
              |o.value.buffer| >= |h| && o.value.buffer[..|h|] == h
  {
    var action, target := ActionInfo(st.test), Processes.XmlAttribute(st.selector);
    var o := Tools.Output(st.results, Name, action, target, work);
    if o.None? then o
    else
      Tools.OutputShape(st.results, Name, action, target, work);
      o
  }
}

=== FILE: processes.dfy ===
/** The target selector of the newer tools (src/include/ntutils/processes.h):
    which processes a command acts on, how the choice is read from the
    command line, sent to the remote service and read back there, and how
    a process snapshot is filtered by it. The snapshot itself is an input:
    the records the toolhelp walk would produce, in order. */
module Processes {
  import opened Wrappers
  import Text
  import StrToUL
  import Message

  /** One record of the process snapshot: `th32ProcessID` and `szExeFile`. */
  datatype ProcessEntry = ProcessEntry(pid: U32, exeFile: string)

  // ---------------------------------------------------------------------
  // PortablePathRemoveExtension (src/include/ntutils/shlwapi_dll.h)
  // ---------------------------------------------------------------------

  predicate IsSeparator(c: char) { c == '/' || c == '\\' }

  /** There is a path separator strictly between `j` and `upto`. */
  predicate SeparatorBetween(s: string, j: int, upto: nat)
    requires upto <= |s|
  {
    exists k :: j < k < upto && 0 <= k && IsSeparator(s[k])
  }

  /** Where the backward scan from `upto` stops: the last '.' with no
      separator after it, or nothing when a separator or the start of the
      text comes first. */
  function ExtensionDot(s: string, upto: nat): (r: Option<nat>)
    requires upto <= |s|
    ensures r.Some? ==> r.value < upto && s[r.value] == '.'
                        && forall j :: r.value < j < upto ==> s[j] != '.' && !IsSeparator(s[j])
    ensures r.None? ==> forall j :: 0 <= j < upto && s[j] == '.' ==> SeparatorBetween(s, j, upto)
    decreases upto
  {
    if upto == 0 then None
    else if IsSeparator(s[upto - 1]) then
      assert forall j :: 0 <= j < upto - 1 ==> SeparatorBetween(s, j, upto) by {
        forall j | 0 <= j < upto - 1 ensures SeparatorBetween(s, j, upto) {
          assert IsSeparator(s[upto - 1]);
        }
      }
      None
    else if s[upto - 1] == '.' then Some(upto - 1)
    else
      var r := ExtensionDot(s, upto - 1);
      if r.None? then
        assert forall j :: 0 <= j < upto - 1 && s[j] == '.' ==> SeparatorBetween(s, j, upto) by {
          forall j | 0 <= j < upto - 1 && s[j] == '.' ensures SeparatorBetween(s, j, upto) {
            assert SeparatorBetween(s, j, upto - 1);
            var k :| j < k < upto - 1 && 0 <= k && IsSeparator(s[k]);
            assert j < k < upto;
          }
        }
        r
      else r
  }

  /** `PortablePathRemoveExtension` on the C string: cut at the dot of the
      last extension of the last path component, if there is one. */
  function RemoveExtension(s: string): (r: string)
    ensures |r| <= |Text.CStr(s)| && r == Text.CStr(s)[..|r|]
    ensures |r| < |Text.CStr(s)| ==>
              Text.CStr(s)[|r|] == '.'
              && forall j :: |r| < j < |Text.CStr(s)| ==> Text.CStr(s)[j] != '.' && !IsSeparator(Text.CStr(s)[j])
    ensures |r| == |Text.CStr(s)| ==>
              forall j :: 0 <= j < |r| && r[j] == '.' ==> SeparatorBetween(r, j, |r|)
  {
    var c := Text.CStr(s);
    match ExtensionDot(c, |c|)
    case None => c
    case Some(d) => c[..d]
  }

  /** The scan stops at a dot followed only by characters that are neither
      dots nor separators. */
  lemma {:induction false} ExtensionDotAt(s: string, d: nat, upto: nat)
    requires d < upto <= |s| && s[d] == '.'
    requires forall j :: d < j < upto ==> s[j] != '.' && !IsSeparator(s[j])
    ensures ExtensionDot(s, upto) == Some(d)
    decreases upto
  {
    if d < upto - 1 {
      ExtensionDotAt(s, d, upto - 1);
    }
  }

  /** Removing the extension undoes appending one: a base name, a dot, and
      an extension without dots or separators. */
  lemma RemoveExtensionOfExtended(base: string, ext: string)
    requires Text.NulFree(base) && Text.NulFree(ext)
    requires '.' !in ext && '/' !in ext && '\\' !in ext
    ensures RemoveExtension(base + "." + ext) == base
  {
    var s := base + "." + ext;
    assert forall k :: |base| < k < |s| ==> s[k] == ext[k - |base| - 1];
    assert Text.NulFree(s) by {
      forall k | 0 <= k < |s| ensures s[k] != '\0' {
        if k < |base| { assert s[k] == base[k]; }
      }
    }
    Text.CStrOfNulFree(s);
    ExtensionDotAt(s, |base|, |s|);
    assert s[..|base|] == base;
  }

  /** A name without any dot is left as it is. */
  lemma RemoveExtensionWithoutDot(s: string)
    requires Text.NulFree(s) && '.' !in s
    ensures RemoveExtension(s) == s
  {
    Text.CStrOfNulFree(s);
    assert forall k :: 0 <= k < |s| ==> s[k] != '.';
  }

  // ---------------------------------------------------------------------
  // find_process
  // ---------------------------------------------------------------------

  /** The name test of `find_process(name, exact_match)`. Exact: the
      executable name equals `name` up to case, with or without its
      extension. Otherwise: `_tcsnicmp` over `name.length()` characters. */
  predicate Matches(exeFile: string, name: string, exact: bool) {
    if exact then
      Text.EqualsIgnoreCase(exeFile, name) || Text.EqualsIgnoreCase(RemoveExtension(exeFile), name)
    else Text.EqualsIgnoreCaseN(exeFile, name, |name|)
  }

  /** The substring mode is a case-insensitive prefix test on the
      executable name. */
  lemma PrefixMatch(exeFile: string, name: string)
    requires Text.NulFree(name)
    ensures Matches(exeFile, name, false) <==> Text.PrefixIgnoreCase(name, Text.CStr(exeFile))
  {
    Text.CStrOfNulFree(name);
    Text.NIcmpIsPrefix(Text.CStr(exeFile), name);
  }

  /** The exact mode accepts the executable name without its extension, in
      any case: "notepad" selects "NOTEPAD.EXE". */
  lemma ExactMatchIgnoresExtension(base: string, ext: string, name: string)
    requires Text.NulFree(base) && Text.NulFree(ext)
    requires '.' !in ext && '/' !in ext && '\\' !in ext
    requires Text.EqualsIgnoreCase(base, name)
    ensures Matches(base + "." + ext, name, true)
  {
    RemoveExtensionOfExtended(base, ext);
    Text.CStrOfNulFree(base);
  }

  /** Which snapshot records a name search or the full listing keeps. */
  datatype Criterion = AnyProcess | NameMatch(name: string, exact: bool)

  /** Both searches skip the idle process (pid 0). */
  predicate Keeps(c: Criterion, e: ProcessEntry) {
    e.pid != 0 && (c.NameMatch? ==> Matches(e.exeFile, c.name, c.exact))
  }

  /** Some record with this pid is kept. */
  predicate Chosen(procs: seq<ProcessEntry>, c: Criterion, p: U32) {
    exists k :: 0 <= k < |procs| && procs[k].pid == p && Keeps(c, procs[k])
  }

  /** Record `k` is kept and no later kept record has its pid. */
  predicate LastChosen(procs: seq<ProcessEntry>, c: Criterion, k: int) {
    0 <= k < |procs| && Keeps(c, procs[k])
    && forall j :: k < j < |procs| && Keeps(c, procs[j]) ==> procs[j].pid != procs[k].pid
  }

  /** The loop of `find_process(name, exact_match)` and `find_process()`:
      every kept record is stored under its pid, so a later record with the
      same pid overwrites an earlier one. */
  function Collect(procs: seq<ProcessEntry>, c: Criterion): (m: map<U32, string>)
    ensures forall p :: p in m <==> Chosen(procs, c, p)
    ensures forall k :: LastChosen(procs, c, k) ==> procs[k].pid in m && m[procs[k].pid] == Text.CStr(procs[k].exeFile)
    decreases |procs|
  {
    if |procs| == 0 then map[]
    else
      var init := procs[..|procs| - 1];
      var e := procs[|procs| - 1];
      var m := Collect(init, c);
      CollectStep(procs, c);
      if Keeps(c, e) then m[e.pid := Text.CStr(e.exeFile)] else m
  }

  lemma CollectStep(procs: seq<ProcessEntry>, c: Criterion)
    requires |procs| > 0
    ensures forall p :: Chosen(procs, c, p) <==>
              Chosen(procs[..|procs| - 1], c, p) || (Keeps(c, procs[|procs| - 1]) && procs[|procs| - 1].pid == p)
    ensures forall k :: LastChosen(procs, c, k) && k < |procs| - 1 ==>
              LastChosen(procs[..|procs| - 1], c, k)
              && !(Keeps(c, procs[|procs| - 1]) && procs[|procs| - 1].pid == procs[k].pid)
  {
    var init := procs[..|procs| - 1];
    forall p | Chosen(procs, c, p)
      ensures Chosen(init, c, p) || (Keeps(c, procs[|procs| - 1]) && procs[|procs| - 1].pid == p)
    {
      var k :| 0 <= k < |procs| && procs[k].pid == p && Keeps(c, procs[k]);
      if k < |procs| - 1 { assert init[k] == procs[k]; }
    }
    forall p | Chosen(init, c, p) ensures Chosen(procs, c, p) {
      var k :| 0 <= k < |init| && init[k].pid == p && Keeps(c, init[k]);
      assert procs[k] == init[k];
    }
  }

  /** `find_process(pid)`: the first record with that pid, then the loop
      stops. The idle process is not skipped here. */
  function FindById(procs: seq<ProcessEntry>, pid: U32): (m: map<U32, string>)
    ensures forall p :: p in m ==> p == pid
    ensures pid in m <==> exists k :: 0 <= k < |procs| && procs[k].pid == pid
    ensures forall k :: 0 <= k < |procs| && procs[k].pid == pid && (forall j :: 0 <= j < k ==> procs[j].pid != pid) ==>
              pid in m && m[pid] == Text.CStr(procs[k].exeFile)
    ensures pid in m ==> exists k :: 0 <= k < |procs| && procs[k].pid == pid && m[pid] == Text.CStr(procs[k].exeFile)
  {
    match FirstWithPid(procs, pid)
    case None => map[]
    case Some(k) => map[pid := Text.CStr(procs[k].exeFile)]
  }

  /** The position of the first record with this pid. */
  function FirstWithPid(procs: seq<ProcessEntry>, pid: U32): (r: Option<nat>)
    ensures r.Some? ==> r.value < |procs| && procs[r.value].pid == pid
                        && forall j :: 0 <= j < r.value ==> procs[j].pid != pid
    ensures r.None? ==> forall j :: 0 <= j < |procs| ==> procs[j].pid != pid
  {
    if |procs| == 0 then None
    else if procs[0].pid == pid then Some(0)
    else match FirstWithPid(procs[1..], pid)
      case Some(k) => Some(k + 1)
      case None => None
  }

  // ---------------------------------------------------------------------
  // process_selector
  // ---------------------------------------------------------------------

  /** The selector's fields: a pid (0 for none), a name ("" for none), and
      whether the name must match exactly. */
  datatype Selector = Selector(pid: U32, name: string, exactMatch: bool)

  /** The default-constructed selector. */
  const Fresh: Selector := Selector(0, "", true)

  function InvalidPid(argument: string): string {
    "Invalid argument '" + Text.CStr(argument) + "' for option --pid"
  }

  /** `handle_option`: `--pid` (-i) takes a non-zero number that uses the
      whole argument, `--name` (-n) the name, `--substr` (-s) turns off
      exact matching; every other option is left to other handlers. The
      option parser always supplies the argument of -i and -n. */
  function HandleOption(s: Selector, option: char, argument: string): (r: Handling<Selector>)
    ensures option !in {'i', 'n', 's'} <==> r.Unhandled?
    ensures option == 'i' ==>
              (r.Handled? <==> StrToUL.Whole(argument) && StrToUL.Parse(argument).value != 0)
              && (r.Handled? ==> r.state == s.(pid := StrToUL.Parse(argument).value))
              && (r.Rejected? ==> r.message == InvalidPid(argument))
    ensures option == 'n' ==> r == Handled(s.(name := Text.CStr(argument)))
    ensures option == 's' ==> r == Handled(s.(exactMatch := false))
  {
    match option
    case 'i' =>
      var c := StrToUL.Parse(argument);
      if c.value == 0 || !StrToUL.Whole(argument) then Rejected(InvalidPid(argument))
      else Handled(s.(pid := c.value))
    case 'n' => Handled(s.(name := Text.CStr(argument)))
    case 's' => Handled(s.(exactMatch := false))
    case _ => Unhandled
  }

  /** A pid written in decimal is accepted and stored as given. */
  lemma PidOptionAcceptsDecimal(s: Selector, n: U32)
    requires n != 0
    ensures HandleOption(s, 'i', Text.Decimal(n)) == Handled(s.(pid := n))
  {
    StrToUL.DecimalRoundTrip(n);
  }

  /** `--pid 0` is rejected, in any of its spellings. */
  lemma PidOptionRejectsZero(s: Selector, argument: string)
    requires StrToUL.Parse(argument).value == 0
    ensures HandleOption(s, 'i', argument) == Rejected(InvalidPid(argument))
  {
  }

  /** `validate_options(allow_all)`. */
  function ValidateOptions(s: Selector, allowAll: bool): (r: Outcome<string>)
    ensures r.Pass? <==> (s.pid != 0 || s.name != "" || allowAll) && (s.pid == 0 || s.name == "")
    ensures r == Fail("Neither process id nor process name specified") <==> s.pid == 0 && s.name == "" && !allowAll
    ensures r == Fail("Both process id and process name specified") <==> s.pid != 0 && s.name != ""
  {
    if s.pid == 0 && s.name == "" && !allowAll then Fail("Neither process id nor process name specified")
    else if s.pid != 0 && s.name != "" then Fail("Both process id and process name specified")
    else Pass
  }

  /** The records a selector stands for: all but the idle process when it
      names nothing, those whose name matches when it names one, and those
      with its pid otherwise. */
  predicate Wanted(s: Selector, e: ProcessEntry) {
    if s.name != "" then Keeps(NameMatch(s.name, s.exactMatch), e)
    else if s.pid != 0 then e.pid == s.pid
    else Keeps(AnyProcess, e)
  }

  /** `select_processes`: the map from pid to executable name of the
      wanted processes. */
  function SelectProcesses(s: Selector, procs: seq<ProcessEntry>): (m: map<U32, string>)
    ensures forall p :: p in m <==> exists k :: 0 <= k < |procs| && procs[k].pid == p && Wanted(s, procs[k])
    ensures forall p :: p in m ==> exists k :: 0 <= k < |procs| && procs[k].pid == p && Wanted(s, procs[k])
                                                && m[p] == Text.CStr(procs[k].exeFile)
  {
    if s.name == "" && s.pid == 0 then SelectCollected(s, procs, AnyProcess)
    else if s.name != "" then SelectCollected(s, procs, NameMatch(s.name, s.exactMatch))
    else FindById(procs, s.pid)
  }

  /** The search by name or the full listing, for the selector it serves. */
  function SelectCollected(s: Selector, procs: seq<ProcessEntry>, c: Criterion): (m: map<U32, string>)
    requires forall e :: Wanted(s, e) <==> Keeps(c, e)
    ensures forall p :: p in m <==> exists k :: 0 <= k < |procs| && procs[k].pid == p && Wanted(s, procs[k])
    ensures forall p :: p in m ==> exists k :: 0 <= k < |procs| && procs[k].pid == p && Wanted(s, procs[k])
                                                && m[p] == Text.CStr(procs[k].exeFile)
  {
    var m := Collect(procs, c);
    forall p | p in m
      ensures exists k :: 0 <= k < |procs| && procs[k].pid == p && Wanted(s, procs[k]) && m[p] == Text.CStr(procs[k].exeFile)
    {
      var k := LastIndex(procs, c, p);
    }
    m
  }

  /** Every chosen pid has a last kept record. */
  lemma {:induction false} LastIndex(procs: seq<ProcessEntry>, c: Criterion, p: U32) returns (k: nat)
    requires Chosen(procs, c, p)
    ensures LastChosen(procs, c, k) && procs[k].pid == p
    decreases |procs|
  {
    var n := |procs| - 1;
    var e := procs[n];
    if Keeps(c, e) && e.pid == p {
      k := n;
    } else {
      var init := procs[..n];
      ChosenBefore(procs, c, p);
      k := LastIndex(init, c, p);
      assert procs[k] == init[k];
      forall j | k < j < |procs| && Keeps(c, procs[j]) ensures procs[j].pid != procs[k].pid {
        if j < n { assert procs[j] == init[j]; }
      }
    }
  }

  /** A pid chosen, but not by the last record, is chosen before it. */
  lemma ChosenBefore(procs: seq<ProcessEntry>, c: Criterion, p: U32)
    requires Chosen(procs, c, p) && !(Keeps(c, procs[|procs| - 1]) && procs[|procs| - 1].pid == p)
    ensures Chosen(procs[..|procs| - 1], c, p)
  {
    var k :| 0 <= k < |procs| && procs[k].pid == p && Keeps(c, procs[k]);
    assert procs[..|procs| - 1][k] == procs[k];
  }

  // ---------------------------------------------------------------------
  // The target on the wire
  // ---------------------------------------------------------------------

  function NameTag(exactMatch: bool): char {
    if exactMatch then 'n' else 's'
  }

  /** `encode_target`: a pid wins over a name; a selector naming nothing
      adds nothing. */
  function EncodeTarget(msg: string, s: Selector): (r: string)
    ensures |r| >= |msg| && r[..|msg|] == msg
    ensures s.pid != 0 ==> |r| == |msg| + 5 && r[|msg|] == 'i'
    ensures s.pid == 0 && s.name != "" ==> |r| > |msg| + 4 && r[|msg|] == NameTag(s.exactMatch)
    ensures s.pid == 0 && s.name == "" ==> r == msg
  {
    if s.pid != 0 then Message.EncodeBinary(msg + "i", s.pid)
    else if s.name != "" then
      var r := Message.EncodeString(msg + [NameTag(s.exactMatch)], s.name);
      assert r[..|msg| + 1] == msg + [NameTag(s.exactMatch)];
      r
    else msg
  }

  function NoTarget(): string { "Invalid message received: no target" }

  /** `decode_target` into the selector `s`: a tag, then a pid or a name;
      's' also turns off exact matching. */
  function DecodeTarget(s: Selector, msg: string, i: nat): (r: Result<(Selector, nat), string>)
    requires i <= |msg|
    ensures i == |msg| ==> r == Err(NoTarget())
    ensures r.Ok? ==> i < r.value.1 <= |msg|
    ensures r.Ok? && msg[i] == 'i' ==> r.value.0 == s.(pid := r.value.0.pid) && r.value.1 == i + 5
    ensures r.Ok? && msg[i] in {'n', 's'} ==>
              r.value.0 == s.(name := r.value.0.name, exactMatch := s.exactMatch && msg[i] == 'n')
              && i + 5 <= r.value.1 && r.value.0.name == msg[i + 5..r.value.1]
    ensures i < |msg| && msg[i] !in {'i', 'n', 's'} ==> r == Err("Invalid message received: unknown target")
    ensures i < |msg| && msg[i] == 'i' ==> (r.Err? <==> |msg| < i + 5)
    ensures i < |msg| && msg[i] == 'i' && r.Ok? ==> r.value.0.pid == Message.Decode32(msg, i + 1)
    ensures i < |msg| && msg[i] == 'i' && r.Err? ==> r.error == Message.Incomplete("pid target")
    ensures i < |msg| && msg[i] in {'n', 's'} ==>
              (r.Err? <==> Message.DecodeString(msg, i + 1, "name target").Err?)
              && (r.Err? ==> r.error == Message.Incomplete("name target"))
  {
    if i == |msg| then Err(NoTarget())
    else match msg[i]
      case 'i' =>
        (match Message.DecodeBinary(msg, i + 1, "pid target")
         case Err(e) => Err(e)
         case Ok((pid, j)) => Ok((s.(pid := pid), j)))
      case 'n' => DecodeName(s, msg, i + 1)
      case 's' => DecodeName(s.(exactMatch := false), msg, i + 1)
      case _ => Err("Invalid message received: unknown target")
  }

  function DecodeName(s: Selector, msg: string, i: nat): (r: Result<(Selector, nat), string>)
    ensures r.Ok? ==> i + 4 <= r.value.1 <= |msg| && r.value.0 == s.(name := msg[i + 4..r.value.1])
  {
    match Message.DecodeString(msg, i, "name target")
    case Err(e) => Err(e)
    case Ok((name, j)) => Ok((s.(name := name), j))
  }

  /** The selector the service ends up with: what the encoding keeps. */
  function Canonical(s: Selector): Selector {
    if s.pid != 0 then Selector(s.pid, "", true)
    else if s.name != "" then Selector(0, s.name, s.exactMatch)
    else Fresh
  }

  /** Decoding what `encode_target` wrote, into a fresh selector, gives back
      its pid, or its name and matching mode, and stops right after it. */
  lemma DecodeTargetEncodeTarget(s: Selector, prefix: string, rest: string)
    requires s.pid != 0 || s.name != ""
    requires Text.NulFree(s.name) && |s.name| < Message.Modulus
    ensures DecodeTarget(Fresh, EncodeTarget(prefix, s) + rest, |prefix|)
            == Ok((Canonical(s), |EncodeTarget(prefix, s)|))
  {
    var msg := EncodeTarget(prefix, s) + rest;
    if s.pid != 0 {
      assert msg == Message.EncodeBinary(prefix + "i", s.pid) + rest;
      Message.DecodeBinaryEncodeBinary(prefix + "i", s.pid, rest, "pid target");
    } else {
      var tagged := prefix + [NameTag(s.exactMatch)];
      assert msg == Message.EncodeString(tagged, s.name) + rest;
      assert msg[|prefix|] == NameTag(s.exactMatch);
      Message.DecodeStringEncodeString(tagged, s.name, rest, "name target");
    }
  }

  // ---------------------------------------------------------------------
  // Output
  // ---------------------------------------------------------------------

  /** A flag as `to_string` writes it. */
  function BoolText(b: bool): string {
    if b then "1" else "0"
  }

  /** `xml_attribute`: the selector as the attribute of the info record. */
  function XmlAttribute(s: Selector): (a: string)
    ensures s.name == "" && s.pid == 0 <==> a == "target_process='all'"
    ensures s.name != "" ==> |a| > 20 && a[..20] == "target_process_name="
    ensures s.name == "" && s.pid != 0 ==> |a| > 19 && a[..19] == "target_process_id='"
    ensures '<' !in a
  {
    if s.name == "" && s.pid == 0 then "target_process='all'"
    else if s.name != "" then NameAttribute(s.name, s.exactMatch)
    else PidAttribute(s.pid)
  }

  /** The name escaped as an attribute value, then the matching mode as
      `to_string` writes it: the value reads back to the name. */
  function NameAttribute(name: string, exactMatch: bool): (a: string)
    ensures |a| > 20 && a[..20] == "target_process_name=" && '<' !in a
    ensures var tail := " exact_match='" + BoolText(exactMatch) + "'";
            |a| >= 22 + |tail| && a[|a| - |tail|..] == tail
            && a[20] == '\'' && a[|a| - |tail| - 1] == '\''
            && Text.Unescape(a[21..|a| - |tail| - 1]) == name
  {
    var v, b := Text.XmlAttributeValue(name), BoolText(exactMatch);
    var tail := " exact_match='" + b + "'";
    assert '<' !in tail;
    var a := "target_process_name=" + v + tail;
    NameAttributeSlices(v, tail);
    a
  }

  /** Where the value and the tail sit in a name attribute. */
  lemma NameAttributeSlices(v: string, tail: string)
    requires |v| >= 2 && '<' !in v && '<' !in tail
    ensures var a := "target_process_name=" + v + tail;
            |a| == 20 + |v| + |tail| && a[..20] == "target_process_name=" && '<' !in a
            && a[|a| - |tail|..] == tail && a[20] == v[0] && a[|a| - |tail| - 1] == v[|v| - 1]
            && a[21..|a| - |tail| - 1] == v[1..|v| - 1]
  {
    var a := "target_process_name=" + v + tail;
    assert a[..20] == "target_process_name=";
    assert a[20..|a| - |tail|] == v;
    assert a[|a| - |tail|..] == tail;
  }

  /** The pid in decimal between quotes: `strtoul` reads it back whole. */
  function PidAttribute(pid: U32): (a: string)
    ensures |a| > 19 && a[..19] == "target_process_id='" && '<' !in a
    ensures a == "target_process_id='" + Text.Decimal(pid) + "'"
    ensures a[|a| - 1] == '\'' && StrToUL.Parse(a[19..|a| - 1]) == StrToUL.Conversion(pid, |a| - 20)
  {
    Text.DecimalHasNoMarkup(pid);
    StrToUL.DecimalRoundTrip(pid);
    var a := "target_process_id='" + Text.Decimal(pid) + "'";
    assert a[..19] == "target_process_id='";
    assert a[19..|a| - 1] == Text.Decimal(pid);
    a
  }

  /** The attribute determines the target: the name and its matching mode
      when a name is given, otherwise the pid. */
  lemma XmlAttributeInjective(s1: Selector, s2: Selector)
    requires XmlAttribute(s1) == XmlAttribute(s2)
    ensures s1.name == s2.name
    ensures s1.name != "" ==> s1.exactMatch == s2.exactMatch
    ensures s1.name == "" ==> s1.pid == s2.pid
  {
    if s1.name != "" && s2.name != "" {
      NameAttributeInjective(s1.name, s1.exactMatch, s2.name, s2.exactMatch);
    } else if s1.name == "" && s2.name == "" && s1.pid != 0 && s2.pid != 0 {
      var a := XmlAttribute(s1);
      assert StrToUL.Parse(a[19..|a| - 1]).value == s1.pid;
    }
  }

  lemma NameAttributeInjective(n1: string, e1: bool, n2: string, e2: bool)
    requires NameAttribute(n1, e1) == NameAttribute(n2, e2)
    ensures n1 == n2 && e1 == e2
  {
    var t1 := " exact_match='" + BoolText(e1) + "'";
    var t2 := " exact_match='" + BoolText(e2) + "'";
    assert |t1| == |t2|;
    assert BoolText(e1) == t1[14..15] == t2[14..15] == BoolText(e2);
  }

  /** `validate_process_list(empty)`: an empty selection is an error naming
      the pid, or the quoted name. */
  function ValidateProcessList(s: Selector, empty: bool): (r: Outcome<string>)
    ensures r.Fail? <==> empty
    ensures r.Fail? && s.pid != 0 ==> r.error == "Could not find process " + Text.Decimal(s.pid)
    ensures r.Fail? && s.pid == 0 ==> r.error == "Could not find process '" + s.name + "'"
  {
    if !empty then Pass
    else if s.pid != 0 then Fail("Could not find process " + Text.Decimal(s.pid))
    else Fail("Could not find process '" + s.name + "'")
  }
}

=== FILE: remote_framework.dfy ===
/** The client/service framework of the older tools
    (include/ntutils/remote_framework.h). The client copies its own
    executable to the remote computer, installs and starts it as a service,
    sends one request over a named pipe and prints the response; the
    service reads the request, checks who sent it, answers and stops. The
    operating system's answers are inputs; the framework's own decisions
    (what is a warning, what aborts, what is released and in what order)
    are modelled. */
module RemoteFramework {
  import opened Wrappers
  import Text
  import Errors
  import LegacyErrors
  import ServiceControl
  import LegacyRemoteOps

  // ---------------------------------------------------------------------
  // Client options
  // ---------------------------------------------------------------------

  /** `client_framework`'s option fields. */
  datatype Client = Client(computer: string, username: string, password: string,
                           passwordSpecified: bool, promptForPassword: bool)

  const NewClient: Client := Client("", "", "", false, false)

  /** `handle_option`: `--computer` (-c) and `--username` (-u) take their
      argument; `--password` (-p) takes an optional one, and without it the
      password is asked for when connecting. The option parser always
      supplies the argument of -c and -u. */
  function HandleOption(c: Client, option: char, argument: Option<string>): (r: Client)
    requires option in {'c', 'u'} ==> argument.Some?
    ensures option !in {'c', 'u', 'p'} ==> r == c
    ensures option == 'c' ==> r == c.(computer := Text.CStr(argument.value))
    ensures option == 'u' ==> r == c.(username := Text.CStr(argument.value))
    ensures option == 'p' ==> r.passwordSpecified && r.computer == c.computer && r.username == c.username
    ensures option == 'p' ==> (r.promptForPassword <==> c.promptForPassword || argument.None?)
    ensures option == 'p' && argument.Some? ==> r.password == Text.CStr(argument.value)
  {
    match option
    case 'c' => c.(computer := Text.CStr(argument.value))
    case 'u' => c.(username := Text.CStr(argument.value))
    case 'p' =>
      if argument.Some? then c.(passwordSpecified := true, password := Text.CStr(argument.value))
      else c.(passwordSpecified := true, promptForPassword := true)
    case _ => c
  }

  /** `handle_option` as the option loop sees it: whether the option is
      the client's, and the client after it. Only `--password` may come
      without an argument; the others always carry one from the parser,
      the empty text standing in for a missing one. */
  function ClientOption(c: Client, option: char, argument: Option<string>): (r: Handling<Client>)
    ensures r.Handled? <==> option in {'c', 'u', 'p'}
    ensures !r.Rejected?
    ensures option in {'c', 'u'} ==> r == Handled(HandleOption(c, option, Some(if argument.Some? then argument.value else "")))
    ensures option == 'p' ==> r == Handled(HandleOption(c, option, argument))
  {
    if option in {'c', 'u'} then Handled(HandleOption(c, option, Some(if argument.Some? then argument.value else "")))
    else if option == 'p' then Handled(HandleOption(c, option, argument))
    else Unhandled
  }

  /** `is_remote`. */
  predicate IsRemote(c: Client) { c.computer != "" }

  /** An option as the parser hands it over. */
  datatype OptionUse = OptionUse(option: char, argument: Option<string>)

  predicate Supplied(uses: seq<OptionUse>) {
    forall k :: 0 <= k < |uses| ==> (uses[k].option in {'c', 'u'} ==> uses[k].argument.Some?)
  }

  function ApplyOptions(c: Client, uses: seq<OptionUse>): Client
    requires Supplied(uses)
    decreases |uses|
  {
    if |uses| == 0 then c
    else ApplyOptions(HandleOption(c, uses[0].option, uses[0].argument), uses[1..])
  }

  /** Over a whole command line: a password counts as given as soon as one
      --password appears, and it is asked for exactly when one of them had
      no argument. */
  lemma {:induction false} ApplyOptionsPassword(c: Client, uses: seq<OptionUse>)
    requires Supplied(uses)
    ensures ApplyOptions(c, uses).passwordSpecified <==>
              c.passwordSpecified || exists k :: 0 <= k < |uses| && uses[k].option == 'p'
    ensures ApplyOptions(c, uses).promptForPassword <==>
              c.promptForPassword || exists k :: 0 <= k < |uses| && uses[k] == OptionUse('p', None)
    decreases |uses|
  {
    if |uses| > 0 {
      var c1 := HandleOption(c, uses[0].option, uses[0].argument);
      ApplyOptionsPassword(c1, uses[1..]);
      if exists k :: 0 <= k < |uses[1..]| && uses[1..][k].option == 'p' {
        var k :| 0 <= k < |uses[1..]| && uses[1..][k].option == 'p';
        assert uses[k + 1].option == 'p';
      }
      if exists k :: 0 <= k < |uses| && uses[k].option == 'p' {
        var k :| 0 <= k < |uses| && uses[k].option == 'p';
        if k > 0 { assert uses[1..][k - 1].option == 'p'; }
      }
      if exists k :: 0 <= k < |uses[1..]| && uses[1..][k] == OptionUse('p', None) {
        var k :| 0 <= k < |uses[1..]| && uses[1..][k] == OptionUse('p', None);
        assert uses[k + 1] == OptionUse('p', None);
      }
      if exists k :: 0 <= k < |uses| && uses[k] == OptionUse('p', None) {
        var k :| 0 <= k < |uses| && uses[k] == OptionUse('p', None);
        if k > 0 { assert uses[1..][k - 1] == OptionUse('p', None); }
      }
    }
  }

  // ---------------------------------------------------------------------
  // Errors and warnings
  // ---------------------------------------------------------------------

  /** An exception the framework throws: a `Win32_error` for a failed call
      (the function's name and the error code), or a plain `error`. */
  datatype Fault = Win32Fault(func: string, code: U32) | WNetFault(func: string, code: U32) | GeneralFault(message: string)

  /** The exception object, with its message. */
  function Render(catalog: Errors.Catalog, f: Fault): (e: LegacyErrors.LegacyError)
    ensures f.Win32Fault? ==> e.code == Some(f.code)
    ensures !f.Win32Fault? ==> e.code.None?
    ensures f.GeneralFault? ==> e == LegacyErrors.Plain(f.message)
  {
    match f
    case Win32Fault(func, code) => LegacyErrors.Win32(catalog, func, code)
    case WNetFault(func, code) => LegacyErrors.WNet(catalog, func, code)
    case GeneralFault(m) => LegacyErrors.Plain(m)
  }

  /** The warnings `start` writes while it goes on. */
  datatype Notice = CopyFailed(code: U32) | ServiceExisted | StartFailed(code: U32)

  function NoticeLine(catalog: Errors.Catalog, n: Notice): string {
    match n
    case CopyFailed(code) => LegacyRemoteOps.Warning(LegacyErrors.Win32(catalog, "CopyFile", code).message)
    case ServiceExisted => LegacyRemoteOps.Warning("service already existed")
    case StartFailed(code) => LegacyRemoteOps.Warning("could not start service: " + LegacyErrors.Win32(catalog, "StartService", code).message)
  }

  // ---------------------------------------------------------------------
  // Client start
  // ---------------------------------------------------------------------

  /** The objects whose destructors undo a step of the start, in the order
      they are constructed. */
  datatype Lease = LoginLease | FileLease | ManagerLease | InstallLease | StartLease

  const AllLeases: seq<Lease> := [LoginLease, FileLease, ManagerLease, InstallLease, StartLease]

  /** What the destructors are told: the cancel result, the delete-file,
      delete-service and stop answers. */
  datatype Releases = Releases(cancelled: U32, deleted: Option<U32>, uninstalled: Option<U32>,
                               stop: ServiceControl.StopOracle)

  /** The answers the client gets while starting: the typed password, the
      connection result, copy, service-manager, open, create and start
      failures (None for success), the status answers, the pipe's reply,
      and the answers for the destructors. */
  datatype StartOracle = StartOracle(typed: string, added: U32, copied: Option<U32>, manager: Option<U32>,
                                     existed: bool, created: Option<U32>, started: Option<U32>,
                                     statuses: seq<ServiceControl.Query>, pipe: Result<string, U32>,
                                     releases: Releases)

  /** The logon the client asks for: the IPC$ resource, the user (none when
      empty) and the password (none unless one was specified). */
  datatype LoginRequest = LoginRequest(resource: string, username: Option<string>, password: Option<string>)

  /** The start ends with the service's response, an exception, or waiting
      for a service that never leaves START_PENDING. */
  datatype StartOutcome = Responded(response: string) | Thrown(fault: Fault) | Hangs

  datatype StartRun = StartRun(request: LoginRequest, acquired: seq<Lease>, warnings: seq<Notice>,
                               outcome: StartOutcome, released: seq<Lease>, releaseWarnings: seq<string>)

  function Request(c: Client, typed: string): (q: LoginRequest)
    ensures q.resource == LegacyRemoteOps.IpcResource(c.computer)
    ensures q.username.None? <==> c.username == ""
    ensures q.username.Some? ==> q.username.value == c.username
    ensures q.password.Some? <==> c.passwordSpecified
    ensures q.password.Some? ==> q.password.value == if c.promptForPassword then typed else c.password
  {
    var password := if c.promptForPassword then typed else c.password;
    LoginRequest(LegacyRemoteOps.IpcResource(c.computer),
                 if c.username == "" then None else Some(c.username),
                 if c.passwordSpecified then Some(password) else None)
  }

  /** The steps up to the response: how many leases were taken, the
      warnings along the way, and how it ended. */
  function Acquire(o: StartOracle): (r: (nat, seq<Notice>, StartOutcome))
    ensures r.0 <= |AllLeases|
    ensures r.2.Hangs? || r.2.Responded? ==> r.0 == |AllLeases|
    ensures r.0 == 0 <==> o.added != LegacyRemoteOps.NoError
    ensures r.0 == 0 ==> r == (0, [], Thrown(WNetFault("WNetAddConnection2", o.added)))
    ensures r.0 > 0 ==> |r.1| >= |CopyNotice(o.copied)| && r.1[..|CopyNotice(o.copied)|] == CopyNotice(o.copied)
    ensures o.added == LegacyRemoteOps.NoError && o.manager.Some? ==>
              r == (2, CopyNotice(o.copied), Thrown(Win32Fault("OpenSCManager", o.manager.value)))
    ensures o.added == LegacyRemoteOps.NoError && o.manager.None? && !o.existed && o.created.Some? ==>
              r == (4, CopyNotice(o.copied), Thrown(Win32Fault("CreateService", o.created.value)))
    ensures o.added == LegacyRemoteOps.NoError && o.manager.None? && (o.existed || o.created.None?) ==>
              r.0 == 5 && r.2 == Ready(o) && (ServiceExisted in r.1 <==> o.existed)
  {
    if o.added != LegacyRemoteOps.NoError then (0, [], Thrown(WNetFault("WNetAddConnection2", o.added)))
    else
      var copyNotice := CopyNotice(o.copied);
      if o.manager.Some? then (2, copyNotice, Thrown(Win32Fault("OpenSCManager", o.manager.value)))
      else if !o.existed && o.created.Some? then (4, copyNotice, Thrown(Win32Fault("CreateService", o.created.value)))
      else
        var notices := copyNotice + (if o.existed then [ServiceExisted] else [])
                       + (if o.started.Some? then [StartFailed(o.started.value)] else []);
        assert notices[..|copyNotice|] == copyNotice;
        (5, notices, Ready(o))
  }

  function CopyNotice(copied: Option<U32>): seq<Notice> {
    if copied.Some? then [CopyFailed(copied.value)] else []
  }

  /** The readiness wait and the request: the first status query and the
      polls behave as one wait that starts out pending. */
  function Ready(o: StartOracle): (r: StartOutcome)
    ensures var w := StartWait(o);
            r.Responded? <==> (w.Settled? && w.state == ServiceControl.Running && o.pipe.Ok?)
    ensures r.Responded? ==> r.response == o.pipe.value
    ensures r.Hangs? <==> StartWait(o).StillPending?
    ensures r == Thrown(GeneralFault("Could not start remote service")) <==>
              StartWait(o).Settled? && StartWait(o).state != ServiceControl.Running
  {
    match StartWait(o)
    case StillPending => Hangs
    case WaitFailed(code, _) => Thrown(Win32Fault("QueryServiceStatus", code))
    case Settled(s, _) =>
      if s != ServiceControl.Running then Thrown(GeneralFault("Could not start remote service"))
      else match o.pipe
        case Err(code) => Thrown(Win32Fault("CallNamedPipe", code))
        case Ok(response) => Responded(response)
  }

  function StartWait(o: StartOracle): ServiceControl.WaitEnd {
    ServiceControl.Wait(ServiceControl.StartPending, ServiceControl.StartPending, o.statuses)
  }

  function Reverse<T>(s: seq<T>): (r: seq<T>)
    ensures |r| == |s| && forall k :: 0 <= k < |s| ==> r[k] == s[|s| - 1 - k]
    decreases |s|
  {
    if |s| == 0 then [] else Reverse(s[1..]) + [s[0]]
  }

  /** What one destructor writes to the error stream. */
  function ReleaseLines(catalog: Errors.Catalog, lease: Lease, rel: Releases): seq<string> {
    match lease
    case LoginLease => LegacyRemoteOps.Logout(catalog, rel.cancelled)
    case FileLease => LegacyRemoteOps.DeleteRemoteFile(catalog, rel.deleted)
    case ManagerLease => []
    case InstallLease => LegacyRemoteOps.Uninstall(catalog, rel.uninstalled)
    case StartLease => LegacyRemoteOps.StopLines(catalog, ServiceControl.StopService(rel.stop).end)
  }

  function ReleaseAll(catalog: Errors.Catalog, leases: seq<Lease>, rel: Releases): seq<string>
    decreases |leases|
  {
    if |leases| == 0 then [] else ReleaseLines(catalog, leases[0], rel) + ReleaseAll(catalog, leases[1..], rel)
  }

  /** `start`: log on, copy, open the service manager, install (or reuse)
      the service, start it, wait until it runs, and exchange the request
      for the response; on every way out, the objects constructed so far
      are destroyed in the reverse order. */
  function Start(catalog: Errors.Catalog, c: Client, o: StartOracle): (r: StartRun)
    ensures r.request == Request(c, o.typed)
    ensures |r.acquired| <= |AllLeases| && r.acquired == AllLeases[..|r.acquired|]
    ensures !r.outcome.Hangs? ==> r.released == Reverse(r.acquired)
    ensures r.outcome.Hangs? ==> r.released == [] && r.acquired == AllLeases
    ensures r.outcome.Responded? ==> r.acquired == AllLeases && o.pipe == Ok(r.outcome.response)
    ensures r.acquired == [] <==> o.added != LegacyRemoteOps.NoError
    ensures r.acquired != [] ==> |r.warnings| >= |CopyNotice(o.copied)| && r.warnings[..|CopyNotice(o.copied)|] == CopyNotice(o.copied)
  {
    var (n, warnings, outcome) := Acquire(o);
    var acquired := AllLeases[..n];
    var released := if outcome.Hangs? then [] else Reverse(acquired);
    StartRun(Request(c, o.typed), acquired, warnings, outcome, released, ReleaseAll(catalog, released, o.releases))
  }

  /** A failed copy is only a warning: it changes nothing else. */
  lemma CopyFailureOnlyWarns(o: StartOracle, code: U32)
    requires o.added == LegacyRemoteOps.NoError
    ensures var failed := Acquire(o.(copied := Some(code)));
            var copied := Acquire(o.(copied := None));
            failed.0 == copied.0 && failed.2 == copied.2 && failed.1 == [CopyFailed(code)] + copied.1
  {
    var o1 := o.(copied := Some(code));
    var o2 := o.(copied := None);
    assert Ready(o1) == Ready(o2) by {
      assert StartWait(o1) == StartWait(o2);
    }
  }

  /** A service that already exists is reused with a warning, as if it had
      just been created. */
  lemma ExistingServiceOnlyWarns(o: StartOracle)
    requires o.added == LegacyRemoteOps.NoError && o.manager.None?
    ensures var existing := Acquire(o.(existed := true));
            var created := Acquire(o.(existed := false, created := None));
            existing.0 == created.0 && existing.2 == created.2
            && |existing.1| == |created.1| + 1 && ServiceExisted in existing.1
  {
  }

  // ---------------------------------------------------------------------
  // Service side
  // ---------------------------------------------------------------------

  const SecurityImpersonation: int := 2

  /** The answers the service gets, in the order it asks:
      - `registered`: a failure registering the control handler or
        reporting START_PENDING, before any status is reported;
      - `prepared`: a failure building the security descriptor, creating
        the pipe or reporting RUNNING, after START_PENDING is reported;
      - `connected`: a failure connecting the client or in the first read,
        after RUNNING is reported;
      - the size of the waiting message, the bytes read (or the read's error
        code), the impersonation's error code, the token's impersonation
        level (or the failed call), a failure while writing the response,
        and the error code of the final status update. */
  datatype ServerOracle = ServerOracle(registered: Option<Fault>, prepared: Option<Fault>, connected: Option<Fault>,
                                       peeked: nat, read: Result<string, U32>,
                                       impersonated: Option<U32>, level: Result<int, Fault>,
                                       written: Option<Fault>, stopped: Option<U32>)

  /** What the service does, in order. */
  datatype ServerAction =
    | SetStatus(state: ServiceControl.ServiceState, waitHint: nat, exitCode: U32)
    | Impersonate
    | Handle(request: string)
    | Revert
    | Respond(response: string)
    | Failed(fault: Fault)

  /** The tool's `handle_message`: the response to a request, or the
      exception it throws. */
  type Handler = string -> Result<string, Fault>

  /** The response a tool's handler returns once the message is understood:
      the operation's output, or, when the operation fails, its message on
      an "Error: " line. The failure never reaches the framework. */
  function Response(outcome: Result<string, string>): (r: string)
    ensures outcome.Ok? ==> r == outcome.value
    ensures outcome.Err? ==> |r| == |outcome.error| + 8 && r[..7] == "Error: " && r[|r| - 1] == '\n'
                             && r[7..|r| - 1] == outcome.error
  {
    match outcome
    case Ok(text) => text
    case Err(message) => "Error: " + message + "\n"
  }

  /** The checks before the request is handled, and the handling: the
      actions up to the response, and the exception that ends the service
      early, if any. */
  function Serve(o: ServerOracle, handle: Handler): (r: (seq<ServerAction>, Option<Fault>))
    ensures o.registered.Some? ==> r == ([], o.registered)
    ensures o.registered.None? && o.prepared.Some? ==>
              r == ([SetStatus(ServiceControl.StartPending, 100, 0)], o.prepared)
    ensures o.registered.None? && o.prepared.None? && o.connected.Some? ==>
              r == ([SetStatus(ServiceControl.StartPending, 100, 0), SetStatus(ServiceControl.Running, 0, 0)], o.connected)
    ensures o.registered.None? && o.prepared.None? ==>
              |r.0| >= 2 && r.0[0] == SetStatus(ServiceControl.StartPending, 100, 0)
              && r.0[1] == SetStatus(ServiceControl.Running, 0, 0)
    ensures r.1.None? <==>
              o.registered.None? && o.prepared.None? && o.connected.None? && 0 < o.peeked && o.read.Ok? && |o.read.value| == o.peeked
              && o.impersonated.None? && o.level.Ok? && o.level.value >= SecurityImpersonation
              && handle(o.read.value).Ok? && o.written.None?
    ensures r.1.None? ==> |r.0| > 0 && r.0[|r.0| - 1] == Respond(handle(o.read.value).value)
  {
    var pending := [SetStatus(ServiceControl.StartPending, 100, 0)];
    var running := [SetStatus(ServiceControl.StartPending, 100, 0), SetStatus(ServiceControl.Running, 0, 0)];
    if o.registered.Some? then ([], o.registered)
    else if o.prepared.Some? then (pending, o.prepared)
    else if o.connected.Some? then (running, o.connected)
    else if o.peeked == 0 then (running, Some(GeneralFault("Invalid message received: no action")))
    else match o.read
      case Err(code) => (running, Some(Win32Fault("ReadFile", code)))
      case Ok(msg) =>
        if |msg| != o.peeked then (running, Some(GeneralFault("Improper message size returned from ReadFile")))
        else if o.impersonated.Some? then (running, Some(Win32Fault("ImpersonateNamedPipeClient", o.impersonated.value)))
        else match o.level
          case Err(f) => (running + [Impersonate], Some(f))
          case Ok(level) =>
            if level < SecurityImpersonation then (running + [Impersonate], Some(GeneralFault("Restricted impersonation level detected")))
            else match handle(msg)
              case Err(f) => (running + [Impersonate, Handle(msg)], Some(f))
              case Ok(response) =>
                var answered := running + [Impersonate, Handle(msg), Revert];
                if o.written.Some? then (answered, o.written)
                else (answered + [Respond(response)], None)
  }

  /** The exit code the catch blocks set: the code of a Win32 error, 0 for
      any other error. */
  function ExitCode(f: Fault): (code: U32)
    ensures f.Win32Fault? ==> code == f.code
    ensures !f.Win32Fault? ==> code == 0
  {
    if f.Win32Fault? then f.code else 0
  }

  /** The exit code is the code the thrown exception carries, if any. */
  lemma ExitCodeOfException(catalog: Errors.Catalog, f: Fault)
    ensures ExitCode(f) == match Render(catalog, f).code case Some(c) => c case None => 0
  {
  }

  /** `service_main`: serve one request, then report the service stopped;
      any error is logged and the service still ends stopped with wait hint
      0. */
  function ServiceMain(o: ServerOracle, handle: Handler): (actions: seq<ServerAction>)
    ensures |actions| > 0 && actions[|actions| - 1].SetStatus?
    ensures actions[|actions| - 1].state == ServiceControl.Stopped && actions[|actions| - 1].waitHint == 0
  {
    var (served, failure) := Serve(o, handle);
    match failure
    case Some(f) => served + [Failed(f), SetStatus(ServiceControl.Stopped, 0, ExitCode(f))]
    case None =>
      if o.stopped.Some? then
        var f := Win32Fault("SetServiceStatus", o.stopped.value);
        served + [SetStatus(ServiceControl.Stopped, 0, 0), Failed(f), SetStatus(ServiceControl.Stopped, 0, ExitCode(f))]
      else served + [SetStatus(ServiceControl.Stopped, 0, 0)]
  }

  /** The request is handled only when it is the whole waiting message, it
      is not empty, and the client's identity can be used at impersonation
      level or above; impersonation is on while it is handled. */
  lemma HandledOnlyWhenVetted(o: ServerOracle, handle: Handler, k: nat)
    requires k < |ServiceMain(o, handle)| && ServiceMain(o, handle)[k].Handle?
    ensures o.registered.None? && o.prepared.None? && o.connected.None?
    ensures o.read.Ok? && o.peeked > 0 && |o.read.value| == o.peeked
    ensures ServiceMain(o, handle)[k].request == o.read.value
    ensures o.impersonated.None? && o.level.Ok? && o.level.value >= SecurityImpersonation
    ensures k > 0 && ServiceMain(o, handle)[k - 1] == Impersonate
  {
    ServedFirst(o, handle);
    assert Serve(o, handle).0[k].Handle?;
  }

  /** The response goes out only after impersonation is turned off. */
  lemma RevertBeforeRespond(o: ServerOracle, handle: Handler, k: nat)
    requires k < |ServiceMain(o, handle)| && ServiceMain(o, handle)[k].Respond?
    ensures k > 1 && ServiceMain(o, handle)[k - 1] == Revert && ServiceMain(o, handle)[k - 2].Handle?
  {
    var served, actions := Serve(o, handle).0, ServiceMain(o, handle);
    ServedFirst(o, handle);
    assert k < |served| && served[k] == actions[k];
    ServeRespond(o, handle, k);
    assert actions[k - 1] == served[k - 1] && actions[k - 2] == served[k - 2];
  }

  /** In `Serve` the response comes last, after the revert that follows
      the handling. */
  lemma ServeRespond(o: ServerOracle, handle: Handler, k: nat)
    requires k < |Serve(o, handle).0| && Serve(o, handle).0[k].Respond?
    ensures k > 1 && Serve(o, handle).0[k - 1] == Revert && Serve(o, handle).0[k - 2].Handle?
  {
  }

  /** `service_main` does what `Serve` did, then only reports the status
      and logs errors. */
  lemma ServedFirst(o: ServerOracle, handle: Handler)
    ensures var served, actions := Serve(o, handle).0, ServiceMain(o, handle);
            |served| < |actions| && actions[..|served|] == served
            && forall j :: |served| <= j < |actions| ==> actions[j].SetStatus? || actions[j].Failed?
  {
  }

  /** An error ends the service stopped, with the Win32 code as exit code
      for a Win32 error and 0 otherwise. */
  lemma FailureExitCode(o: ServerOracle, handle: Handler)
    requires Serve(o, handle).1.Some?
    ensures var actions := ServiceMain(o, handle);
            var f := Serve(o, handle).1.value;
            actions[|actions| - 1] == SetStatus(ServiceControl.Stopped, 0, if f.Win32Fault? then f.code else 0)
  {
  }
}

=== FILE: remote_ops.dfy ===
/** The remote-session helpers of the newer tools
    (src/include/ntutils/remote_ops.h): logging on to the remote computer,
    the copied executable, the installed service and the started service,
    each released by a destructor that turns failures into warnings in the
    result aggregator. Every network and service-manager call is replaced by
    its answer, given as an input. */
module RemoteOps {
  import opened Wrappers
  import Text
  import Errors
  import Results
  import ServiceControl

  const NoError: U32 := 0
  const ErrorMoreData: U32 := 234
  const ErrorNoNetOrBadPath: U32 := 1203
  const ErrorNotConnected: U32 := 2250

  /** The answers of `WNetGetUser`: the sizes it asks for while the buffer
      is too small (ERROR_MORE_DATA), then its last answer. */
  datatype UserOracle = UserOracle(required: seq<U32>, last: LastReply)

  /** The last answer: the user name written into the buffer, or an error
      code other than ERROR_MORE_DATA. */
  datatype LastReply = Named(buffer: string) | Refused(code: U32)

  /** What `GetUser` concludes. */
  datatype Lookup = Found(user: string) | NoSession | LookupFailed(code: U32)

  function Double(size: U32): U32 { (size * 2) % 0x1_0000_0000 }

  /** The buffer sizes `GetUser` offers, call by call: 64 first, then twice
      what the previous call asked for (a DWORD, so the doubling wraps). */
  function BufferSizes(required: seq<U32>): (sizes: seq<U32>)
    ensures |sizes| == |required| + 1
    ensures sizes[0] == 64
    ensures forall k :: 0 < k < |sizes| ==> sizes[k] == Double(required[k - 1])
  {
    [64] + seq(|required|, k requires 0 <= k < |required| => Double(required[k]))
  }

  /** `GetUser`: the user of an existing connection, no connection, or a
      failure that is reported as a warning. */
  function GetUser(o: UserOracle): (r: Lookup)
    ensures r.Found? <==> o.last.Named?
    ensures r.Found? ==> r.user == Text.CStr(o.last.buffer)
    ensures r == NoSession <==> o.last.Refused? && o.last.code in {ErrorNotConnected, ErrorNoNetOrBadPath}
  {
    match o.last
    case Named(buffer) => Found(Text.CStr(buffer))
    case Refused(code) =>
      if code == ErrorNotConnected || code == ErrorNoNetOrBadPath then NoSession else LookupFailed(code)
  }

  /** The reports `GetUser` adds: a warning for an unexpected error only. */
  function LookupReports(catalog: Errors.Catalog, l: Lookup): (ops: seq<Results.Report>)
    ensures |ops| == (if l.LookupFailed? then 1 else 0)
  {
    match l
    case LookupFailed(code) => [Results.WarningErrorReport(Errors.WNet(catalog, "WNetGetUser", code))]
    case _ => []
  }

  /** A session: the IPC$ resource to cancel at the end, "" when an
      existing connection was reused. */
  datatype Login = Login(resource: string)

  function IpcResource(host: string): string {
    "\\\\" + host + "\\IPC$"
  }

  function AlreadyLoggedOn(host: string, existing: string, username: string): string {
    "Already logged on to " + host + " as " + existing + "; ignoring request to log on as " + username
  }

  /** The `remote_login` constructor: reuse an existing connection (warning
      when a different user was asked for), or add one and throw the network
      error when that fails. The reports are those made before the
      constructor returns or throws: a failed user lookup is reported even
      when the connection then cannot be added. */
  function RemoteLogin(catalog: Errors.Catalog, host: string, username: Option<string>,
                       user: UserOracle, added: U32): (r: (Result<Login, Errors.Error>, seq<Results.Report>))
    ensures r.1 == LoginReports(catalog, host, username, GetUser(user))
    ensures GetUser(user).Found? ==> r.0 == Ok(Login(""))
    ensures !GetUser(user).Found? ==>
              (r.0.Err? <==> added != NoError)
              && (r.0.Err? ==> r.0.error == AddConnectionFailed(catalog, added))
              && (r.0.Ok? ==> r.0.value.resource == IpcResource(host) != "")
  {
    var lookup := GetUser(user);
    var reports := LoginReports(catalog, host, username, lookup);
    if lookup.Found? then (Ok(Login("")), reports)
    else if added != NoError then (Err(AddConnectionFailed(catalog, added)), reports)
    else
      assert |IpcResource(host)| > 0;
      (Ok(Login(IpcResource(host))), reports)
  }

  /** The reports of the constructor: with an existing connection, a
      warning only when a different user was asked for; otherwise those of
      the user lookup. */
  function LoginReports(catalog: Errors.Catalog, host: string, username: Option<string>, lookup: Lookup): (ops: seq<Results.Report>)
    ensures lookup.Found? ==>
              |ops| == (if username.Some? && username.value != lookup.user then 1 else 0)
              && (|ops| == 1 ==> ops[0] == Results.WarningReport(AlreadyLoggedOn(host, lookup.user, username.value)))
    ensures !lookup.Found? ==> ops == LookupReports(catalog, lookup)
  {
    match lookup
    case Found(existing) =>
      if username.Some? && existing != username.value then
        [Results.WarningReport(AlreadyLoggedOn(host, existing, username.value))]
      else []
    case _ => LookupReports(catalog, lookup)
  }

  /** Example: a failed user lookup is still reported when the connection
      cannot be added. */
  lemma LookupWarningBeforeThrow(catalog: Errors.Catalog, host: string, username: Option<string>, code: U32, added: U32)
    requires code !in {ErrorNotConnected, ErrorNoNetOrBadPath} && added != NoError
    ensures var r := RemoteLogin(catalog, host, username, UserOracle([], Refused(code)), added);
            r.0.Err? && |r.1| == 1 && r.1[0].WarningErrorReport?
  {
    assert GetUser(UserOracle([], Refused(code))) == LookupFailed(code);
  }

  /** The network error for a connection that could not be added. */
  function AddConnectionFailed(catalog: Errors.Catalog, added: U32): Errors.Error {
    Errors.WNet(catalog, "WNetAddConnection2", added)
  }

  /** The `remote_login` destructor: cancel the connection it added, if
      any; a failure to cancel is a warning. Gives whether the cancel call
      was made, and the reports. */
  function Logout(catalog: Errors.Catalog, l: Login, cancelled: U32): (r: (bool, seq<Results.Report>))
    ensures r.0 <==> l.resource != ""
    ensures |r.1| == 1 <==> r.0 && cancelled != NoError
    ensures |r.1| <= 1
  {
    if l.resource == "" then (false, [])
    else if cancelled != NoError then (true, [Results.WarningErrorReport(Errors.WNet(catalog, "WNetCancelConnection2", cancelled))])
    else (true, [])
  }

  /** A session that reused an existing connection leaves it open; one that
      added a connection cancels that same resource. */
  lemma LoginLogout(catalog: Errors.Catalog, host: string, username: Option<string>,
                    user: UserOracle, cancelled: U32)
    ensures RemoteLogin(catalog, host, username, user, NoError).0.Ok?
    ensures var l := RemoteLogin(catalog, host, username, user, NoError).0.value;
            Logout(catalog, l, cancelled).0 <==> !GetUser(user).Found?
    ensures var l := RemoteLogin(catalog, host, username, user, NoError).0.value;
            !GetUser(user).Found? ==> l.resource == IpcResource(host)
  {
    assert |IpcResource(host)| > 0;
  }

  /** The copied executable's path on the remote computer. */
  function RemoteFileName(host: string, baseName: string): (path: string)
    ensures |path| == |host| + |baseName| + 10
    ensures path[..2] == "\\\\" && path[2..2 + |host|] == host && path[|path| - |baseName|..] == baseName
  {
    "\\\\" + host + "\\ADMIN$\\" + baseName
  }

  /** The `remote_file` destructor: delete, and once more after a pause if
      that fails (the file may still be in use); only a second failure is a
      warning. An attempt's answer is None on success and the error code
      otherwise. Gives the number of attempts and the reports. */
  function DeleteRemoteFile(catalog: Errors.Catalog, first: Option<U32>, second: Option<U32>): (r: (nat, seq<Results.Report>))
    ensures r.0 == (if first.None? then 1 else 2)
    ensures |r.1| == (if first.Some? && second.Some? then 1 else 0)
    ensures |r.1| == 1 ==> r.1[0] == Results.WarningErrorReport(Errors.Win32(catalog, "DeleteFile", second.value))
  {
    if first.None? then (1, [])
    else if second.None? then (2, [])
    else (2, [Results.WarningErrorReport(Errors.Win32(catalog, "DeleteFile", second.value))])
  }

  /** The `remote_service_install` destructor: a failure to delete the
      service is a warning, never an error. */
  function Uninstall(catalog: Errors.Catalog, deleted: Option<U32>): (ops: seq<Results.Report>)
    ensures |ops| == (if deleted.Some? then 1 else 0)
    ensures deleted.Some? ==> ops[0].WarningReport?
  {
    match deleted
    case None => []
    case Some(code) => [Results.WarningReport(UninstallWarning(catalog, code))]
  }

  function UninstallWarning(catalog: Errors.Catalog, code: U32): string {
    "Could not uninstall remote service: " + Errors.Win32(catalog, "DeleteService", code).message + "\n"
  }

  /** The `remote_service_start` destructor's reports: a warning for a
      failed status query and for a service that settled other than
      stopped; nothing when it stopped. */
  function StopReports(catalog: Errors.Catalog, e: ServiceControl.StopEnd): (ops: seq<Results.Report>)
    ensures |ops| == (if ServiceControl.Warns(e) then 1 else 0)
    ensures ServiceControl.Warns(e) ==> ops[0].WarningReport? || ops[0].WarningErrorReport?
  {
    if e.StopQueryFailed? then [Results.WarningErrorReport(StopQueryError(catalog, e.code))]
    else if e.WouldNotStop? then [Results.WarningReport(WouldNotStop())]
    else []
  }

  function StopQueryError(catalog: Errors.Catalog, code: U32): Errors.Error {
    Errors.Win32(catalog, "QueryServiceStatus", code)
  }

  function WouldNotStop(): string { "Remote service would not stop" }

  /** A service that was already stopped is left alone: no control, no
      report. */
  lemma StopAlreadyStopped(catalog: Errors.Catalog, rest: seq<ServiceControl.Query>, control: Option<ServiceControl.ServiceState>)
    ensures var o := ServiceControl.StopOracle([ServiceControl.Status(ServiceControl.Stopped)] + rest, control);
            !ServiceControl.StopService(o).controlSent && StopReports(catalog, ServiceControl.StopService(o).end) == []
  {
    var o := ServiceControl.StopOracle([ServiceControl.Status(ServiceControl.Stopped)] + rest, control);
    assert o.queries[0] == ServiceControl.Status(ServiceControl.Stopped);
    assert ServiceControl.StopService(o).end == ServiceControl.AlreadyStopped;
    assert !ServiceControl.Warns(ServiceControl.AlreadyStopped);
  }

  /** Warnings never raise the error flag: releasing the session changes
      the aggregator's buffer only. */
  lemma ReleaseKeepsErrorFlag(r: Results.Results, ops: seq<Results.Report>)
    requires forall k :: 0 <= k < |ops| ==> ops[k].WarningReport? || ops[k].WarningErrorReport?
    ensures Results.Run(r, ops).Some?
    ensures Results.Run(r, ops).value.errorSeen == r.errorSeen
    ensures Results.Run(r, ops).value.xml == r.xml && Results.Run(r, ops).value.context == r.context
    decreases |ops|
  {
    if |ops| > 0 {
      ReleaseKeepsErrorFlag(Results.Apply(r, ops[0]).value, ops[1..]);
    }
  }
}

=== FILE: results.dfy ===
/** The result aggregator of the newer tools (src/include/ntutils/results.h):
    everything a run reports goes into one buffer, as XML elements or as
    plain lines prefixed by the labels of the enclosing contexts; a sticky
    flag remembers whether an error was reported. The remote service sends
    its buffer back to the client, which merges it into its own. */
module Results {
  import opened Wrappers
  import Text
  import Message
  import Errors
  import StrToUL

  /** `program_results`: output mode, sticky error flag, output buffer, and
      the stack of context labels (plain mode only). */
  datatype Results = Results(xml: bool, errorSeen: bool, buffer: string, context: seq<string>)

  /** The state after construction. */
  const Initial: Results := Results(false, false, "", [])

  /** `handle_option`: `--xml` (-x) switches to XML output. */
  function HandleOption(r: Results, option: char): (h: Handling<Results>)
    ensures h.Handled? <==> option == 'x'
    ensures h.Handled? ==> h.state == r.(xml := true)
    ensures !h.Rejected?
  {
    if option == 'x' then Handled(r.(xml := true)) else Unhandled
  }

  /** `get_context_string`: every label followed by ": ", outermost first. */
  function ContextString(context: seq<string>): string
    decreases |context|
  {
    if |context| == 0 then ""
    else ContextString(context[..|context| - 1]) + context[|context| - 1] + ": "
  }

  /** The prefix of a stack is the prefix of its context string. */
  lemma {:induction false} ContextStringConcat(a: seq<string>, b: seq<string>)
    ensures ContextString(a + b) == ContextString(a) + ContextString(b)
    decreases |b|
  {
    if |b| > 0 {
      var n := |b| - 1;
      assert (a + b)[..|a + b| - 1] == a + b[..n];
      assert (a + b)[|a + b| - 1] == b[n];
      ContextStringConcat(a, b[..n]);
      assert ContextString(a + b) == ContextString(a + b[..n]) + b[n] + ": ";
      assert ContextString(b) == ContextString(b[..n]) + b[n] + ": ";
    } else {
      assert a + b == a;
    }
  }

  /** Two nested contexts "A" and "B" prefix each line with "A: B: ". */
  lemma ContextStringTwo(outer: string, inner: string)
    ensures ContextString([outer, inner]) == outer + ": " + inner + ": "
  {
    assert [outer, inner][..1] == [outer];
    assert [outer][..0] == [];
    assert ContextString([outer]) == "" + outer + ": ";
  }

  /** A plain-mode line: the context prefix, the text, a newline. */
  function Line(r: Results, text: string): string {
    ContextString(r.context) + text + "\n"
  }

  /** Adds `text` at the end of the buffer and changes nothing else. */
  function Append(r: Results, text: string): (r': Results)
    ensures |r'.buffer| == |r.buffer| + |text|
    ensures r'.buffer[..|r.buffer|] == r.buffer && r'.buffer[|r.buffer|..] == text
    ensures r'.xml == r.xml && r'.context == r.context && r'.errorSeen == r.errorSeen
  {
    r.(buffer := r.buffer + text)
  }

  /** `report_error`: sets the sticky flag and adds the error's XML form, or
      its message as a line. */
  function ReportError(r: Results, e: Errors.Error): (r': Results)
    ensures r'.errorSeen && r'.xml == r.xml && r'.context == r.context
    ensures r'.buffer == r.buffer + (if r.xml then e.xml else Line(r, e.message))
  {
    Append(r, if r.xml then e.xml else Line(r, e.message)).(errorSeen := true)
  }

  /** `report_warning(msg)`. */
  function ReportWarning(r: Results, message: string): (r': Results)
    ensures r'.errorSeen == r.errorSeen && r'.context == r.context
    ensures r.xml ==> r'.buffer == r.buffer + "<warning message=" + Text.XmlAttributeValue(message) + " />"
    ensures !r.xml ==> r'.buffer == r.buffer + Line(r, "Warning: " + message)
  {
    if r.xml then Append(r, "<warning message=" + Text.XmlAttributeValue(message) + " />")
    else Append(r, Line(r, "Warning: " + message))
  }

  /** `report_warning(error)`: the error's XML form inside a warning
      element, or its message as a warning line. */
  function ReportWarningError(r: Results, e: Errors.Error): (r': Results)
    ensures r'.errorSeen == r.errorSeen && r'.context == r.context
    ensures r.xml ==> r'.buffer == r.buffer + "<warning>" + e.xml + "</warning>"
    ensures !r.xml ==> r'.buffer == r.buffer + Line(r, "Warning: " + e.message)
  {
    if r.xml then Append(r, "<warning>" + e.xml + "</warning>")
    else Append(r, Line(r, "Warning: " + e.message))
  }

  /** `report_result(msg, attributes)`: in XML the attributes when given,
      otherwise the message as the value attribute; plain mode prints the
      message only. */
  function ReportResult(r: Results, message: string, attributes: string): (r': Results)
    ensures r.xml ==> r' == r.(buffer := r.buffer + ResultElement(message, attributes))
    ensures !r.xml ==> r' == r.(buffer := r.buffer + Line(r, message))
  {
    if r.xml then Append(r, ResultElement(message, attributes)) else Append(r, Line(r, message))
  }

  /** The XML result record: the attributes when given, otherwise the
      message, escaped, as the value attribute. */
  function ResultElement(message: string, attributes: string): (x: string)
    ensures attributes == "" ==> x == "<result value=" + Text.XmlAttributeValue(message) + " />"
    ensures attributes != "" ==> x == "<result " + attributes + " />"
  {
    if attributes == "" then "<result value=" + Text.XmlAttributeValue(message) + " />"
    else "<result " + attributes + " />"
  }

  /** `report_info`: only XML output carries info records. */
  function ReportInfo(r: Results, attributes: string): (r': Results)
    ensures r.xml ==> r' == r.(buffer := r.buffer + "<info " + attributes + " />")
    ensures !r.xml ==> r' == r
  {
    if r.xml then Append(r, "<info " + attributes + " />") else r
  }

  /** `return_code`. */
  function ReturnCode(r: Results): (code: int)
    ensures code == -1 <==> r.errorSeen
    ensures code == 0 <==> !r.errorSeen
  {
    if r.errorSeen then -1 else 0
  }

  /** `register_context`: XML opens a context element; plain mode pushes the
      label instead. */
  function RegisterContext(r: Results, caption: string, attributes: string): (r': Results)
    ensures r'.xml == r.xml && r'.errorSeen == r.errorSeen
    ensures r.xml ==> r'.context == r.context && r'.buffer == r.buffer + "<context " + attributes + ">"
    ensures !r.xml ==> r'.context == r.context + [caption] && r'.buffer == r.buffer
  {
    if r.xml then Append(r, "<context " + attributes + ">") else r.(context := r.context + [caption])
  }

  /** `unregister_context`: closes the element, or pops the label; popping
      needs a label to pop. */
  function UnregisterContext(r: Results): (r': Results)
    requires r.xml || |r.context| > 0
    ensures r'.xml == r.xml && r'.errorSeen == r.errorSeen
    ensures r.xml ==> r'.context == r.context && r'.buffer == r.buffer + "</context>"
    ensures !r.xml ==> r'.context + [r.context[|r.context| - 1]] == r.context && r'.buffer == r.buffer
  {
    if r.xml then Append(r, "</context>") else r.(context := r.context[..|r.context| - 1])
  }

  // ---------------------------------------------------------------------
  // Context labels
  // ---------------------------------------------------------------------

  /** `computer_context`: the label and the XML attributes for one remote
      computer. */
  function ComputerContext(computer: string): (c: (string, string))
    ensures c.0 == computer
    ensures '<' !in c.1
    ensures c.1 == "computer=" + Text.XmlAttributeValue(computer)
  {
    (computer, "computer=" + Text.XmlAttributeValue(computer))
  }

  /** The computer attribute names the computer: it reads back. */
  lemma ComputerContextInjective(a: string, b: string)
    requires ComputerContext(a).1 == ComputerContext(b).1
    ensures a == b
  {
    Errors.DropPrefix("computer=", Text.XmlAttributeValue(a), Text.XmlAttributeValue(b));
  }

  /** `process_context`: "name (pid)" and the name and pid attributes. */
  function ProcessContext(name: string, id: U32): (c: (string, string))
    ensures c.0 == name + " (" + Text.Decimal(id) + ")"
    ensures '<' !in c.1
    ensures c.1 == "process_name=" + Text.XmlAttributeValue(name) + " process_id='" + Text.Decimal(id) + "'"
  {
    Text.DecimalHasNoMarkup(id);
    (name + " (" + Text.Decimal(id) + ")",
     "process_name=" + Text.XmlAttributeValue(name) + " process_id='" + Text.Decimal(id) + "'")
  }

  /** The process attributes name the process: the name and the pid read
      back. */
  lemma ProcessContextInjective(n1: string, i1: U32, n2: string, i2: U32)
    requires ProcessContext(n1, i1).1 == ProcessContext(n2, i2).1
    ensures n1 == n2 && i1 == i2
  {
    Errors.ValueQuoted(n1);
    Errors.ValueQuoted(n2);
    ProcessAttributesReadBack(Text.XmlAttributeValue(n1), Text.Decimal(i1), Text.XmlAttributeValue(n2), Text.Decimal(i2));
    DecimalInjective(i1, i2);
  }

  /** Reading the process attributes back: the quoted name ends at its
      closing quote, and the pid digits end before the final quote. */
  lemma ProcessAttributesReadBack(w1: string, t1: string, w2: string, t2: string)
    requires Errors.Quoted(w1) && Errors.Quoted(w2)
    requires "process_name=" + w1 + " process_id='" + t1 + "'" == "process_name=" + w2 + " process_id='" + t2 + "'"
    ensures w1 == w2 && t1 == t2
  {
    var r1, r2 := " process_id='" + (t1 + "'"), " process_id='" + (t2 + "'");
    assert "process_name=" + w1 + " process_id='" + t1 + "'" == "process_name=" + (w1 + r1);
    assert "process_name=" + w2 + " process_id='" + t2 + "'" == "process_name=" + (w2 + r2);
    Errors.DropPrefix("process_name=", w1 + r1, w2 + r2);
    Errors.QuotedSplit(w1, r1, w2, r2);
    Errors.DropPrefix(" process_id='", t1 + "'", t2 + "'");
    Errors.DropSuffix(t1, t2, "'");
  }

  /** Decimal digits name one number. */
  lemma DecimalInjective(a: U32, b: U32)
    requires Text.Decimal(a) == Text.Decimal(b)
    ensures a == b
  {
    StrToUL.DecimalRoundTrip(a);
    StrToUL.DecimalRoundTrip(b);
  }

  // ---------------------------------------------------------------------
  // Output mode and contexts sent to the service
  // ---------------------------------------------------------------------

  /** The labels, each as a length-prefixed string. */
  function EncodeLabels(msg: string, labels: seq<string>): (r: string)
    ensures |r| >= |msg| && r[..|msg|] == msg
    decreases |labels|
  {
    if |labels| == 0 then msg
    else
      var r := EncodeLabels(Message.EncodeString(msg, labels[0]), labels[1..]);
      assert r[..|msg|] == Message.EncodeString(msg, labels[0])[..|msg|];
      r
  }

  /** `encode_message`: 'x' or 'n', the number of labels, the labels. */
  function EncodeMessage(msg: string, r: Results): (m: string)
    ensures |m| >= |msg| + 5 && m[..|msg|] == msg
    ensures m[|msg|] == (if r.xml then 'x' else 'n')
  {
    var head := Message.EncodeBinary(msg + [if r.xml then 'x' else 'n'], |r.context| % Message.Modulus);
    var m := EncodeLabels(head, r.context);
    assert m[..|msg| + 1] == head[..|msg| + 1];
    m
  }

  /** The loop of `decode_message`: `count` labels, each pushed in turn. */
  function DecodeLabels(msg: string, i: nat, count: nat): (r: Result<(seq<string>, nat), string>)
    requires i <= |msg|
    ensures r.Ok? ==> |r.value.0| == count && i <= r.value.1 <= |msg|
    ensures r.Err? ==> r.error == Message.Incomplete("context")
    decreases count
  {
    if count == 0 then Ok(([], i))
    else match Message.DecodeString(msg, i, "context")
      case Err(e) => Err(e)
      case Ok((first, j)) =>
        match DecodeLabels(msg, j, count - 1)
        case Err(e) => Err(e)
        case Ok((labels, k)) => Ok(([first] + labels, k))
  }

  function NoOutputFormat(): string { "Invalid message recieved: no output format" }

  /** `decode_message` into `r`: the output mode, then the labels pushed
      onto its stack. */
  function DecodeMessage(r: Results, msg: string, i: nat): (d: Result<(Results, nat), string>)
    requires i <= |msg|
    ensures i == |msg| ==> d == Err(NoOutputFormat())
    ensures i < |msg| && msg[i] !in {'x', 'n'} ==> d == Err("Invalid message received: unknown output format")
    ensures d.Ok? ==> i < d.value.1 <= |msg|
                      && d.value.0.xml == (r.xml || msg[i] == 'x')
                      && d.value.0.errorSeen == r.errorSeen && d.value.0.buffer == r.buffer
                      && |d.value.0.context| >= |r.context| && d.value.0.context[..|r.context|] == r.context
  {
    if i == |msg| then Err(NoOutputFormat())
    else if msg[i] !in {'x', 'n'} then Err("Invalid message received: unknown output format")
    else
      var r1 := if msg[i] == 'x' then r.(xml := true) else r;
      match Message.DecodeBinary(msg, i + 1, "context")
      case Err(e) => Err(e)
      case Ok((count, j)) =>
        match DecodeLabels(msg, j, count)
        case Err(e) => Err(e)
        case Ok((labels, k)) =>
          assert (r1.context + labels)[..|r.context|] == r.context;
          Ok((r1.(context := r1.context + labels), k))
  }

  /** The labels the loop of `decode_message` has pushed when it stops:
      all `count` of them, or those read before the first that fails. */
  function PushedLabels(msg: string, i: nat, count: nat): (ls: seq<string>)
    requires i <= |msg|
    ensures |ls| <= count
    ensures DecodeLabels(msg, i, count).Ok? ==> ls == DecodeLabels(msg, i, count).value.0
    ensures DecodeLabels(msg, i, count).Err? ==> |ls| < count
    decreases count
  {
    if count == 0 then []
    else match Message.DecodeString(msg, i, "context")
      case Err(_) => []
      case Ok((first, j)) => [first] + PushedLabels(msg, j, count - 1)
  }

  /** The aggregator after `decode_message`, whether or not it throws: the
      mode is switched as soon as an 'x' is read, and each label is pushed
      as soon as it is read, so a later failure leaves both in place. */
  function DecodeMessageEffect(r: Results, msg: string, i: nat): (r': Results)
    requires i <= |msg|
    ensures r'.errorSeen == r.errorSeen && r'.buffer == r.buffer
    ensures r'.xml == (r.xml || (i < |msg| && msg[i] == 'x'))
    ensures |r'.context| >= |r.context| && r'.context[..|r.context|] == r.context
    ensures (i == |msg| || msg[i] !in {'x', 'n'}) ==> r' == r
    ensures DecodeMessage(r, msg, i).Ok? ==> r' == DecodeMessage(r, msg, i).value.0
    ensures i < |msg| && msg[i] in {'x', 'n'} && Message.DecodeBinary(msg, i + 1, "context").Ok? ==>
              var (count, j) := Message.DecodeBinary(msg, i + 1, "context").value;
              r'.context == r.context + PushedLabels(msg, j, count)
  {
    if i == |msg| || msg[i] !in {'x', 'n'} then r
    else
      var r1 := if msg[i] == 'x' then r.(xml := true) else r;
      match Message.DecodeBinary(msg, i + 1, "context")
      case Err(_) => r1
      case Ok((count, j)) =>
        var labels := PushedLabels(msg, j, count);
        assert (r1.context + labels)[..|r.context|] == r.context;
        r1.(context := r1.context + labels)
  }

  predicate EncodableLabels(labels: seq<string>) {
    forall k :: 0 <= k < |labels| ==> Text.NulFree(labels[k]) && |labels[k]| < Message.Modulus
  }

  lemma {:induction false} DecodeLabelsEncodeLabels(prefix: string, labels: seq<string>, rest: string)
    requires EncodableLabels(labels)
    ensures DecodeLabels(EncodeLabels(prefix, labels) + rest, |prefix|, |labels|)
            == Ok((labels, |EncodeLabels(prefix, labels)|))
    decreases |labels|
  {
    if |labels| > 0 {
      var first := Message.EncodeString(prefix, labels[0]);
      var tail := EncodeLabels(first, labels[1..]);
      assert tail == EncodeLabels(prefix, labels);
      assert tail + rest == first + (tail[|first|..] + rest) by {
        assert tail[..|first|] == first;
      }
      Message.DecodeStringEncodeString(prefix, labels[0], tail[|first|..] + rest, "context");
      assert |first| == |prefix| + 4 + |labels[0]|;
      DecodeLabelsEncodeLabels(first, labels[1..], rest);
      assert [labels[0]] + labels[1..] == labels;
    }
  }

  /** The three fields `encode_message` writes, each read back in turn. */
  lemma MessageFields(r: Results, prefix: string, rest: string)
    requires EncodableLabels(r.context) && |r.context| < Message.Modulus
    ensures var msg := EncodeMessage(prefix, r) + rest;
            |msg| >= |prefix| + 5
            && msg[|prefix|] == (if r.xml then 'x' else 'n')
            && Message.DecodeBinary(msg, |prefix| + 1, "context") == Ok((|r.context|, |prefix| + 5))
            && DecodeLabels(msg, |prefix| + 5, |r.context|) == Ok((r.context, |EncodeMessage(prefix, r)|))
  {
    var tagged := prefix + [if r.xml then 'x' else 'n'];
    var head := Message.EncodeBinary(tagged, |r.context|);
    MessageSplit(r, prefix, rest);
    Message.DecodeBinaryEncodeBinary(tagged, |r.context|, EncodeMessage(prefix, r)[|head|..] + rest, "context");
    DecodeLabelsEncodeLabels(head, r.context, rest);
  }

  /** The encoded message is its head (tag and count) followed by the labels. */
  lemma MessageSplit(r: Results, prefix: string, rest: string)
    requires |r.context| < Message.Modulus
    ensures var head := Message.EncodeBinary(prefix + [if r.xml then 'x' else 'n'], |r.context|);
            var m := EncodeMessage(prefix, r);
            |head| == |prefix| + 5 && m == EncodeLabels(head, r.context)
            && m + rest == head + (m[|head|..] + rest)
  {
    var head := Message.EncodeBinary(prefix + [if r.xml then 'x' else 'n'], |r.context|);
    var m := EncodeMessage(prefix, r);
    EncodeMessageLabels(r, prefix);
    SplitAfter(m, head, rest);
  }

  /** Below 2^32 labels the count is written exactly. */
  lemma EncodeMessageLabels(r: Results, prefix: string)
    requires |r.context| < Message.Modulus
    ensures EncodeMessage(prefix, r) == EncodeLabels(Message.EncodeBinary(prefix + [if r.xml then 'x' else 'n'], |r.context|), r.context)
  {
    assert |r.context| % Message.Modulus == |r.context|;
  }

  /** A string that starts with `head` is `head` and the remainder. */
  lemma SplitAfter(m: string, head: string, rest: string)
    requires |head| <= |m| && m[..|head|] == head
    ensures m + rest == head + (m[|head|..] + rest)
  {
    assert m == head + m[|head|..];
  }

  /** The service, starting from a fresh aggregator, recovers the client's
      output mode and context labels. */
  lemma DecodeMessageEncodeMessage(r: Results, prefix: string, rest: string)
    requires EncodableLabels(r.context) && |r.context| < Message.Modulus
    ensures DecodeMessage(Initial, EncodeMessage(prefix, r) + rest, |prefix|)
            == Ok((Initial.(xml := r.xml, context := r.context), |EncodeMessage(prefix, r)|))
  {
    MessageFields(r, prefix, rest);
    assert [] + r.context == r.context;
  }

  // ---------------------------------------------------------------------
  // The response
  // ---------------------------------------------------------------------

  /** `encode_response`: '1' if an error was seen, else '0'; then the buffer. */
  function EncodeResponse(msg: string, r: Results): (m: string)
    ensures |m| >= |msg| + 5 && m[..|msg|] == msg
    ensures m[|msg|] == '1' <==> r.errorSeen
    ensures m[|msg|] in {'0', '1'}
  {
    var m := Message.EncodeString(msg + [if r.errorSeen then '1' else '0'], r.buffer);
    assert m[..|msg| + 1] == msg + [if r.errorSeen then '1' else '0'];
    m
  }

  /** The service's flag and text as the client reads them, or the
      description of what is wrong with the response. */
  function ParseResponse(msg: string, i: nat): (p: Result<(bool, string), string>)
    requires i <= |msg|
    ensures p.Ok? <==> i < |msg| && msg[i] in {'0', '1'} && Message.DecodeString(msg, i + 1, "result").Ok?
    ensures p.Ok? ==> p.value.0 == (msg[i] == '1')
                      && p.value.1 == Message.DecodeString(msg, i + 1, "result").value.0
  {
    if i == |msg| then Err("Invalid message recieved: no result")
    else if msg[i] !in {'0', '1'} then Err("Invalid message received: unknown result")
    else match Message.DecodeString(msg, i + 1, "result")
      case Err(e) => Err(e)
      case Ok((text, _)) => Ok((msg[i] == '1', text))
  }

  /** `decode_response`: merges the service's flag and text into `r`. Every
      malformed response is reported as a General error instead of escaping
      (a '1' read before the failure changes nothing, since reporting the
      error sets the flag anyway). */
  function DecodeResponse(r: Results, msg: string, i: nat): (r': Results)
    requires i <= |msg|
    ensures r'.xml == r.xml && r'.context == r.context
    ensures |r'.buffer| >= |r.buffer| && r'.buffer[..|r.buffer|] == r.buffer
    ensures r.errorSeen ==> r'.errorSeen
    ensures ParseResponse(msg, i).Err? ==> r' == ReportError(r, Errors.General(ParseResponse(msg, i).error))
    ensures ParseResponse(msg, i).Ok? ==>
              r'.errorSeen == (r.errorSeen || ParseResponse(msg, i).value.0)
              && r'.buffer == r.buffer + ParseResponse(msg, i).value.1
  {
    match ParseResponse(msg, i)
    case Err(e) => ReportError(r, Errors.General(e))
    case Ok((flag, text)) => Append(r.(errorSeen := r.errorSeen || flag), text)
  }

  /** The client's aggregator takes over the service's flag and output. */
  lemma DecodeResponseEncodeResponse(client: Results, service: Results, prefix: string, rest: string)
    requires Text.NulFree(service.buffer) && |service.buffer| < Message.Modulus
    ensures DecodeResponse(client, EncodeResponse(prefix, service) + rest, |prefix|)
            == client.(errorSeen := client.errorSeen || service.errorSeen,
                       buffer := client.buffer + service.buffer)
  {
    var tagged := prefix + [if service.errorSeen then '1' else '0'];
    var msg := EncodeResponse(prefix, service) + rest;
    assert msg == Message.EncodeString(tagged, service.buffer) + rest;
    Message.DecodeStringEncodeString(tagged, service.buffer, rest, "result");
    assert ParseResponse(msg, |prefix|) == Ok((service.errorSeen, service.buffer));
  }

  // ---------------------------------------------------------------------
  // A run of reports
  // ---------------------------------------------------------------------

  /** The members that change the aggregator during a run. */
  datatype Report =
    | ErrorReport(e: Errors.Error)
    | WarningReport(message: string)
    | WarningErrorReport(e: Errors.Error)
    | ResultReport(message: string, attributes: string)
    | InfoReport(attributes: string)
    | Enter(caption: string, attributes: string)
    | Leave
    | Response(msg: string, i: nat)

  /** One report applied. Leaving a context with an empty stack in plain
      mode, and reading a response from past its end, are undefined in the
      original and stop the run here. */
  function Apply(r: Results, op: Report): Option<Results> {
    match op
    case ErrorReport(e) => Some(ReportError(r, e))
    case WarningReport(m) => Some(ReportWarning(r, m))
    case WarningErrorReport(e) => Some(ReportWarningError(r, e))
    case ResultReport(m, a) => Some(ReportResult(r, m, a))
    case InfoReport(a) => Some(ReportInfo(r, a))
    case Enter(l, a) => Some(RegisterContext(r, l, a))
    case Leave => if r.xml || |r.context| > 0 then Some(UnregisterContext(r)) else None
    case Response(msg, i) => if i <= |msg| then Some(DecodeResponse(r, msg, i)) else None
  }

  function Run(r: Results, ops: seq<Report>): Option<Results>
    decreases |ops|
  {
    if |ops| == 0 then Some(r)
    else match Apply(r, ops[0])
      case None => None
      case Some(r1) => Run(r1, ops[1..])
  }

  predicate CanSetError(op: Report) {
    op.ErrorReport? || op.Response?
  }

  /** No report clears the error flag, no report but an error report or a
      response sets it, and the output mode never changes. */
  lemma ApplyErrorSeen(r: Results, op: Report)
    requires Apply(r, op).Some?
    ensures r.errorSeen ==> Apply(r, op).value.errorSeen
    ensures !r.errorSeen && Apply(r, op).value.errorSeen ==> CanSetError(op)
    ensures Apply(r, op).value.xml == r.xml
  {
  }

  /** Over a whole run: the flag is sticky, and when it turns on some step
      was an error report or a response. */
  lemma {:induction false} RunErrorSeen(r: Results, ops: seq<Report>)
    requires Run(r, ops).Some?
    ensures r.errorSeen ==> Run(r, ops).value.errorSeen
    ensures !r.errorSeen && Run(r, ops).value.errorSeen ==> exists k :: 0 <= k < |ops| && CanSetError(ops[k])
    ensures Run(r, ops).value.xml == r.xml
    decreases |ops|
  {
    if |ops| > 0 {
      var r1 := Apply(r, ops[0]).value;
      ApplyErrorSeen(r, ops[0]);
      RunErrorSeen(r1, ops[1..]);
      if !r.errorSeen && Run(r, ops).value.errorSeen && !CanSetError(ops[0]) {
        var k :| 0 <= k < |ops[1..]| && CanSetError(ops[1..][k]);
        assert ops[k + 1] == ops[1..][k];
      }
    }
  }

  /** One report only appends to the buffer. */
  lemma ApplyAppendsOnly(r: Results, op: Report)
    requires Apply(r, op).Some?
    ensures |Apply(r, op).value.buffer| >= |r.buffer|
    ensures Apply(r, op).value.buffer[..|r.buffer|] == r.buffer
  {
  }

  /** Output is only ever appended: the buffer at the start of a run is a
      prefix of the buffer at its end. */
  lemma {:induction false} RunAppendsOnly(r: Results, ops: seq<Report>)
    requires Run(r, ops).Some?
    ensures |Run(r, ops).value.buffer| >= |r.buffer|
    ensures Run(r, ops).value.buffer[..|r.buffer|] == r.buffer
    decreases |ops|
  {
    if |ops| > 0 {
      var r1 := Apply(r, ops[0]).value;
      ApplyAppendsOnly(r, ops[0]);
      RunAppendsOnly(r1, ops[1..]);
      var b := Run(r, ops).value.buffer;
      assert b[..|r1.buffer|] == r1.buffer;
      assert b[..|r.buffer|] == r1.buffer[..|r.buffer|];
    }
  }

  /** In plain mode a result reported inside two nested contexts is printed
      after both labels, outermost first; leaving both restores the stack. */
  lemma NestedContexts(r: Results, a: string, b: string, message: string)
    requires !r.xml && r.context == []
    ensures var ops := [Enter(a, ""), Enter(b, ""), ResultReport(message, ""), Leave, Leave];
            Run(r, ops) == Some(r.(buffer := r.buffer + a + ": " + b + ": " + message + "\n"))
  {
    var r1, r2, r3, r4, r5 := NestedSteps(r, a, b, message);
    var ops := [Enter(a, ""), Enter(b, ""), ResultReport(message, ""), Leave, Leave];
    RunTrace([r, r1, r2, r3, r4, r5], ops);
  }

  /** The states the five reports of `NestedContexts` pass through. */
  lemma NestedSteps(r: Results, a: string, b: string, message: string)
    returns (r1: Results, r2: Results, r3: Results, r4: Results, r5: Results)
    requires !r.xml && r.context == []
    ensures Apply(r, Enter(a, "")) == Some(r1) && Apply(r1, Enter(b, "")) == Some(r2)
    ensures Apply(r2, ResultReport(message, "")) == Some(r3)
    ensures Apply(r3, Leave) == Some(r4) && Apply(r4, Leave) == Some(r5)
    ensures r5 == r.(buffer := r.buffer + a + ": " + b + ": " + message + "\n")
  {
    var line := a + ": " + b + ": " + message + "\n";
    r1 := r.(context := [a]);
    r2 := r.(context := [a, b]);
    r3 := r2.(buffer := r.buffer + line);
    r4 := r3.(context := [a]);
    r5 := r.(buffer := r.buffer + line);
    assert RegisterContext(r, a, "") == r1;
    assert RegisterContext(r1, b, "") == r2;
    PlainResultInTwo(r2, a, b, message);
    assert UnregisterContext(r3) == r4;
    assert UnregisterContext(r4) == r5;
    assert r.buffer + line == r.buffer + a + ": " + b + ": " + message + "\n";
  }

  /** A plain result under the labels `a` and `b`. */
  lemma PlainResultInTwo(r: Results, a: string, b: string, message: string)
    requires !r.xml && r.context == [a, b]
    ensures ReportResult(r, message, "") == r.(buffer := r.buffer + (a + ": " + b + ": " + message + "\n"))
  {
    ContextStringTwo(a, b);
  }

  /** Reports that each take one state to the next run from the first
      state to the last. */
  lemma {:induction false} RunTrace(states: seq<Results>, ops: seq<Report>)
    requires |states| == |ops| + 1
    requires forall k :: 0 <= k < |ops| ==> Apply(states[k], ops[k]) == Some(states[k + 1])
    ensures Run(states[0], ops) == Some(states[|ops|])
    decreases |ops|
  {
    if |ops| > 0 {
      var rest, later := states[1..], ops[1..];
      assert Apply(states[0], ops[0]) == Some(rest[0]);
      forall k | 0 <= k < |later|
        ensures Apply(rest[k], later[k]) == Some(rest[k + 1])
      {
        assert rest[k] == states[k + 1] && rest[k + 1] == states[k + 2] && later[k] == ops[k + 1];
      }
      RunTrace(rest, later);
      assert rest[|later|] == states[|ops|];
    }
  }


  /** In XML mode a context is an element around what is reported inside
      it, and the label stack is not used. */
  lemma XmlContext(r: Results, caption: string, attributes: string, info: string)
    requires r.xml
    ensures var ops := [Enter(caption, attributes), InfoReport(info), Leave];
            Run(r, ops) == Some(r.(buffer := r.buffer + "<context " + attributes + ">" + "<info " + info + " />" + "</context>"))
  {
    var r1, r2, r3 := XmlSteps(r, caption, attributes, info);
    RunTrace([r, r1, r2, r3], [Enter(caption, attributes), InfoReport(info), Leave]);
  }

  /** The states the three reports of `XmlContext` pass through. */
  lemma XmlSteps(r: Results, caption: string, attributes: string, info: string) returns (r1: Results, r2: Results, r3: Results)
    requires r.xml
    ensures Apply(r, Enter(caption, attributes)) == Some(r1) && Apply(r1, InfoReport(info)) == Some(r2)
    ensures Apply(r2, Leave) == Some(r3)
    ensures r3 == r.(buffer := r.buffer + "<context " + attributes + ">" + "<info " + info + " />" + "</context>")
  {
    r1 := RegisterContext(r, caption, attributes);
    r2 := ReportInfo(r1, info);
    r3 := UnregisterContext(r2);
    var opening, inner := "<context " + attributes + ">", "<info " + info + " />";
    assert r3.buffer == r.buffer + opening + inner + "</context>";
    assert r.buffer + opening == r.buffer + "<context " + attributes + ">";
    assert r.buffer + opening + inner == r.buffer + "<context " + attributes + ">" + "<info " + info + " />";
  }
}

=== FILE: service_control.dfy ===
/** The service-status logic the remote client runs against the service
    control manager: waiting for a service to leave a pending state, and
    stopping it when the client is done (the `remote_service_start`
    destructor, include/ntutils/remote_ops.h and
    src/include/ntutils/remote_ops.h). The manager's answers are an input:
    each status query either reports a state or fails with a code. */
module ServiceControl {
  import opened Wrappers

  /** `dwCurrentState`. */
  datatype ServiceState = Stopped | StartPending | StopPending | Running | ContinuePending | PausePending | Paused

  /** One answer to `QueryServiceStatus`. */
  datatype Query = Status(state: ServiceState) | QueryFailed(code: U32)

  /** How a polling wait ends: the first state that is not the pending one
      (with the number of queries it took), a failed query, or no further
      answer (the original polls without bound). */
  datatype WaitEnd = Settled(state: ServiceState, used: nat) | WaitFailed(code: U32, used: nat) | StillPending

  /** The first `n` answers all report the pending state. */
  predicate AllPending(queries: seq<Query>, pending: ServiceState, n: nat)
    requires n <= |queries|
  {
    forall k :: 0 <= k < n ==> queries[k] == Status(pending)
  }

  /** The loop `while (state == pending) { Sleep; state = query(); }`,
      starting from state `first`. */
  function Wait(pending: ServiceState, first: ServiceState, queries: seq<Query>): (r: WaitEnd)
    ensures r.Settled? ==> r.state != pending && r.used <= |queries|
    ensures r.Settled? && r.used > 0 ==> queries[r.used - 1] == Status(r.state)
    ensures r.Settled? && r.used == 0 ==> r.state == first
    ensures r.WaitFailed? ==> 0 < r.used <= |queries| && queries[r.used - 1] == QueryFailed(r.code)
    ensures r.Settled? && r.used > 0 ==> AllPending(queries, pending, r.used - 1)
    ensures r.WaitFailed? ==> AllPending(queries, pending, r.used - 1)
    ensures first != pending <==> r == Settled(first, 0)
    decreases |queries|
  {
    if first != pending then Settled(first, 0)
    else if |queries| == 0 then StillPending
    else match queries[0]
      case QueryFailed(code) => WaitFailed(code, 1)
      case Status(s) =>
        match Wait(pending, s, queries[1..])
        case Settled(t, n) => Settled(t, n + 1)
        case WaitFailed(c, n) => WaitFailed(c, n + 1)
        case StillPending => StillPending
  }

  /** A wait that runs out of answers saw only the pending state. */
  lemma {:induction false} StillPendingAllPending(pending: ServiceState, first: ServiceState, queries: seq<Query>)
    requires Wait(pending, first, queries) == StillPending
    ensures first == pending && AllPending(queries, pending, |queries|)
    decreases |queries|
  {
    if |queries| > 0 {
      StillPendingAllPending(pending, queries[0].state, queries[1..]);
      forall k | 0 <= k < |queries| ensures queries[k] == Status(pending) {
        if k > 0 { assert queries[k] == queries[1..][k - 1]; }
      }
    }
  }

  /** The polling loop itself, over the answers in order. */
  method PollWhile(pending: ServiceState, first: ServiceState, queries: seq<Query>) returns (r: WaitEnd)
    ensures r == Wait(pending, first, queries)
  {
    var state := first;
    var k := 0;
    while state == pending
      invariant 0 <= k <= |queries|
      invariant Wait(pending, first, queries) == Shift(Wait(pending, state, queries[k..]), k)
      decreases |queries| - k
    {
      if k == |queries| {
        return StillPending;
      }
      WaitStep(pending, first, state, queries, k);
      match queries[k]
      case QueryFailed(code) =>
        return WaitFailed(code, k + 1);
      case Status(s) =>
        state := s;
        k := k + 1;
    }
    return Settled(state, k);
  }

  /** One pass of the loop at answer `k`: the failure it returns, or the
      invariant one answer further on. */
  lemma WaitStep(pending: ServiceState, first: ServiceState, state: ServiceState, queries: seq<Query>, k: nat)
    requires state == pending && k < |queries|
    requires Wait(pending, first, queries) == Shift(Wait(pending, state, queries[k..]), k)
    ensures queries[k].QueryFailed? ==> Wait(pending, first, queries) == WaitFailed(queries[k].code, k + 1)
    ensures queries[k].Status? ==>
              Wait(pending, first, queries) == Shift(Wait(pending, queries[k].state, queries[k + 1..]), k + 1)
  {
    assert queries[k..][0] == queries[k];
    assert queries[k..][1..] == queries[k + 1..];
  }

  /** A wait result seen from `k` answers earlier. */
  function Shift(r: WaitEnd, k: nat): WaitEnd {
    match r
    case Settled(s, n) => Settled(s, n + k)
    case WaitFailed(c, n) => WaitFailed(c, n + k)
    case StillPending => StillPending
  }

  // ---------------------------------------------------------------------
  // Stopping the service
  // ---------------------------------------------------------------------

  /** What the manager answers while the client stops the service: the
      status queries in order, and the status a successful stop control
      returns (None when the control fails). */
  datatype StopOracle = StopOracle(queries: seq<Query>, control: Option<ServiceState>)

  /** How the stop ends: it was stopped already; it stopped; it settled in
      another state ("would not stop"); a status query failed; or it is
      still stopping when the answers run out. */
  datatype StopEnd = AlreadyStopped | NowStopped | WouldNotStop(state: ServiceState) | StopQueryFailed(code: U32) | StillStopping

  /** The stop, and whether the stop control was sent. */
  datatype StopRun = StopRun(controlSent: bool, end: StopEnd)

  /** The end of a wait for STOP_PENDING to pass. */
  function AfterStopWait(w: WaitEnd): StopEnd {
    match w
    case Settled(s, _) => if s == Stopped then NowStopped else WouldNotStop(s)
    case WaitFailed(c, _) => StopQueryFailed(c)
    case StillPending => StillStopping
  }

  /** The first query reports a service that is neither stopped nor
      already stopping, so the stop control is sent. */
  predicate SendsStop(o: StopOracle) {
    |o.queries| > 0 && o.queries[0].Status? && o.queries[0].state != Stopped && o.queries[0].state != StopPending
  }

  /** The `remote_service_start` destructor: query; if the service is not
      stopped and not already stopping, send the stop control (on failure,
      query again); then wait while it is stopping and check that it
      stopped. */
  function StopService(o: StopOracle): (r: StopRun)
    ensures r.controlSent <==> SendsStop(o)
    ensures r.end == AlreadyStopped <==> |o.queries| > 0 && o.queries[0] == Status(Stopped)
    ensures |o.queries| > 0 && o.queries[0].QueryFailed? ==> r == StopRun(false, StopQueryFailed(o.queries[0].code))
    ensures |o.queries| > 0 && o.queries[0] == Status(StopPending) ==>
              r.end == AfterStopWait(Wait(StopPending, StopPending, o.queries[1..]))
    ensures SendsStop(o) && o.control.Some? ==>
              r.end == AfterStopWait(Wait(StopPending, o.control.value, o.queries[1..]))
    ensures SendsStop(o) && o.control.None? && |o.queries| > 1 ==>
              r.end == (if o.queries[1].QueryFailed? then StopQueryFailed(o.queries[1].code)
                        else AfterStopWait(Wait(StopPending, o.queries[1].state, o.queries[2..])))
    ensures SendsStop(o) && o.control.None? && |o.queries| == 1 ==> r.end == StillStopping
  {
    if |o.queries| == 0 then StopRun(false, StillStopping)
    else match o.queries[0]
      case QueryFailed(c) => StopRun(false, StopQueryFailed(c))
      case Status(s) =>
        if s == Stopped then StopRun(false, AlreadyStopped)
        else if s == StopPending then StopRun(false, AfterStopWait(Wait(StopPending, s, o.queries[1..])))
        else match o.control
          case Some(t) => StopRun(true, AfterStopWait(Wait(StopPending, t, o.queries[1..])))
          case None =>
            if |o.queries| == 1 then StopRun(true, StillStopping)
            else match o.queries[1]
              case QueryFailed(c) => StopRun(true, StopQueryFailed(c))
              case Status(t) => StopRun(true, AfterStopWait(Wait(StopPending, t, o.queries[2..])))
  }

  /** The endings that `remote_service_start` reports as a warning. */
  predicate Warns(e: StopEnd) {
    e.WouldNotStop? || e.StopQueryFailed?
  }

  /** `n` answers that the service is still stopping. */
  function Stopping(n: nat): (qs: seq<Query>)
    ensures |qs| == n && forall k :: 0 <= k < n ==> qs[k] == Status(StopPending)
  {
    seq(n, _ => Status(StopPending))
  }

  /** A wait for STOP_PENDING to pass that sees `n` more pending answers and
      then `t` settles on `t` after `n + 1` queries. */
  lemma {:induction false} WaitThroughStopping(n: nat, t: ServiceState, rest: seq<Query>)
    requires t != StopPending
    ensures Wait(StopPending, StopPending, Stopping(n) + [Status(t)] + rest) == Settled(t, n + 1)
    decreases n
  {
    var qs := Stopping(n) + [Status(t)] + rest;
    if n == 0 {
      assert qs[0] == Status(t) && qs[1..] == rest;
    } else {
      assert qs[0] == Status(StopPending);
      assert qs[1..] == Stopping(n - 1) + [Status(t)] + rest;
      WaitThroughStopping(n - 1, t, rest);
    }
  }

  /** Stopping a service that is neither stopped nor stopping: the stop
      control is sent and answers STOP_PENDING, the service stays pending for
      `n` queries and then reports `t`. It stopped when `t` is STOPPED, and
      otherwise would not stop. */
  lemma StopAfterControl(first: ServiceState, n: nat, t: ServiceState, rest: seq<Query>)
    requires first != Stopped && first != StopPending && t != StopPending
    ensures StopService(StopOracle([Status(first)] + (Stopping(n) + [Status(t)] + rest), Some(StopPending)))
            == StopRun(true, if t == Stopped then NowStopped else WouldNotStop(t))
  {
    WaitThroughStopping(n, t, rest);
    assert ([Status(first)] + (Stopping(n) + [Status(t)] + rest))[1..] == Stopping(n) + [Status(t)] + rest;
  }

  /** The same when the stop control fails: the status is queried again,
      and the wait starts from that answer. */
  lemma StopAfterFailedControl(first: ServiceState, n: nat, t: ServiceState, rest: seq<Query>)
    requires first != Stopped && first != StopPending && t != StopPending
    ensures StopService(StopOracle([Status(first), Status(StopPending)] + (Stopping(n) + [Status(t)] + rest), None))
            == StopRun(true, if t == Stopped then NowStopped else WouldNotStop(t))
  {
    WaitThroughStopping(n, t, rest);
    var qs := [Status(first), Status(StopPending)] + (Stopping(n) + [Status(t)] + rest);
    assert qs[1] == Status(StopPending);
    assert qs[2..] == Stopping(n) + [Status(t)] + rest;
  }

  /** A service that stops when told sends no warning. */
  lemma StopRunningService(rest: seq<Query>)
    ensures StopService(StopOracle([Status(Running)] + rest, Some(Stopped))) == StopRun(true, NowStopped)
  {
    assert ([Status(Running)] + rest)[1..] == rest;
  }
}

=== FILE: strtoul.dfy ===
/** `_tcstoul(text, &end, 0)` of the Microsoft C runtime, the conversion the
    command-line options `--pid` and `--level` go through: leading white
    space, an optional sign, a base taken from the prefix ("0x" hexadecimal,
    "0" octal, otherwise decimal), then the longest run of digits of that
    base. Out-of-range values saturate at ULONG_MAX; a minus sign negates
    modulo 2^32. With no digits at all the result is 0 and the end pointer
    is the start of the text. */
module StrToUL {
  import opened Wrappers
  import Text

  const Modulus: int := 0x1_0000_0000

  /** The conversion's result: the value and where the end pointer stops. */
  datatype Conversion = Conversion(value: U32, end: nat)

  /** `isspace` in the C locale. */
  predicate IsCSpace(c: char) {
    c == ' ' || ('\t' <= c <= '\r')
  }

  /** A digit's value in any base up to 36: '0'-'9', then letters of either
      case from 10; 36 for anything that is not a digit. */
  function DigitValue(c: char): (d: nat)
    ensures d <= 36
  {
    if '0' <= c <= '9' then c as int - '0' as int
    else if 'a' <= c <= 'z' then c as int - 'a' as int + 10
    else if 'A' <= c <= 'Z' then c as int - 'A' as int + 10
    else 36
  }

  function SkipSpace(s: string, i: nat): (k: nat)
    requires i <= |s|
    ensures i <= k <= |s|
    ensures forall j :: i <= j < k ==> IsCSpace(s[j])
    ensures k < |s| ==> !IsCSpace(s[k])
    decreases |s| - i
  {
    if i < |s| && IsCSpace(s[i]) then SkipSpace(s, i + 1) else i
  }

  predicate AllDigits(d: string, base: nat) {
    forall k :: 0 <= k < |d| ==> DigitValue(d[k]) < base
  }

  /** The end of the longest run of digits of `base` starting at `i`. */
  function DigitsEnd(s: string, i: nat, base: nat): (k: nat)
    requires i <= |s|
    ensures i <= k <= |s|
    ensures AllDigits(s[i..k], base)
    ensures k < |s| ==> DigitValue(s[k]) >= base
    decreases |s| - i
  {
    if i < |s| && DigitValue(s[i]) < base then
      var k := DigitsEnd(s, i + 1, base);
      assert s[i..k] == [s[i]] + s[i + 1..k];
      k
    else i
  }

  /** The value a run of digits denotes, most significant first. */
  function Horner(d: string, base: nat): nat {
    if |d| == 0 then 0
    else Horner(d[..|d| - 1], base) * base + DigitValue(d[|d| - 1])
  }

  /** The base that base 0 picks from the first characters after the sign,
      and where the digits start. */
  function BaseAndStart(s: string, q: nat): (r: (nat, nat))
    requires q <= |s|
    ensures r.0 in {8, 10, 16} && q <= r.1 <= |s|
  {
    if Text.CharAt(s, q) != '0' then (10, q)
    else if Text.CharAt(s, q + 1) == 'x' || Text.CharAt(s, q + 1) == 'X' then (16, q + 2)
    else (8, q)
  }

  /** Past an optional sign at `p`. */
  function SignEnd(s: string, p: nat): (q: nat)
    requires p <= |s|
    ensures p <= q <= |s|
  {
    if Text.CharAt(s, p) == '-' || Text.CharAt(s, p) == '+' then p + 1 else p
  }

  /** The digit run at `start` converted: no digits give 0 with the end
      pointer reset to the start of the text. */
  function Convert(s: string, neg: bool, base: nat, start: nat): (r: Conversion)
    requires start <= |s|
    ensures r.end <= |s|
    ensures r.end == 0 ==> r.value == 0
  {
    var e := DigitsEnd(s, start, base);
    if e == start then Conversion(0, 0)
    else
      var n := Horner(s[start..e], base);
      var v := if n > MaxU32 then MaxU32 else n;
      Conversion(if neg then (Modulus - v) % Modulus else v, e)
  }

  /** The conversion. The end position is either 0 (no digits) or just past
      the digits read, and the value is the digits' value clamped to 32 bits
      and negated modulo 2^32 after a minus sign. */
  function Parse(s: string): (r: Conversion)
    ensures r.end <= |s|
    ensures r.end == 0 ==> r.value == 0
  {
    var p := SkipSpace(s, 0);
    var bs := BaseAndStart(s, SignEnd(s, p));
    Convert(s, Text.CharAt(s, p) == '-', bs.0, bs.1)
  }

  /** `*end == 0`: the conversion consumed the whole C string. */
  predicate Whole(s: string) {
    Parse(s).end == |Text.CStr(s)|
  }

  // ---------------------------------------------------------------------
  // Properties
  // ---------------------------------------------------------------------

  lemma {:induction false} HornerDecimal(n: nat)
    ensures Horner(Text.Decimal(n), 10) == n
    ensures AllDigits(Text.Decimal(n), 10)
    decreases n
  {
    var d := Text.Decimal(n);
    if n >= 10 {
      HornerDecimal(n / 10);
      assert d[..|d| - 1] == Text.Decimal(n / 10);
    }
  }

  /** Reading back `to_string(n)` gives `n`, and all of it is consumed. */
  lemma DecimalRoundTrip(n: U32)
    ensures Parse(Text.Decimal(n)) == Conversion(n, |Text.Decimal(n)|)
    ensures Whole(Text.Decimal(n))
  {
    var d := Text.Decimal(n);
    HornerDecimal(n);
    Text.DecimalHasNoMarkup(n);
    Text.CStrOfNulFree(d);
    assert SkipSpace(d, 0) == 0;
    assert SignEnd(d, 0) == 0;
    if n == 0 {
      assert d == "0";
      assert BaseAndStart(d, 0) == (8, 0);
      assert DigitsEnd(d, 0, 8) == 1;
      assert d[0..1] == d;
      assert Horner(d, 8) == Horner(d[..0], 8) * 8 + 0;
    } else {
      assert BaseAndStart(d, 0) == (10, 0);
      DigitsEndAll(d, 0, 10);
      assert d[0..|d|] == d;
    }
  }

  /** White space in front of the text changes nothing but the end position. */
  lemma LeadingSpace(s: string)
    requires Parse(s).end > 0
    ensures Parse(" " + s) == Conversion(Parse(s).value, Parse(s).end + 1)
  {
    var t := " " + s;
    SkipSpaceShift(s, 0);
    var p := SkipSpace(s, 0);
    assert IsCSpace(t[0]);
    assert SkipSpace(t, 0) == p + 1;
    CharAtShift(s, p);
    SignEndShift(s, p);
    var q := SignEnd(s, p);
    BaseAndStartShift(s, q);
    var bs := BaseAndStart(s, q);
    ConvertShift(s, Text.CharAt(s, p) == '-', bs.0, bs.1);
  }

  lemma CharAtShift(s: string, i: nat)
    ensures Text.CharAt(" " + s, i + 1) == Text.CharAt(s, i)
  {
  }

  lemma SignEndShift(s: string, p: nat)
    requires p <= |s|
    ensures SignEnd(" " + s, p + 1) == SignEnd(s, p) + 1
  {
    CharAtShift(s, p);
  }

  lemma ConvertShift(s: string, neg: bool, base: nat, start: nat)
    requires start <= |s| && Convert(s, neg, base, start).end > 0
    ensures Convert(" " + s, neg, base, start + 1)
            == Conversion(Convert(s, neg, base, start).value, Convert(s, neg, base, start).end + 1)
  {
    var t := " " + s;
    DigitsEndShift(s, start, base);
    var e := DigitsEnd(s, start, base);
    assert t[start + 1..e + 1] == s[start..e];
  }

  lemma {:induction false} SkipSpaceShift(s: string, i: nat)
    requires i <= |s|
    ensures SkipSpace(" " + s, i + 1) == SkipSpace(s, i) + 1
    decreases |s| - i
  {
    var t := " " + s;
    if i < |s| {
      assert t[i + 1] == s[i];
      if IsCSpace(s[i]) { SkipSpaceShift(s, i + 1); }
    }
  }

  lemma BaseAndStartShift(s: string, q: nat)
    requires q <= |s|
    ensures BaseAndStart(" " + s, q + 1) == (BaseAndStart(s, q).0, BaseAndStart(s, q).1 + 1)
  {
    var t := " " + s;
    assert Text.CharAt(t, q + 1) == Text.CharAt(s, q);
    assert Text.CharAt(t, q + 2) == Text.CharAt(s, q + 1);
  }

  lemma {:induction false} DigitsEndShift(s: string, i: nat, base: nat)
    requires i <= |s|
    ensures DigitsEnd(" " + s, i + 1, base) == DigitsEnd(s, i, base) + 1
    decreases |s| - i
  {
    ShiftedChar(s, i);
    if i < |s| && DigitValue(s[i]) < base {
      DigitsEndShift(s, i + 1, base);
      DigitsEndStep(" " + s, i + 1, base);
    }
  }

  lemma ShiftedChar(s: string, i: nat)
    requires i <= |s|
    ensures i < |s| ==> (" " + s)[i + 1] == s[i]
    ensures |" " + s| == |s| + 1
  {
  }

  lemma DigitsEndStep(t: string, j: nat, base: nat)
    requires j < |t| && DigitValue(t[j]) < base
    ensures DigitsEnd(t, j, base) == DigitsEnd(t, j + 1, base)
  {
  }

  /** A minus sign in front of a decimal number negates it modulo 2^32. */
  lemma NegatedDecimal(n: U32)
    ensures Parse("-" + Text.Decimal(n)) == Conversion((Modulus - n) % Modulus, 1 + |Text.Decimal(n)|)
  {
    var d := Text.Decimal(n);
    var t := "-" + d;
    HornerDecimal(n);
    assert SkipSpace(t, 0) == 0;
    assert SignEnd(t, 0) == 1;
    assert t[1..] == d;
    if n == 0 {
      assert d == "0";
      assert BaseAndStart(t, 1) == (8, 1);
      assert DigitsEnd(t, 2, 8) == 2;
      assert DigitsEnd(t, 1, 8) == 2;
      assert t[1..2] == "0";
      assert Horner("0", 8) == Horner("", 8) * 8 + 0;
    } else {
      assert BaseAndStart(t, 1) == (10, 1);
      DigitsEndAll(t, 1, 10);
      assert t[1..|t|] == d;
    }
  }

  lemma {:induction false} DigitsEndAll(s: string, i: nat, base: nat)
    requires i <= |s| && AllDigits(s[i..], base)
    ensures DigitsEnd(s, i, base) == |s|
    decreases |s| - i
  {
    if i < |s| {
      assert s[i..][0] == s[i];
      assert s[i + 1..] == s[i..][1..];
      DigitsEndAll(s, i + 1, base);
    }
  }

  /** Text without a single digit converts to 0 and leaves the end pointer at
      the start, so it counts as whole only when it is empty. */
  lemma NoDigits(s: string)
    requires forall k :: 0 <= k < |s| ==> DigitValue(s[k]) >= 10
    ensures Parse(s) == Conversion(0, 0)
  {
    var q := SignEnd(s, SkipSpace(s, 0));
    assert BaseAndStart(s, q) == (10, q);
  }
}

=== FILE: suspend.dfy ===
/** The newer `ntsuspend` tool (src/ntsuspend.cpp): suspends, resumes or
    tests the selected processes, locally or through the helper service on
    a remote computer. Modelled: the request the client sends and the
    service decodes, the command line, the XML wrapper around the output,
    the exit code and the switch into service mode. The suspension itself
    is not part of this model. */
module Suspend {
  import opened Wrappers
  import Text
  import Message
  import Options
  import Processes
  import Results
  import RemoteFramework
  import Tools

  const Name: string := "ntsuspend"
  const MaxResponseSize: nat := 8192

  // ---------------------------------------------------------------------
  // The request
  // ---------------------------------------------------------------------

  /** What the service is asked to do: resume instead of suspend, only
      test, and to which processes. */
  datatype Request = Request(resume: bool, test: bool, selector: Processes.Selector)

  function NoAction(): string { "Invalid message received: no action" }
  function UnknownAction(): string { "Invalid message received: unknown action" }
  function ExtraData(): string { "Invalid message received: extra data" }

  /** `server::handle_message`, from position `i`: an action byte ('s',
      'r' or 't'), then a target, which only a test may leave out, and
      nothing after it. */
  function HandleMessage(msg: string, i: nat): (r: Result<Request, string>)
    requires i <= |msg|
    ensures i == |msg| ==> r == Err(NoAction())
    ensures i < |msg| && msg[i] !in {'s', 'r', 't'} ==> r == Err(UnknownAction())
    ensures i + 1 == |msg| && msg[i] in {'s', 'r'} ==> r == Err(Processes.NoTarget())
    ensures r.Ok? ==> i < |msg| && r.value.resume == (msg[i] == 'r') && r.value.test == (msg[i] == 't')
    ensures r.Ok? && i + 1 == |msg| ==> r.value.test && r.value.selector == Processes.Fresh
    ensures r.Ok? && i + 1 < |msg| ==> Processes.DecodeTarget(Processes.Fresh, msg, i + 1) == Ok((r.value.selector, |msg|))
    ensures i + 1 < |msg| && msg[i] in {'s', 'r', 't'} && Processes.DecodeTarget(Processes.Fresh, msg, i + 1).Ok? ==>
              (r.Ok? <==> Processes.DecodeTarget(Processes.Fresh, msg, i + 1).value.1 == |msg|)
  {
    if i == |msg| then Err(NoAction())
    else
      var action := msg[i];
      if action !in {'s', 'r', 't'} then Err(UnknownAction())
      else
        var resume := action == 'r';
        var test := action == 't';
        if i + 1 == |msg| then
          if !test then Err(Processes.NoTarget()) else Ok(Request(resume, test, Processes.Fresh))
        else match Processes.DecodeTarget(Processes.Fresh, msg, i + 1)
          case Err(e) => Err(e)
          case Ok((selector, j)) =>
            if j != |msg| then Err(ExtraData()) else Ok(Request(resume, test, selector))
  }

  /** The action byte: a test wins over a resume. */
  function ActionChar(resume: bool, test: bool): (c: char)
    ensures c in {'s', 'r', 't'}
    ensures c == 't' <==> test
    ensures c == 'r' <==> resume && !test
  {
    if test then 't' else if resume then 'r' else 's'
  }

  /** The message the client sends: the action, then the target. */
  function ClientMessage(header: string, resume: bool, test: bool, s: Processes.Selector): (msg: string)
    ensures |msg| > |header| && msg[..|header|] == header && msg[|header|] == ActionChar(resume, test)
  {
    var msg := Processes.EncodeTarget(header + [ActionChar(resume, test)], s);
    assert msg[..|header| + 1] == header + [ActionChar(resume, test)];
    assert msg[..|header|] == (header + [ActionChar(resume, test)])[..|header|];
    msg
  }

  /** For every selector the command line accepts, the service decodes the
      request the client built: the action, and the target the encoding
      keeps. */
  lemma HandleMessageClientMessage(header: string, resume: bool, test: bool, s: Processes.Selector)
    requires Processes.ValidateOptions(s, test).Pass?
    requires Text.NulFree(s.name) && |s.name| < Message.Modulus
    ensures HandleMessage(ClientMessage(header, resume, test, s), |header|)
            == Ok(Request(resume && !test, test, Processes.Canonical(s)))
  {
    var tagged := header + [ActionChar(resume, test)];
    var msg := ClientMessage(header, resume, test, s);
    if s.pid != 0 || s.name != "" {
      Processes.DecodeTargetEncodeTarget(s, tagged, "");
      assert Processes.EncodeTarget(tagged, s) + "" == msg;
    } else {
      assert msg == tagged;
    }
  }

  // ---------------------------------------------------------------------
  // The command line
  // ---------------------------------------------------------------------

  function Def(short: char, long: string, kind: Options.ArgumentKind): Options.OptionDef {
    Options.OptionDef(short, Some(long), kind, 0)
  }

  /** The options the tool defines. */
  function Defs(): seq<Options.OptionDef> {
    [Def('h', "help", Options.NoArgument), Def('x', "xml", Options.NoArgument),
     Def('i', "pid", Options.RequiredArgument), Def('n', "name", Options.RequiredArgument),
     Def('s', "substr", Options.NoArgument), Def('r', "resume", Options.NoArgument),
     Def('t', "test", Options.NoArgument), Def('c', "computer", Options.RequiredArgument),
     Def('u', "username", Options.RequiredArgument), Def('p', "password", Options.OptionalArgument)]
  }

  /** The options gathered so far. */
  datatype Setup = Setup(resume: bool, test: bool, selector: Processes.Selector,
                         client: RemoteFramework.Client, results: Results.Results)

  const Initial: Setup := Setup(false, false, Processes.Fresh, RemoteFramework.NewClient, Results.Initial)

  type Command = Tools.Command<Setup>

  /** One pass of the option loop: `--help` ends it with the usage text, a
      bare argument and a rejected value with an option error; `--resume`
      and `--test` are the tool's own; the rest goes to the selector, then
      the client, then the results, in that order. */
  function HandleEvent(st: Setup, e: Options.Event): (r: Result<Setup, Tools.Usage>)
    ensures e.option.None? ==> r == Err(Some(Options.MissingOption(Options.ArgumentText(e))))
    ensures e.option.Some? && e.option.value.short == 'h' ==> r == Err(None)
    ensures r.Ok? ==> r.value.results.errorSeen == st.results.errorSeen && r.value.results.buffer == st.results.buffer
  {
    match e.option
    case None => Err(Some(Options.MissingOption(Options.ArgumentText(e))))
    case Some(d) =>
      var c := d.short;
      if c == 'h' then Err(None)
      else if c == 'r' then Ok(st.(resume := true))
      else if c == 't' then Ok(st.(test := true))
      else match Processes.HandleOption(st.selector, c, Options.ArgumentText(e))
        case Rejected(m) => Err(Some(m))
        case Handled(s) => Ok(st.(selector := s))
        case Unhandled =>
          match RemoteFramework.ClientOption(st.client, c, e.argument)
          case Handled(client) => Ok(st.(client := client))
          case _ =>
            match Results.HandleOption(st.results, c)
            case Handled(results) => Ok(st.(results := results))
            case _ => Ok(st)
  }

  /** The selector check, a test being allowed to leave the target out. */
  function Check(st: Setup): Outcome<string> {
    Processes.ValidateOptions(st.selector, st.test)
  }

  /** `command_line_main` up to the output: the option loop, the parser's
      own error, and the selector check (a test may leave the target out). */
  function Configure(p: Options.Parsed): (c: Command)
    ensures c.Configured? ==> Processes.ValidateOptions(c.setup.selector, c.setup.test).Pass?
    ensures c.Configured? ==> p.failure.None?
    ensures c.Undefined? ==> p.undefined
  {
    Tools.Configure(HandleEvent, Initial, Check, p)
  }

  /** The tool's command line, read by the parser as written: a configured
      run names its target (or tests), and a run is undefined only where
      the parser read beyond the vector. */
  function CommandLine(argv: seq<string>): (c: Command)
    ensures c.Configured? ==> Processes.ValidateOptions(c.setup.selector, c.setup.test).Pass?
    ensures c.Undefined? ==> Options.Parse(Defs(), argv, Options.AsWritten).undefined
  {
    Configure(Options.Parse(Defs(), argv, Options.AsWritten))
  }

  /** Read by the corrected parser, no command line is undefined. */
  lemma CorrectedCommandLineDefined(argv: seq<string>)
    ensures !Configure(Options.Parse(Defs(), argv, Options.Corrected)).Undefined?
  {
  }

  /** A run that names no target is refused ... */
  lemma NoTargetRefused()
    ensures CommandLine([]) == Tools.ShowUsage(Some("Neither process id nor process name specified"))
  {
    assert Options.Parse(Defs(), [], Options.AsWritten) == Options.Parsed([], None, false);
  }

  /** ... unless it only tests. */
  lemma NoTargetTest()
    ensures CommandLine(["-t"]).Configured? && CommandLine(["-t"]).setup.test
  {
    var e := ParseTestFlag(Options.AsWritten);
    assert HandleEvent(Initial, e) == Ok(Initial.(test := true));
    assert Tools.HandleEvents(HandleEvent, Initial, [e]) == Ok(Initial.(test := true));
  }

  /** `--test` is the seventh definition, and the first with letter 't'. */
  lemma TestDefFound()
    ensures var defs := Options.CacheLengths(Defs());
            |defs| > 6 && defs[6].short == 't' && defs[6].kind == Options.NoArgument
            && Options.FindShort(defs, 't') == Some(6)
  {
    var defs := Options.CacheLengths(Defs());
    assert forall j :: 0 <= j < |defs| ==> defs[j].short == Defs()[j].short && defs[j].kind == Defs()[j].kind;
    Options.FindShortAt(defs, 't', 6);
  }

  /** "-t" parses to the one `--test` event. */
  lemma ParseTestFlag(v: Options.Variant) returns (e: Options.Event)
    ensures Options.Parse(Defs(), ["-t"], v) == Options.Parsed([e], None, false)
    ensures e.option.Some? && e.option.value.short == 't' && e.argument.None?
  {
    var defs := Options.CacheLengths(Defs());
    TestDefFound();
    Text.CStrOfNulFree("-t");
    assert Text.CharAt("-t", 1) == 't' && Text.CharAt("-t", 2) == '\0';
    e := Options.Event(Some(defs[6]), None);
    var p1 := Options.Parser(1, None);
    assert Options.DoGetopt(defs, ["-t"], v, 0, Options.Cursor(0, 1), None) == Options.Next(e, p1);
    assert Options.Getopt(defs, ["-t"], v, Options.Start) == Options.Next(e, p1);
    assert Options.ParseFrom(defs, ["-t"], v, p1) == Options.Parsed([], None, false);
  }

  /** Example: as written, "-tp" hands over `--test` and `--password`, then
      reads beyond the vector: the `--password` cursor stays on the word. */
  lemma TestThenPasswordUndefined()
    ensures CommandLine(["-tp"]) == Tools.Undefined
  {
    var es := ParseTestThenPassword();
    TestThenPasswordLoop(es);
  }

  /** The option loop accepts `--test` followed by `--password` without a value. */
  lemma TestThenPasswordLoop(es: seq<Options.Event>)
    requires |es| == 2 && es[0].option.Some? && es[0].option.value.short == 't'
             && es[1].option.Some? && es[1].option.value.short == 'p' && es[1].argument.None?
    ensures Tools.HandleEvents(HandleEvent, Initial, es).Ok?
  {
    var st := Initial.(test := true);
    var st2 := st.(client := RemoteFramework.HandleOption(st.client, 'p', None));
    assert HandleEvent(Initial, es[0]) == Ok(st);
    PasswordHandled(st, es[1]);
    assert Tools.HandleEvents(HandleEvent, st2, es[2..]) == Ok(st2);
    assert Tools.HandleEvents(HandleEvent, st, es[1..]) == Ok(st2);
  }

  /** `--password` without a value goes to the client. */
  lemma PasswordHandled(st: Setup, e: Options.Event)
    requires e.option.Some? && e.option.value.short == 'p' && e.argument.None?
    ensures HandleEvent(st, e) == Ok(st.(client := RemoteFramework.HandleOption(st.client, 'p', None)))
  {
  }

  lemma ParseTestThenPassword() returns (es: seq<Options.Event>)
    ensures Options.Parse(Defs(), ["-tp"], Options.AsWritten) == Options.Parsed(es, None, true)
    ensures |es| == 2 && es[0].option.Some? && es[0].option.value.short == 't'
            && es[1].option.Some? && es[1].option.value.short == 'p' && es[1].argument.None?
  {
    var defs := Options.CacheLengths(Defs());
    TestDefFound();
    PasswordDefFound();
    Options.RunEndingInOptionalUndefined(defs, 't', 'p');
    assert "-" + ['t', 'p'] == "-tp";
    es := [Options.Event(Some(defs[6]), None), Options.Event(Some(defs[9]), None)];
  }

  /** `--password` is the last definition, and the first with letter 'p'. */
  lemma PasswordDefFound()
    ensures var defs := Options.CacheLengths(Defs());
            |defs| == 10 && defs[9].short == 'p' && defs[9].kind == Options.OptionalArgument
            && Options.FindShort(defs, 'p') == Some(9)
  {
    var defs := Options.CacheLengths(Defs());
    assert forall j :: 0 <= j < |defs| ==> defs[j].short == Defs()[j].short && defs[j].kind == Defs()[j].kind;
    Options.FindShortAt(defs, 'p', 9);
  }

  // ---------------------------------------------------------------------
  // Output
  // ---------------------------------------------------------------------

  /** The action attribute of the info record: a test, a resume or a
      suspend. */
  function ActionInfo(resume: bool, test: bool): (a: string)
    ensures |a| > 9 && a[..8] == "action='" && a[|a| - 1] == '\'' && '<' !in a
  {
    if test then "action='test'" else if resume then "action='resume'" else "action='suspend'"
  }

  /** The attribute tells the three actions apart. */
  lemma ActionInfoDetermines(r1: bool, t1: bool, r2: bool, t2: bool)
    ensures ActionInfo(r1, t1) == ActionInfo(r2, t2) <==> t1 == t2 && (t1 || r1 == r2)
  {
  }

  /** The output of a configured run around the reports of the work: in
      XML mode it starts with the header naming the action and the target;
      in plain mode it is what the work reported. */
  function Output(st: Setup, work: seq<Results.Report>): (o: Option<Results.Results>)
    ensures !st.results.xml ==> o == Results.Run(st.results, work)
    ensures st.results.xml && o.Some? ==>
              var h := Tools.Header(st.results, Name, ActionInfo(st.resume, st.test), Processes.XmlAttribute(st.selector)).buffer;
              |o.value.buffer| >= |h| && o.value.buffer[..|h|] == h
  {
    var action, target := ActionInfo(st.resume, st.test), Processes.XmlAttribute(st.selector);
    var o := Tools.Output(st.results, Name, action, target, work);
    if o.None? then o
    else
      Tools.OutputShape(st.results, Name, action, target, work);
      o
  }
}

=== FILE: text.dfy ===
/** String helpers of the basic library: the C-string view of a buffer,
    whitespace trimming, XML attribute escaping, decimal rendering of an
    unsigned value, and the case-insensitive comparisons of the C runtime. */
module Text {

  // ---------------------------------------------------------------------
  // C strings
  // ---------------------------------------------------------------------

  predicate NulFree(s: string) {
    forall k :: 0 <= k < |s| ==> s[k] != '\0'
  }

  /** What a `const char_t *` pointing at `s` sees: everything before the
      first NUL. Appending such a pointer to a `string` appends exactly this. */
  function CStr(s: string): (r: string)
    ensures |r| <= |s| && r == s[..|r|]
    ensures NulFree(r)
    ensures |r| < |s| ==> s[|r|] == '\0'
  {
    if |s| == 0 || s[0] == '\0' then "" else [s[0]] + CStr(s[1..])
  }

  lemma CStrOfNulFree(s: string)
    ensures NulFree(s) ==> CStr(s) == s
  {
  }

  /** A NUL-free string is what a C-string scan of `s` sees exactly when it
      starts `s` and is followed by the end or by a NUL. */
  lemma CStrIs(s: string, t: string)
    requires NulFree(t)
    ensures CStr(s) == t <==> |t| <= |s| && s[..|t|] == t && (|t| == |s| || s[|t|] == '\0')
  {
    if |t| <= |s| && s[..|t|] == t && (|t| == |s| || s[|t|] == '\0') {
      CStrCovers(s, t);
      if |t| < |s| {
        CStrStopsAt(s, |t|);
      }
    }
  }

  /** The scan reads past a NUL-free start of `s`. */
  lemma {:induction false} CStrCovers(s: string, t: string)
    requires NulFree(t) && |t| <= |s| && s[..|t|] == t
    ensures |CStr(s)| >= |t|
  {
    if |t| > 0 {
      assert s[0] == t[0];
      CStrCovers(s[1..], t[1..]);
    }
  }

  /** The scan stops at or before any NUL. */
  lemma {:induction false} CStrStopsAt(s: string, i: nat)
    requires i < |s| && s[i] == '\0'
    ensures |CStr(s)| <= i
  {
    if i > 0 && s[0] != '\0' {
      CStrStopsAt(s[1..], i - 1);
    }
  }

  /** The character a C-string scan reads at `i`: the terminator past the end. */
  function CharAt(s: string, i: nat): char {
    if i < |s| then s[i] else '\0'
  }

  // ---------------------------------------------------------------------
  // trim
  // ---------------------------------------------------------------------

  /** The characters `trim` removes: " \r\n\t". */
  predicate IsSpace(c: char) {
    c == ' ' || c == '\r' || c == '\n' || c == '\t'
  }

  predicate AllSpace(s: string) {
    forall k :: 0 <= k < |s| ==> IsSpace(s[k])
  }

  /** A string that starts and ends with a non-space character (or is empty). */
  predicate Trimmed(s: string) {
    |s| == 0 || (!IsSpace(s[0]) && !IsSpace(s[|s| - 1]))
  }

  /** `find_first_not_of(" \r\n\t")`, starting at `from`; |s| plays npos. */
  function FirstNonSpace(s: string, from: nat): (k: nat)
    requires from <= |s|
    ensures from <= k <= |s|
    ensures forall j :: from <= j < k ==> IsSpace(s[j])
    ensures k < |s| ==> !IsSpace(s[k])
    decreases |s| - from
  {
    if from == |s| || !IsSpace(s[from]) then from else FirstNonSpace(s, from + 1)
  }

  /** `find_last_not_of(" \r\n\t")` below `upto`; -1 plays npos. */
  function LastNonSpace(s: string, upto: nat): (k: int)
    requires upto <= |s|
    ensures -1 <= k < upto
    ensures forall j :: k < j < upto ==> IsSpace(s[j])
    ensures k >= 0 ==> !IsSpace(s[k])
    decreases upto
  {
    if upto == 0 then -1
    else if !IsSpace(s[upto - 1]) then upto - 1
    else LastNonSpace(s, upto - 1)
  }

  /** `trim`: removes leading and trailing " \r\n\t". The result is a
      contiguous piece of the input, and only whitespace was cut off. */
  function Trim(s: string): (r: string)
    ensures Trimmed(r)
    ensures exists a :: 0 <= a <= |s| - |r| && r == s[a..a + |r|]
                        && AllSpace(s[..a]) && AllSpace(s[a + |r|..])
  {
    var begin := FirstNonSpace(s, 0);
    if begin == |s| then
      assert AllSpace(s[..|s|]) && s[|s|..] == [];
      ""
    else
      var last := LastNonSpace(s, |s|);
      assert begin <= last;
      var r := s[begin..last + 1];
      assert r == s[begin..begin + |r|];
      assert AllSpace(s[..begin]);
      assert AllSpace(s[begin + |r|..]);
      r
  }

  /** The reference definition of trim: whatever is cut into whitespace,
      a trimmed middle, and whitespace, the middle is what `Trim` returns. */
  lemma TrimUnique(p: string, m: string, q: string)
    requires AllSpace(p) && AllSpace(q) && Trimmed(m)
    ensures Trim(p + m + q) == m
  {
    var s := p + m + q;
    assert forall j :: 0 <= j < |p| ==> s[j] == p[j];
    assert forall j :: |p| + |m| <= j < |s| ==> s[j] == q[j - |p| - |m|];
    if |m| == 0 {
      assert AllSpace(s);
    } else {
      assert s[|p|] == m[0];
      assert s[|p| + |m| - 1] == m[|m| - 1];
      assert s[|p|..|p| + |m|] == m;
    }
  }

  lemma TrimIdempotent(s: string)
    ensures Trim(Trim(s)) == Trim(s)
  {
    var r := Trim(s);
    TrimUnique("", r, "");
    assert "" + r + "" == r;
  }

  // ---------------------------------------------------------------------
  // make_xml_attribute_value
  // ---------------------------------------------------------------------

  function EscapeChar(c: char): string {
    if c == '<' then "&lt;"
    else if c == '&' then "&amp;"
    else if c == '\'' then "&apos;"
    else [c]
  }

  /** The three references the escaping produces. */
  predicate StartsWithReference(t: string) {
    (|t| >= 4 && t[..4] == "&lt;") || (|t| >= 5 && t[..5] == "&amp;") || (|t| >= 6 && t[..6] == "&apos;")
  }

  function ReferenceLength(t: string): nat
    requires StartsWithReference(t)
  {
    if |t| >= 4 && t[..4] == "&lt;" then 4 else if |t| >= 5 && t[..5] == "&amp;" then 5 else 6
  }

  /** The content of a single-quoted AttValue (section 2.3 of W3C XML 1.0):
      characters other than '<', '&' and the delimiter, or references. */
  predicate AttContent(t: string)
    decreases |t|
  {
    |t| == 0
    || (StartsWithReference(t) && AttContent(t[ReferenceLength(t)..]))
    || (t[0] != '<' && t[0] != '&' && t[0] != '\'' && AttContent(t[1..]))
  }

  /** No character that could open a tag or close the quoted value. */
  predicate NoMarkup(t: string) {
    '<' !in t && '\'' !in t
  }

  /** The body of the escaped value, without its delimiting quotes. */
  function Escape(s: string): (r: string)
    ensures NoMarkup(r)
    ensures AttContent(r)
    ensures |r| >= |s|
  {
    if |s| == 0 then ""
    else
      var tail := Escape(s[1..]);
      EscapeStep(s[0], tail);
      EscapeChar(s[0]) + tail
  }

  /** Reads the references back: the inverse of `Escape`. */
  function Unescape(t: string): string
    decreases |t|
  {
    if |t| == 0 then ""
    else if |t| >= 4 && t[..4] == "&lt;" then "<" + Unescape(t[4..])
    else if |t| >= 5 && t[..5] == "&amp;" then "&" + Unescape(t[5..])
    else if |t| >= 6 && t[..6] == "&apos;" then "'" + Unescape(t[6..])
    else [t[0]] + Unescape(t[1..])
  }

  /** One escaped character in front of escaped text: still attribute
      content, and `Unescape` reads the character back. */
  lemma EscapeStep(c: char, tail: string)
    requires NoMarkup(tail) && AttContent(tail)
    ensures NoMarkup(EscapeChar(c) + tail)
    ensures AttContent(EscapeChar(c) + tail)
    ensures Unescape(EscapeChar(c) + tail) == [c] + Unescape(tail)
  {
    var t := EscapeChar(c) + tail;
    if c == '<' {
      assert t[..4] == "&lt;" && t[4..] == tail;
    } else if c == '&' {
      assert t[..5] == "&amp;" && t[5..] == tail;
      assert t[..4] != "&lt;" by { assert t[..4][1] == 'a'; }
    } else if c == '\'' {
      assert t[..6] == "&apos;" && t[6..] == tail;
      assert t[..4] != "&lt;" by { assert t[..4][1] == 'a'; }
      assert t[..5] != "&amp;" by { assert t[..5][2] == 'p'; }
    } else {
      assert t[0] == c && t[1..] == tail;
      assert !StartsWithReference(t) by {
        if |t| >= 4 { assert t[..4][0] == c; }
        if |t| >= 5 { assert t[..5][0] == c; }
        if |t| >= 6 { assert t[..6][0] == c; }
      }
    }
  }

  lemma {:induction false} UnescapeEscape(s: string)
    ensures Unescape(Escape(s)) == s
  {
    if |s| > 0 {
      UnescapeEscape(s[1..]);
      EscapeStep(s[0], Escape(s[1..]));
      assert s == [s[0]] + s[1..];
    }
  }

  /** `make_xml_attribute_value`: the value escaped and wrapped in single
      quotes. The result is a well-formed single-quoted AttValue and reads
      back to the original value. */
  function XmlAttributeValue(value: string): (r: string)
    ensures |r| >= 2 && r[0] == '\'' && r[|r| - 1] == '\''
    ensures NoMarkup(r[1..|r| - 1]) && AttContent(r[1..|r| - 1])
    ensures '<' !in r
    ensures Unescape(r[1..|r| - 1]) == value
  {
    var body := Escape(value);
    UnescapeEscape(value);
    var r := "'" + body + "'";
    assert r[1..|r| - 1] == body;
    r
  }

  // ---------------------------------------------------------------------
  // to_string(unsigned long): "%u"
  // ---------------------------------------------------------------------

  predicate IsDigit(c: char) { '0' <= c <= '9' }

  function DigitChar(d: nat): (c: char)
    requires d < 10
    ensures IsDigit(c)
  {
    ('0' as int + d) as char
  }

  /** Decimal rendering without leading zeros; the inverse is
      `StrToUL.DecimalRoundTrip`. */
  function Decimal(n: nat): (r: string)
    ensures 1 <= |r|
    ensures forall k :: 0 <= k < |r| ==> IsDigit(r[k])
    ensures r[0] == '0' <==> n == 0
  {
    if n < 10 then [DigitChar(n)] else Decimal(n / 10) + [DigitChar(n % 10)]
  }

  lemma DecimalHasNoMarkup(n: nat)
    ensures NoMarkup(Decimal(n)) && NulFree(Decimal(n))
  {
  }

  // ---------------------------------------------------------------------
  // _tcsicmp / _tcsnicmp (C locale)
  // ---------------------------------------------------------------------

  function Lower(c: char): char {
    if 'A' <= c <= 'Z' then (c as int + 32) as char else c
  }

  function LowerAll(s: string): (r: string)
    ensures |r| == |s|
    ensures forall k :: 0 <= k < |s| ==> r[k] == Lower(s[k])
  {
    seq(|s|, k requires 0 <= k < |s| => Lower(s[k]))
  }

  /** `_tcsicmp(a, b) == 0`: the two C strings agree up to ASCII case. */
  predicate EqualsIgnoreCase(a: string, b: string) {
    LowerAll(CStr(a)) == LowerAll(CStr(b))
  }

  function Head(s: string): char {
    if |s| == 0 then '\0' else s[0]
  }

  /** The comparison loop of `_tcsnicmp` on two NUL-free strings: at most `n`
      characters, stopping early where both strings end. */
  predicate NIcmpLoop(a: string, b: string, n: nat)
    decreases n
  {
    n == 0
    || (Lower(Head(a)) == Lower(Head(b))
        && (Head(a) == '\0' || (|a| > 0 && |b| > 0 && NIcmpLoop(a[1..], b[1..], n - 1))))
  }

  /** `_tcsnicmp(a, b, n) == 0`. */
  predicate EqualsIgnoreCaseN(a: string, b: string, n: nat) {
    NIcmpLoop(CStr(a), CStr(b), n)
  }

  predicate PrefixIgnoreCase(b: string, a: string) {
    |a| >= |b| && LowerAll(a[..|b|]) == LowerAll(b)
  }

  /** Comparing `|b|` characters is a case-insensitive prefix test. */
  lemma {:induction false} NIcmpIsPrefix(a: string, b: string)
    requires NulFree(a) && NulFree(b)
    ensures NIcmpLoop(a, b, |b|) <==> PrefixIgnoreCase(b, a)
    decreases |b|
  {
    if |b| > 0 {
      if |a| == 0 {
        assert Lower(Head(a)) == '\0';
        assert Lower(Head(b)) != '\0';
      } else {
        NIcmpIsPrefix(a[1..], b[1..]);
        if PrefixIgnoreCase(b, a) {
          assert LowerAll(a[..|b|])[0] == LowerAll(b)[0];
          assert LowerAll(a[1..][..|b[1..]|]) == LowerAll(b[1..]) by {
            forall k | 0 <= k < |b| - 1
              ensures LowerAll(a[1..][..|b[1..]|])[k] == LowerAll(b[1..])[k]
            {
              assert LowerAll(a[..|b|])[k + 1] == LowerAll(b)[k + 1];
            }
          }
        }
        if NIcmpLoop(a, b, |b|) {
          assert LowerAll(a[..|b|]) == LowerAll(b) by {
            forall k | 0 <= k < |b|
              ensures LowerAll(a[..|b|])[k] == LowerAll(b)[k]
            {
              if k > 0 {
                assert LowerAll(a[1..][..|b[1..]|])[k - 1] == LowerAll(b[1..])[k - 1];
              }
            }
          }
        }
      }
    }
  }

  /** `_tcsnicmp` does not depend on the order of its operands. */
  lemma {:induction false} NIcmpSymmetric(a: string, b: string, n: nat)
    ensures NIcmpLoop(a, b, n) <==> NIcmpLoop(b, a, n)
    decreases n
  {
    if n > 0 && |a| > 0 && |b| > 0 {
      NIcmpSymmetric(a[1..], b[1..], n - 1);
    }
  }
}

=== FILE: toolhelp.dfy ===
/** The fallback for systems without the Tool Help functions
    (include/ntutils/tlhelp32_dll.h): the snapshot is the process list
    `NtQuerySystemInformation` fills in, and the process and thread walks
    search that list. The list itself is an input (a sequence of process
    records, each with its threads), and so are the answers of the queries
    that fill it. When the system does have Tool Help, every function
    forwards to it; that path is not modelled. */
module Toolhelp {
  import opened Wrappers
  import Text
  import Processes

  const ErrorNotEnoughMemory: U32 := 8
  const ErrorInvalidData: U32 := 13
  const ErrorNoMoreFiles: U32 := 18
  const ErrorCallNotImplemented: U32 := 120

  const SnapProcess: bv32 := 0x2
  const SnapThread: bv32 := 0x4

  const StatusInfoLengthMismatch: U32 := 0xC000_0004
  const MaxPath: nat := 260

  // ---------------------------------------------------------------------
  // Creating the snapshot
  // ---------------------------------------------------------------------

  /** One round of the query loop: the buffer could not be allocated, or
      the query returned this status. */
  datatype QueryAnswer = AllocationFailed | Answered(status: U32)

  /** How creating the snapshot ends: a buffer of this size holds the
      list (after this many queries); no snapshot, with this last error; a
      failed query, whose status becomes the last error through a
      conversion not modelled here; or no further answer while the buffer
      was still too small. */
  datatype Creation = Snapshot(size: U32, queries: nat) | NoSnapshot(lastError: U32)
                    | QueryFailed(status: U32) | StillGrowing

  /** `NT_SUCCESS`: the status is not negative as a signed 32-bit value. */
  predicate NtSuccess(status: U32) { status < 0x8000_0000 }

  /** `size *= 2` on an `unsigned`. */
  function Double(size: U32): U32 { (size * 2) % 0x1_0000_0000 }

  /** The buffer size after `k` doublings. */
  function Doubled(size: U32, k: nat): (r: U32)
    ensures k == 0 ==> r == size
    decreases k
  {
    if k == 0 then size else Double(Doubled(size, k - 1))
  }

  /** Every answer before the `n`th said the buffer was too small. */
  predicate AllTooSmall(answers: seq<QueryAnswer>, n: nat)
    requires n <= |answers|
  {
    forall k :: 0 <= k < n ==> answers[k] == Answered(StatusInfoLengthMismatch)
  }

  /** The query loop, from a buffer of `size` bytes: query while the answer
      is STATUS_INFO_LENGTH_MISMATCH, doubling the buffer each time. */
  function Grow(size: U32, answers: seq<QueryAnswer>): (r: Creation)
    ensures r.Snapshot? ==> 0 < r.queries <= |answers| && AllTooSmall(answers, r.queries - 1)
                            && r.size == Doubled(size, r.queries - 1)
                            && answers[r.queries - 1].Answered? && NtSuccess(answers[r.queries - 1].status)
    ensures r.QueryFailed? ==> !NtSuccess(r.status) && r.status != StatusInfoLengthMismatch
    ensures r == StillGrowing ==> AllTooSmall(answers, |answers|)
    ensures r.NoSnapshot? ==> r.lastError == ErrorNotEnoughMemory
    decreases |answers|
  {
    if |answers| == 0 then StillGrowing
    else match answers[0]
      case AllocationFailed => NoSnapshot(ErrorNotEnoughMemory)
      case Answered(status) =>
        if status == StatusInfoLengthMismatch then
          match Grow(Double(size), answers[1..])
          case Snapshot(s, n) =>
            DoubledShift(size, n - 1);
            Snapshot(s, n + 1)
          case other => other
        else if NtSuccess(status) then Snapshot(size, 1)
        else QueryFailed(status)
  }

  lemma {:induction false} DoubledShift(size: U32, k: nat)
    ensures Doubled(Double(size), k) == Doubled(size, k + 1)
    decreases k
  {
    if k > 0 {
      DoubledShift(size, k - 1);
    }
  }

  /** `PortableCreateToolhelp32Snapshot` without Tool Help: only the
      process and thread flags are supported, the query function must
      exist, and the buffer starts with room for 64 records. */
  function CreateSnapshot(flags: U32, queryAvailable: bool, recordSize: nat, answers: seq<QueryAnswer>): (r: Creation)
    requires 64 * recordSize < 0x1_0000_0000
    ensures (flags as bv32) & !(SnapProcess | SnapThread) != 0 ==> r == NoSnapshot(ErrorCallNotImplemented)
    ensures (flags as bv32) & !(SnapProcess | SnapThread) == 0 && !queryAvailable ==> r == NoSnapshot(ErrorCallNotImplemented)
    ensures (flags as bv32) & !(SnapProcess | SnapThread) == 0 && queryAvailable ==> r == Grow(64 * recordSize, answers)
  {
    if (flags as bv32) & !(SnapProcess | SnapThread) != 0 then NoSnapshot(ErrorCallNotImplemented)
    else if !queryAvailable then NoSnapshot(ErrorCallNotImplemented)
    else Grow(64 * recordSize, answers)
  }

  /** The query loop itself, over the answers in order. */
  method QueryLoop(size0: U32, answers: seq<QueryAnswer>) returns (r: Creation)
    ensures r == Grow(size0, answers)
  {
    var size := size0;
    var k := 0;
    while k < |answers| && answers[k] == Answered(StatusInfoLengthMismatch)
      invariant 0 <= k <= |answers|
      invariant size == Doubled(size0, k)
      invariant AllTooSmall(answers, k)
      invariant Grow(size0, answers) == Later(Grow(size, answers[k..]), k)
      decreases |answers| - k
    {
      QueryStep(size0, answers, size, k);
      size := Double(size);
      k := k + 1;
    }
    if k == |answers| {
      return StillGrowing;
    }
    assert answers[k..][0] == answers[k];
    match answers[k]
    case AllocationFailed =>
      return NoSnapshot(ErrorNotEnoughMemory);
    case Answered(status) =>
      if NtSuccess(status) {
        return Snapshot(size, k + 1);
      }
      return QueryFailed(status);
  }

  /** One more "too small" answer keeps the loop's invariant. */
  lemma QueryStep(size0: U32, answers: seq<QueryAnswer>, size: U32, k: nat)
    requires k < |answers| && answers[k] == Answered(StatusInfoLengthMismatch)
    requires size == Doubled(size0, k) && AllTooSmall(answers, k)
    requires Grow(size0, answers) == Later(Grow(size, answers[k..]), k)
    ensures Double(size) == Doubled(size0, k + 1) && AllTooSmall(answers, k + 1)
    ensures Grow(size0, answers) == Later(Grow(Double(size), answers[k + 1..]), k + 1)
  {
    assert answers[k..][0] == answers[k] && answers[k..][1..] == answers[k + 1..];
    GrowLater(size, answers[k..]);
  }

  /** A creation seen from `k` queries earlier. */
  function Later(r: Creation, k: nat): Creation {
    match r
    case Snapshot(s, n) => Snapshot(s, n + k)
    case other => other
  }

  lemma GrowLater(size: U32, answers: seq<QueryAnswer>)
    requires |answers| > 0 && answers[0] == Answered(StatusInfoLengthMismatch)
    ensures Grow(size, answers) == Later(Grow(Double(size), answers[1..]), 1)
  {
  }

  // ---------------------------------------------------------------------
  // The snapshot
  // ---------------------------------------------------------------------

  /** A process's image name in the list: no buffer (the idle process), or
      the characters with the recorded `Length`, and whether the code page
      conversion of the ANSI build succeeds on them. */
  datatype NameBuffer = NullBuffer | Buffer(chars: string, length: nat, convertible: bool)

  datatype SystemThread = SystemThread(tid: U32, basePriority: int)

  /** One record of the process list. */
  datatype SystemProcess = SystemProcess(pid: U32, parent: U32, basePriority: int, name: NameBuffer,
                                         threads: seq<SystemThread>)

  /** Which character type the program was built for. */
  datatype Build = Ansi | Unicode

  /** The fields the fallback fills in. */
  datatype ProcessEntry32 = ProcessEntry32(pid: U32, threadCount: nat, parent: U32, basePriority: int, exeFile: string)

  datatype ThreadEntry32 = ThreadEntry32(tid: U32, owner: U32, basePriority: int)

  /** A walk step's answer: the entry, FALSE with this last error, or
      behaviour the C++ language leaves undefined. */
  datatype Answer<+T> = Copied(entry: T) | Failed(error: U32) | Undefined

  /** The image name as copied: in the Unicode build at most MAX_PATH - 1
      characters of the buffer (nothing without one); in the ANSI build
      "Idle" without a buffer, else the converted name, or a failure. */
  function ExeFile(build: Build, name: NameBuffer): (r: Option<string>)
    ensures build == Unicode ==> r.Some? && |r.value| < MaxPath
    ensures build == Unicode && name.Buffer? ==>
              r.value == Text.CStr(name.chars)[..Min(Min(MaxPath - 1, name.length), |Text.CStr(name.chars)|)]
    ensures build == Ansi && name.NullBuffer? ==> r == Some("Idle")
    ensures build == Ansi && name.Buffer? ==> (r.Some? <==> name.convertible)
    ensures build == Ansi && name.Buffer? && name.convertible ==> r == Some(Text.CStr(name.chars))
  {
    match name
    case NullBuffer => if build == Ansi then Some("Idle") else Some("")
    case Buffer(chars, length, convertible) =>
      if build == Unicode then
        var c := Text.CStr(chars);
        Some(c[..Min(Min(MaxPath - 1, length), |c|)])
      else if convertible then Some(Text.CStr(chars))
      else None
  }

  function Min(a: nat, b: nat): nat { if a < b then a else b }

  /** `PortableProcess32_copy_data`. */
  function CopyProcess(build: Build, p: SystemProcess): (r: Option<ProcessEntry32>)
    ensures r.Some? <==> ExeFile(build, p.name).Some?
    ensures r.Some? ==> r.value.pid == p.pid && r.value.threadCount == |p.threads| && r.value.exeFile == ExeFile(build, p.name).value
  {
    match ExeFile(build, p.name)
    case None => None
    case Some(exe) => Some(ProcessEntry32(p.pid, |p.threads|, p.parent, p.basePriority, exe))
  }

  /** `PortableThread32_copy_data`. */
  function CopyThread(p: SystemProcess, t: nat): ThreadEntry32
    requires t < |p.threads|
  {
    ThreadEntry32(p.threads[t].tid, p.pid, p.threads[t].basePriority)
  }

  function AsAnswer(e: Option<ProcessEntry32>): Answer<ProcessEntry32> {
    if e.Some? then Copied(e.value) else Failed(0)
  }

  /** The first record with this pid. */
  function FindPid(snap: seq<SystemProcess>, pid: U32): (r: Option<nat>)
    ensures r.Some? ==> r.value < |snap| && snap[r.value].pid == pid
                        && forall j :: 0 <= j < r.value ==> snap[j].pid != pid
    ensures r.None? ==> forall j :: 0 <= j < |snap| ==> snap[j].pid != pid
  {
    if |snap| == 0 then None
    else if snap[0].pid == pid then Some(0)
    else match FindPid(snap[1..], pid)
      case Some(k) => Some(k + 1)
      case None => None
  }

  /** The first thread with this id. */
  function FindThread(threads: seq<SystemThread>, tid: U32): (r: Option<nat>)
    ensures r.Some? ==> r.value < |threads| && threads[r.value].tid == tid
                        && forall j :: 0 <= j < r.value ==> threads[j].tid != tid
    ensures r.None? ==> forall j :: 0 <= j < |threads| ==> threads[j].tid != tid
  {
    if |threads| == 0 then None
    else if threads[0].tid == tid then Some(0)
    else match FindThread(threads[1..], tid)
      case Some(k) => Some(k + 1)
      case None => None
  }

  /** `PortableProcess32First`: the first record. The list a snapshot
      holds is never empty. The ANSI copy reports a failed conversion as
      FALSE; its last error is the conversion's, shown here as 0. */
  function Process32First(build: Build, snap: seq<SystemProcess>): (r: Answer<ProcessEntry32>)
    requires |snap| > 0
    ensures r.Copied? <==> CopyProcess(build, snap[0]).Some?
    ensures r.Copied? ==> r.entry == CopyProcess(build, snap[0]).value
  {
    AsAnswer(CopyProcess(build, snap[0]))
  }

  /** `PortableProcess32Next`: find the record of the entry's pid, then
      copy the one after it. */
  function Process32Next(build: Build, snap: seq<SystemProcess>, pid: U32): (r: Answer<ProcessEntry32>)
    ensures FindPid(snap, pid).None? ==> r == Failed(ErrorInvalidData)
    ensures FindPid(snap, pid) == Some(|snap| - 1) ==> r == Failed(ErrorNoMoreFiles)
    ensures !r.Undefined?
    ensures r.Copied? ==> FindPid(snap, pid).Some? && FindPid(snap, pid).value + 1 < |snap|
                          && Some(r.entry) == CopyProcess(build, snap[FindPid(snap, pid).value + 1])
  {
    match FindPid(snap, pid)
    case None => Failed(ErrorInvalidData)
    case Some(k) =>
      if k + 1 == |snap| then Failed(ErrorNoMoreFiles)
      else AsAnswer(CopyProcess(build, snap[k + 1]))
  }

  /** `PortableThread32First`: thread 0 of the first record; reading it
      from a process without threads is undefined. */
  function Thread32First(snap: seq<SystemProcess>): (r: Answer<ThreadEntry32>)
    requires |snap| > 0
    ensures |snap[0].threads| > 0 <==> r.Copied?
    ensures r.Copied? ==> r.entry == CopyThread(snap[0], 0)
  {
    if |snap[0].threads| == 0 then Undefined else Copied(CopyThread(snap[0], 0))
  }

  /** `PortableThread32Next`: find the owner's record and the thread in it,
      then copy the next thread, or thread 0 of the next record after the
      owner's last thread. */
  function Thread32Next(snap: seq<SystemProcess>, owner: U32, tid: U32): (r: Answer<ThreadEntry32>)
    ensures FindPid(snap, owner).None? ==> r == Failed(ErrorInvalidData)
    ensures FindPid(snap, owner).Some? && FindThread(snap[FindPid(snap, owner).value].threads, tid).None? ==>
              r == Failed(ErrorInvalidData)
  {
    match FindPid(snap, owner)
    case None => Failed(ErrorInvalidData)
    case Some(k) =>
      match FindThread(snap[k].threads, tid)
      case None => Failed(ErrorInvalidData)
      case Some(t) =>
        if t + 1 < |snap[k].threads| then Copied(CopyThread(snap[k], t + 1))
        else if k + 1 == |snap| then Failed(ErrorNoMoreFiles)
        else if |snap[k + 1].threads| == 0 then Undefined
        else Copied(CopyThread(snap[k + 1], 0))
  }

  // ---------------------------------------------------------------------
  // Walking the snapshot
  // ---------------------------------------------------------------------

  predicate DistinctPids(snap: seq<SystemProcess>) {
    forall j, k :: 0 <= j < k < |snap| ==> snap[j].pid != snap[k].pid
  }

  predicate DistinctTids(threads: seq<SystemThread>) {
    forall j, k :: 0 <= j < k < |threads| ==> threads[j].tid != threads[k].tid
  }

  predicate Copyable(build: Build, snap: seq<SystemProcess>) {
    forall k :: 0 <= k < |snap| ==> CopyProcess(build, snap[k]).Some?
  }

  /** With distinct pids, the search finds the record itself. */
  lemma FindPidDistinct(snap: seq<SystemProcess>, k: nat)
    requires DistinctPids(snap) && k < |snap|
    ensures FindPid(snap, snap[k].pid) == Some(k)
  {
  }

  lemma FindThreadDistinct(threads: seq<SystemThread>, t: nat)
    requires DistinctTids(threads) && t < |threads|
    ensures FindThread(threads, threads[t].tid) == Some(t)
  {
  }

  /** The walk's step from the entry of record `k` of a list with distinct
      pids: the entry of record `k + 1`, or ERROR_NO_MORE_FILES after the
      last. */
  lemma Process32NextInOrder(build: Build, snap: seq<SystemProcess>, k: nat)
    requires DistinctPids(snap) && k < |snap|
    ensures k + 1 < |snap| ==> Process32Next(build, snap, snap[k].pid) == AsAnswer(CopyProcess(build, snap[k + 1]))
    ensures k + 1 == |snap| ==> Process32Next(build, snap, snap[k].pid) == Failed(ErrorNoMoreFiles)
  {
    FindPidDistinct(snap, k);
  }

  /** The walk's step from thread `t` of record `k`, with distinct pids and
      distinct thread ids in that record: the next thread of the record,
      else thread 0 of the next record, else ERROR_NO_MORE_FILES. */
  lemma Thread32NextInOrder(snap: seq<SystemProcess>, k: nat, t: nat)
    requires DistinctPids(snap) && k < |snap| && DistinctTids(snap[k].threads) && t < |snap[k].threads|
    ensures var r := Thread32Next(snap, snap[k].pid, snap[k].threads[t].tid);
            if t + 1 < |snap[k].threads| then r == Copied(CopyThread(snap[k], t + 1))
            else if k + 1 == |snap| then r == Failed(ErrorNoMoreFiles)
            else if |snap[k + 1].threads| > 0 then r == Copied(CopyThread(snap[k + 1], 0))
            else r == Undefined
  {
    FindPidDistinct(snap, k);
    FindThreadDistinct(snap[k].threads, t);
  }

  /** The process walk `find_process` runs (first, then next until FALSE):
      over a list with distinct pids whose names all copy, it yields every
      record in order and stops with ERROR_NO_MORE_FILES. */
  method WalkProcesses(build: Build, snap: seq<SystemProcess>) returns (entries: seq<ProcessEntry32>, last: U32)
    requires |snap| > 0 && DistinctPids(snap) && Copyable(build, snap)
    ensures |entries| == |snap|
    ensures forall k :: 0 <= k < |snap| ==> Some(entries[k]) == CopyProcess(build, snap[k])
    ensures last == ErrorNoMoreFiles
  {
    var answer := Process32First(build, snap);
    entries := [];
    while answer.Copied?
      invariant |entries| <= |snap|
      invariant forall k :: 0 <= k < |entries| ==> Some(entries[k]) == CopyProcess(build, snap[k])
      invariant answer.Copied? ==> |entries| < |snap| && Some(answer.entry) == CopyProcess(build, snap[|entries|])
      invariant !answer.Copied? ==> |entries| == |snap| && answer == Failed(ErrorNoMoreFiles)
      decreases |snap| - |entries|
    {
      var k := |entries|;
      entries := entries + [answer.entry];
      Process32NextInOrder(build, snap, k);
      answer := Process32Next(build, snap, answer.entry.pid);
    }
    last := answer.error;
  }

  /** What `find_process` reads from each entry. */
  function Listing(entries: seq<ProcessEntry32>): (l: seq<Processes.ProcessEntry>)
    ensures |l| == |entries|
    ensures forall k :: 0 <= k < |entries| ==> l[k] == Processes.ProcessEntry(entries[k].pid, entries[k].exeFile)
  {
    seq(|entries|, k requires 0 <= k < |entries| => Processes.ProcessEntry(entries[k].pid, entries[k].exeFile))
  }
}

=== FILE: tools.dfy ===
/** What the two newer command-line tools (src/ntsuspend.cpp and
    src/ntpriority.cpp) share around their own options: the outcome of the
    command line, the XML document wrapped around their output, the exit
    code, and the switch into service mode in `main`. */
module Tools {
  import opened Wrappers
  import Text
  import Results
  import Options

  /** What a command line comes to: the usage text (after the message of an
      option error, if there was one), a run with the gathered settings, or
      nothing defined when the parser read beyond the argument vector. */
  datatype Command<S> = ShowUsage(message: Option<string>) | Configured(setup: S) | Undefined

  /** What makes a tool's option handler end the option loop: the usage
      text, after the message of the option at fault if there is one. */
  type Usage = Option<string>

  /** The option loop of `command_line_main`: the events go in order to the
      tool's handler, and the first one that asks for the usage text ends
      the loop. */
  function HandleEvents<S>(handle: (S, Options.Event) -> Result<S, Usage>, st: S, events: seq<Options.Event>): Result<S, Usage>
    decreases |events|
  {
    if |events| == 0 then Ok(st)
    else match handle(st, events[0])
      case Err(u) => Err(u)
      case Ok(st1) => HandleEvents(handle, st1, events[1..])
  }

  /** `command_line_main` up to the work: the option loop, then the
      parser's own error, then the tool's check of the gathered settings. A
      run is configured exactly when all three let it through, with the
      settings the loop gathered; otherwise the usage text comes with the
      first message any of them gives. A parse that ended reading beyond the
      vector is undefined once the loop has accepted every earlier event. */
  function Configure<S>(handle: (S, Options.Event) -> Result<S, Usage>, initial: S,
                        check: S -> Outcome<string>, p: Options.Parsed): (c: Command<S>)
    ensures var loop := HandleEvents(handle, initial, p.events);
            c.Configured? <==> loop.Ok? && p.failure.None? && !p.undefined && check(loop.value).Pass?
    ensures var loop := HandleEvents(handle, initial, p.events);
            c.Configured? ==> c.setup == loop.value
    ensures var loop := HandleEvents(handle, initial, p.events);
            loop.Err? ==> c == ShowUsage(loop.error)
    ensures HandleEvents(handle, initial, p.events).Ok? && p.failure.Some? ==> c == ShowUsage(p.failure)
    ensures c.Undefined? <==> HandleEvents(handle, initial, p.events).Ok? && p.failure.None? && p.undefined
  {
    match HandleEvents(handle, initial, p.events)
    case Err(u) => ShowUsage(u)
    case Ok(st) =>
      if p.failure.Some? then ShowUsage(p.failure)
      else if p.undefined then Undefined
      else match check(st)
        case Fail(m) => ShowUsage(Some(m))
        case Pass => Configured(st)
  }

  function Opening(name: string): string { "<" + name + " version='1.0'>" }
  function Closing(name: string): string { "</" + name + ">\n" }

  /** The start of the XML document: the root element named after the
      tool, then two info records, for the action and for the target. */
  function Header(r: Results.Results, name: string, action: string, target: string): (h: Results.Results)
    requires r.xml
    ensures h == r.(buffer := r.buffer + Opening(name) + "<info " + action + " />" + "<info " + target + " />")
  {
    var r0 := r.(buffer := r.buffer + Opening(name));
    var r1 := Results.ReportInfo(r0, action);
    Results.ReportInfo(r1, target)
  }

  /** The output of a configured run, given the reports of the work itself
      (the local operation, or the remote request and its response): in XML
      mode wrapped in the root element, in plain mode as they come. None when
      the work is undefined in the original. */
  function Output(r: Results.Results, name: string, action: string, target: string,
                  work: seq<Results.Report>): (o: Option<Results.Results>)
    ensures !r.xml ==> o == Results.Run(r, work)
    ensures r.xml ==> (o.Some? <==> Results.Run(Header(r, name, action, target), work).Some?)
    ensures r.xml && o.Some? ==>
              o.value.buffer == Results.Run(Header(r, name, action, target), work).value.buffer + Closing(name)
  {
    var start := if r.xml then Header(r, name, action, target) else r;
    match Results.Run(start, work)
    case None => None
    case Some(done) => Some(if r.xml then done.(buffer := done.buffer + Closing(name)) else done)
  }

  /** The XML document starts with the header and ends with the closing
      tag; plain output is exactly what the work reported. */
  lemma OutputShape(r: Results.Results, name: string, action: string, target: string, work: seq<Results.Report>)
    requires Output(r, name, action, target, work).Some?
    ensures var b := Output(r, name, action, target, work).value.buffer;
            r.xml ==> var h := Header(r, name, action, target).buffer;
                      |b| >= |h| + |Closing(name)| && b[..|h|] == h && b[|b| - |Closing(name)|..] == Closing(name)
    ensures !r.xml ==> Output(r, name, action, target, work) == Results.Run(r, work)
  {
    if r.xml {
      var h := Header(r, name, action, target);
      Results.RunAppendsOnly(h, work);
      var done := Results.Run(h, work).value;
      var b := done.buffer + Closing(name);
      assert b[..|h.buffer|] == done.buffer[..|h.buffer|];
    }
  }

  /** The exit code: 1 for the usage text and for an exception that
      escapes the run (after its "Error: " line), otherwise the aggregator's
      return code (-1 once an error was reported, 0 otherwise). Only a
      defined command line has one. */
  function ExitCode<S>(c: Command<S>, threw: bool, out: Results.Results): (code: int)
    requires !c.Undefined?
    ensures c.ShowUsage? || threw <==> code == 1
    ensures c.Configured? && !threw ==> (code == -1 <==> out.errorSeen) && (code == 0 <==> !out.errorSeen)
  {
    if c.ShowUsage? || threw then 1 else Results.ReturnCode(out)
  }

  /** `main`: with exactly the one argument "service" the program runs as
      the helper service; otherwise it is the command-line tool. `argv`
      includes the program name. */
  predicate IsServiceMode(argv: seq<string>): (b: bool)
    ensures b <==> |argv| == 2 && |argv[1]| >= 7 && argv[1][..7] == "service" && (|argv[1]| == 7 || argv[1][7] == '\0')
  {
    if |argv| != 2 then false
    else
      Text.CStrIs(argv[1], "service");
      Text.CStr(argv[1]) == "service"
  }

  /** The service mode needs the exact word and no other argument. */
  lemma ServiceModeExamples(program: string)
    ensures IsServiceMode([program, "service"])
    ensures !IsServiceMode([program, "Service"])
    ensures !IsServiceMode([program, "service", "-x"])
    ensures !IsServiceMode([program])
  {
    Text.CStrOfNulFree("service");
    Text.CStrOfNulFree("Service");
  }
}

=== FILE: wrappers.dfy ===
/** Failure-carrying datatypes shared by every module of the model, and the
    fixed-width unsigned integer the wire format and the Win32 calls use. */
module Wrappers {

  /** A value that may be absent: a null pointer, an unset argument. */
  datatype Option<+T> = None | Some(value: T)

  /** The outcome of an operation that can throw: `Err` carries what the
      exception carries (a description or an error record). */
  datatype Result<+T, +E> = Ok(value: T) | Err(error: E) {
    predicate IsFailure() { Err? }
  }

  /** The outcome of a check that returns nothing on success. */
  datatype Outcome<+E> = Pass | Fail(error: E)

  /** What a `handle_option` member does with one parsed option: takes it
      (with the updated state), leaves it to another handler, or throws an
      `option_error` with the given message. */
  datatype Handling<+T> = Handled(state: T) | Unhandled | Rejected(message: string)

  /** A DWORD / `unsigned`: 32 bits, unsigned. */
  type U32 = x: int | 0 <= x < 0x1_0000_0000

  const MaxU32: U32 := 0xFFFF_FFFF
}
